=== FILE: README.md ===
# dice-tray, modelled in Dafny

dice-tray is a command-line dice roller written in Rust. It has two generations, and both are modelled here.

**The current generation.** It is made of two parts.
- The `rust_dice` library provides:
  - `Die32`, a die with an id, a label, a face count, a current face, and a result accumulated across rolls by result type (Face, Best, Worst, Sum);
  - the `Tray` contract and the tray result types;
  - the save records for dice;
  - the die builders and the id generator.
- The `dice_tray_cli` program provides:
  - `CliTray`;
  - the allocator that numbers new dice;
  - the two command parsers (dice notation `NdM`, and dice targets);
  - the app, which keeps an ordered map of trays and moves, drops, rolls and adds dice;
  - the dispatch of the `reset`, `delete`, `add`, `drop` and `roll` subcommands.

**The older generation.** It lives in the `src/` crate and provides:
- a `Die` whose identity can name a result table, which makes it a Table die;
- result tables and the process-wide settings that hold them;
- a positional `Tray`;
- the flag-based command parser (`-add`/`-roll`/`-drop`..., `$name` identity flags, `@i,j` index flags);
- the interactive loop of its `main`, with `--roll NdM`, `--clear`, `--shake` and `--exit`.

Everything is modelled with immutable datatypes and pure functions:
- A call that mutates an object returns the object afterwards, together with what the Rust call returns.
- A call that can panic (an out-of-range index, a `u32` overflow with overflow checks on, a random range `1..=0`) returns `Run<T>`, which is either `Returned(value)` or `Panicked`.
- Randomness is a parameter. A single roll receives its face `f`. A roll of many dice receives a function of the die being rolled, or of a key that tells new dice apart. A validity predicate keeps every such draw in `1..=faces`.
- Rust's `u32` and `usize` bounds appear as `U32_MAX` and `USIZE_MAX` wherever parsing or casting depends on them.

The modules follow the source files:

| module | file | models |
|---|---|---|
| `Results` | `results.dfy` | Option, Result, Run |
| `Text` | `text.dfy` | the parts of Rust's `str` the parsers use |
| `Order` | `order.dfy` | the derived tuple ordering |
| `Notation` | `notation.dfy` | the dice-notation regex |
| `Dice` | `dice.dfy` | rust_dice/src/dice.rs |
| `TrayApi` | `tray_api.dfy` | rust_dice/src/tray.rs |
| `DiceData` | `dice_data.dfy` | rust_dice/src/dice_data.rs |
| `IdGenerator` | `id_generator.dfy` | rust_dice/src/dice_allocator.rs |
| `DiceBuilders` | `dice_builders.dfy` | rust_dice/src/dice_builders.rs |
| `CliTray` | `cli_tray.dfy` | dice_tray_cli/src/cli_dice_tray.rs |
| `CliAllocator` | `cli_allocator.dfy` | dice_tray_cli/src/cli_dice_allocator.rs |
| `CliParser` | `cli_parser.dfy` | dice_tray_cli/src/cli_parser.rs |
| `CliApp` | `app.dfy` | dice_tray_cli/src/app.rs |
| `CliMain` | `cli_main.dfy` | dice_tray_cli/src/main.rs |
| `LegacyTables` | `legacy_tables.dfy` | src/tables.rs |
| `LegacySettings` | `legacy_settings.dfy` | src/settings.rs |
| `LegacyDice` | `legacy_dice.dfy` | src/dice.rs |
| `LegacyTray` | `legacy_tray.dfy` | src/tray.rs |
| `LegacyParser` | `legacy_parser.dfy` | src/cli_parser.rs |
| `LegacyMain` | `legacy_main.dfy` | src/main.rs |

## Where the code and its documentation disagree

The model follows the code in each of these cases.
- **Adding to a missing tray.** The help text of `add` says that targeting a tray that does not exist creates it. `add_dice_from_raw` creates nothing:
  - each die is made, which still uses up an id;
  - the die is then dropped when the tray lookup fails.

  `CliApp.AddEach` and `CliApp.AddDiceFromRaw` state this.
- **Which tray is targeted.** The `--tray` help says that an unknown tray id falls back to the "Main" tray. `get_tray_mut` returns an error instead. With no id, it picks the first tray in insertion order, which is not necessarily "Main".
- **Tray contract and `CliTray` signatures.** Several signatures differ between the `Tray` trait docs and `CliTray`:
  - `roll_all`, `roll_at` and `roll_by_label` take `DieResultType` in the trait and `Option<DieResultType>` in `CliTray`;
  - `Die32::new` takes four arguments, but `new_die` passes three;
  - `app.rs` calls `DieProfile::new` with three arguments and refers to `DieProfileType`, and calls allocator methods (`new_tray`, `new_die_from_data`) that `CliDiceAllocator` does not define.

  The model takes the reading that the calling code implies:
  - the result type is optional;
  - a profile carries an optional result type;
  - the allocator numbers every die it makes, including restored ones.
- **A die allocator that cannot fail.** `add_dice_from_raw` matches the result of `new_die` against `Ok(die)` and `Err(e)`, but `CliDiceAllocator::new_die` returns the die itself, with no `Result`. No code can produce the `Err` arm. `CliApp.AddOne` takes the infallible reading: every draw makes a die and advances the counter.
- **The older tray's rolls.** `roll_all` and `roll_at` call `die.roll()` with no argument, but the older `Die::roll` takes a result type. They are modelled as rolls that ask for the die's own type.

## Model

| member | source | states |
|---|---|---|
| `Dice.Fold` | rust_dice/src/dice.rs:244-266 | Reference meaning of one accumulation step. Best keeps the larger of the previous result and the face, Worst the smaller, Sum adds the face, Face takes the face. |
| `Dice.UpdateResult` | rust_dice/src/dice.rs:244-266 | Only the result changes. A numeric previous result is combined with the face exactly as `Fold` says. A Face die shows its face. A non-numeric previous result counts as 1 for Best, as `faces` for Worst (so it is kept when the face is the maximum) and as 0 for Sum (so the result becomes the face). |
| `Dice.SetResultType` | rust_dice/src/dice.rs:227-242 | Asking for the current type changes nothing. Otherwise the die takes the new type, and an in-range face becomes its whole result, whatever the type. Label, faces and face are untouched. |
| `Dice.Roll` | rust_dice/src/dice.rs:123-129 | The die shows the drawn face, in range. Id, label and face count are kept. The type becomes the requested one, or stays when none is requested. |
| `Dice.RollFolds` | rust_dice/src/dice.rs:123-129 | Rolling with no type, or with the die's own type, combines the new face into the previous result without resetting it. |
| `Dice.RollSwitchingType` | rust_dice/src/dice.rs:123-129 | Rolling with a new type resets the result to the old face, then combines the new face. For example, switching to Sum yields old face plus new face. |
| `Dice.RollMany` | rust_dice/src/dice.rs:123-129 | A sequence of rolls keeps the face count and the result type. |
| `Dice.SumAccumulates` | rust_dice/src/dice.rs:261-264 | After n rolls, a Sum die's result is its previous result plus the sum of all n drawn faces. |
| `Dice.Draws` | rust_dice/src/dice.rs:123-129 | The creation draws of a batch of dice: one per die, each in `1..=faces`. |
| `Dice.NewAsWritten` | rust_dice/src/dice.rs:170-196 | As written, a new die has the given id and faces, shows the first face, takes the given label or "d" followed by its face count, and the given type or Face. Its first result is the placeholder 1 combined with the first face under that type. |
| `Dice.NewAsWrittenMisreports` | rust_dice/src/dice.rs:170-196 | A fresh six-sided Worst die showing 4 reports 1. A fresh Sum die showing 3 reports 4. |
| `Dice.New` | rust_dice/src/dice.rs:170-196 | Corrected constructor. The die gets the given id and face count, the label or "d" plus the face count, the type or Face, and the first face as its result. |
| `Dice.Increment` | rust_dice/src/dice.rs:139-144 | One face up, wrapping from `faces` to 1, with only the face changing. With overflow checks on, it panics exactly on a face of `u32::MAX`. |
| `Dice.Decrement` | rust_dice/src/dice.rs:146-151 | One face down, wrapping from 1 to `faces`, with only the face changing. With overflow checks on, it panics exactly on a face of 0. |
| `Dice.IncrementWrapping` | rust_dice/src/dice.rs:139-144 | Without overflow checks: below `u32::MAX` it is the checked step, and at `u32::MAX` the face wraps to 0 and stays there. Only the face changes. |
| `Dice.DecrementWrapping` | rust_dice/src/dice.rs:146-151 | Without overflow checks: above 0 it is the checked step, and at 0 the face wraps to `u32::MAX` and stays there. Only the face changes. |
| `Dice.MaxFacedDieWraps` | rust_dice/src/dice.rs:139-144 | A die with `u32::MAX` faces showing its maximum is in range. The checked build panics on increment, and the wrapping build leaves face 0, which is out of range. |
| `Dice.IncrementDecrementInverse` | rust_dice/src/dice.rs:131-151 | On an in-range face, neither call panics and each undoes the other. The maximum face increments to the minimum, and the minimum decrements to the maximum. |
| `Dice.I32AsU32` | rust_dice/src/dice.rs:153-154 | The `as u32` cast keeps non-negative values and sends negative ones to `2^31` or above. |
| `Dice.SetFace` | rust_dice/src/dice.rs:153-161 | The face is clamped into `[1, faces]` after the cast. A negative argument therefore lands on `faces`, not 1. The result is untouched. |
| `Dice.SetCurrentFace` | rust_dice/src/dice.rs:211-224 | The face is clamped into `[1, faces]`. An in-range value is kept, 0 becomes 1, and a value above the range becomes `faces`. |
| `Dice.Compare` | rust_dice/src/dice.rs:270-293 | Dice compare equal exactly when face, face count and label agree. Swapping the operands flips the verdict, and a lower face orders first. |
| `Dice.CompareTransitive` | rust_dice/src/dice.rs:285-293 | The die ordering is transitive: Less followed by Less is Less. |
| `Order.CompareNat` | rust_dice/src/dice.rs:285-293 | Less, Equal and Greater hold exactly when `<`, `=` and `>` do. |
| `Order.CompareString` | rust_dice/src/dice.rs:285-293 | Label comparison reports Equal exactly on equal strings. |
| `Order.CompareStringFlip` | rust_dice/src/dice.rs:285-293 | Swapping the operands of a label comparison flips it. |
| `Order.CompareStringTransitive` | rust_dice/src/dice.rs:285-293 | Label comparison is transitive. |
| `Order.CompareKeyEqual` | rust_dice/src/dice.rs:270-275 | Keys compare Equal exactly when all three components are equal, which is the `PartialEq` of the source. |
| `Order.CompareKeyFlip` | rust_dice/src/dice.rs:285-293 | Swapping the operands of a key comparison flips it. |
| `Order.CompareKeyTransitive` | rust_dice/src/dice.rs:285-293 | Key comparison is transitive. |
| `TrayApi.TypeToStringInjective` | rust_dice/src/tray.rs:10-18 | The three aggregate captions differ, so a caption names its aggregate type. |
| `TrayApi.ResultToString` | rust_dice/src/tray.rs:26-34 | A number renders as digits that read back as the number. A text renders as itself, and no result as "None". |
| `DiceData.FromDie` | rust_dice/src/dice_data.rs:38-50 | The save record copies label, faces, face, result and type, plus the seed the die reports. |
| `DiceData.FromData` | rust_dice/src/dice.rs:198-209 | Restoring takes the id from the caller and copies every saved field without rolling or clamping. |
| `DiceData.ToDie` | rust_dice/src/dice_data.rs:17-26 | Same as `FromData`, through the tagged record. |
| `DiceData.SaveRestore` | rust_dice/src/dice_data.rs:17-50 | Saving then restoring gives back the same die, except for the id supplied at restore time. |
| `DiceData.RestoreSave` | rust_dice/src/dice_data.rs:17-50 | Restoring then saving gives back the record, except for the reported seed. |
| `IdGenerator.New` | rust_dice/src/dice_allocator.rs:24-29 | Both counters start at 0. |
| `IdGenerator.GetDieId` | rust_dice/src/dice_allocator.rs:31-35 | Returns the die counter and advances it by one, leaving the tray counter alone. |
| `IdGenerator.GetTrayId` | rust_dice/src/dice_allocator.rs:37-41 | Returns the tray counter and advances it by one, leaving the die counter alone. |
| `IdGenerator.DieIds` | rust_dice/src/dice_allocator.rs:31-35 | n calls hand out n consecutive ids, so the ids strictly increase and are pairwise distinct. |
| `IdGenerator.CountersIndependent` | rust_dice/src/dice_allocator.rs:31-41 | Taking a tray id does not change the next die id, and taking a die id does not change the next tray id. |
| `DiceBuilders.NewDie` | rust_dice/src/dice_builders.rs:5-14 | A numerical profile becomes the die `Die32::new` makes as written: the given id and the profile's faces, the profile's label or the default, the profile's type or Face, the first face shown, and the placeholder 1 combined with that face as its result. |
| `DiceBuilders.NewDieAgainstNew` | rust_dice/src/dice_builders.rs:5-14 | The die `new_die` makes differs from the corrected constructor in its result alone. For Face and Best dice the two agree; a Sum die reports 1 plus its face, and a Worst die reports 1. |
| `DiceBuilders.NewNumDie` | rust_dice/src/dice_builders.rs:17-20 | Same as `new_die` with a `Numerical(faces)` profile and no result type, so the die is a Face die and its first result is its first face: the placeholder does no harm here. |
| `DiceBuilders.NewDiceSet` | rust_dice/src/dice_builders.rs:23-31 | `count` dice, die i being exactly `new_num_die(i, None, faces)` with creation face `draws[i]`: id i, default label, Face type, and result the face itself. |
| `DiceBuilders.NewDiceFromVec` | rust_dice/src/dice_builders.rs:34-39 | One die per entry, in order, die i being exactly `new_num_die(i, None, entry)` with creation face `draws[i]`: the id is the position, the label is the default, the type is Face and the result is the face. |
| `DiceBuilders.NewDiceFromVecWithLabel` | rust_dice/src/dice_builders.rs:41-46 | One die per entry, in order, die i being exactly `new_num_die` with the position as id, the entry's label and faces, and creation face `draws[i]`. The label is the entry's or the default, the type is Face and the result is the face. |
| `CliTray.New` | dice_tray_cli/src/cli_dice_tray.rs:48-54 | An empty tray with the given id and aggregate Sum. |
| `CliTray.AddDie` | dice_tray_cli/src/cli_dice_tray.rs:64-66 | The die is appended and nothing else changes. |
| `CliTray.AddDice` | dice_tray_cli/src/cli_dice_tray.rs:69-73 | Pushing one by one appends the dice in argument order. |
| `CliTray.RemoveDieAt` | dice_tray_cli/src/cli_dice_tray.rs:76-85 | Succeeds exactly for an index in range. The removed die put back at its index restores the tray. Out of range gives Err with the tray unchanged. |
| `CliTray.ScanForId` | dice_tray_cli/src/cli_dice_tray.rs:89-105 | The backwards scan stops at the highest index holding the id, reports none when no index up to the start holds it, and goes out of bounds exactly when the start is past the end. |
| `CliTray.RemoveDieByIdAsWritten` | dice_tray_cli/src/cli_dice_tray.rs:89-105 | As written, every call panics: the scan starts one past the last die. |
| `CliTray.RemoveDieById` | dice_tray_cli/src/cli_dice_tray.rs:89-105 | Corrected. Err, with the tray unchanged, exactly when no die has the id. Otherwise the last die with the id is removed and returned, and the others keep their order. |
| `CliTray.RemoveDieByIdUnique` | dice_tray_cli/src/cli_dice_tray.rs:87-88 | When ids are unique, the removed die is the one die with that id. |
| `CliTray.Select` | dice_tray_cli/src/cli_dice_tray.rs:108-125 | Keeps only accepted elements, and is empty exactly when none is accepted. |
| `CliTray.SelectAppend` | dice_tray_cli/src/cli_dice_tray.rs:108-125 | Selecting from two pieces gives the selection from the first followed by that from the second. |
| `CliTray.SelectOne` | dice_tray_cli/src/cli_dice_tray.rs:108-125 | An empty sequence selects nothing, and one element is selected exactly when it is accepted. With `SelectAppend` this fixes the selection to the accepted elements in their original order. |
| `CliTray.Reject` | dice_tray_cli/src/cli_dice_tray.rs:108-125 | Keeps only rejected elements, and is empty exactly when every element is accepted. |
| `CliTray.RejectAppend` | dice_tray_cli/src/cli_dice_tray.rs:108-125 | Rejecting from two pieces gives the rejects of the first followed by those of the second. |
| `CliTray.RejectOne` | dice_tray_cli/src/cli_dice_tray.rs:108-125 | One element is kept exactly when it is not accepted. With `RejectAppend` this fixes the result to the rejected elements in order. |
| `CliTray.SelectRejectPartition` | dice_tray_cli/src/cli_dice_tray.rs:108-125 | Select and Reject together are a permutation of the input: nothing is lost and nothing invented. |
| `CliTray.Keep` | dice_tray_cli/src/cli_dice_tray.rs:108-125 | The dice left behind carry other labels. Being `Reject` by label, they are exactly the other-labelled dice in tray order, as `RejectAppend` and `RejectOne` fix. |
| `CliTray.Matching` | dice_tray_cli/src/cli_dice_tray.rs:108-125 | The dice taken carry the label, and there are none exactly when no die has it. Being `Select` by label, they are exactly the labelled dice in tray order, as `SelectAppend` and `SelectOne` fix. |
| `CliTray.KeepMatchingPartition` | dice_tray_cli/src/cli_dice_tray.rs:108-125 | Kept and matching dice together are the tray's dice, as a multiset. |
| `CliTray.Reverse` | dice_tray_cli/src/cli_dice_tray.rs:108-125 | The elements, last first. |
| `CliTray.ReverseMultiset` | dice_tray_cli/src/cli_dice_tray.rs:108-125 | Reversing keeps the multiset. |
| `CliTray.RemoveDiceByLabel` | dice_tray_cli/src/cli_dice_tray.rs:107-125 | Corrected. Err, with the tray unchanged, exactly when no die has the label. Otherwise the remaining dice are `Keep` of the tray, in tray order, and the returned dice are `Matching` reversed, last labelled die first, as the backwards loop pushes them; returned plus remaining dice are the original dice. |
| `CliTray.RemoveDiceByLabelAsWritten` | dice_tray_cli/src/cli_dice_tray.rs:108-125 | As written, it panics exactly on an empty tray. On any other tray it agrees with `RemoveDiceByLabel`. |
| `CliTray.RemoveDiceByLabelEmptyTray` | dice_tray_cli/src/cli_dice_tray.rs:110 | On a new tray, the source panics where the tray contract asks for Err. |
| `CliTray.KeepStep` | dice_tray_cli/src/cli_dice_tray.rs:112-119 | One index of the backwards walk either drops the die there or keeps it. |
| `CliTray.ScanStep` | dice_tray_cli/src/cli_dice_tray.rs:112-119 | Both halves of one loop step together: the state after index k equals "prefix + kept suffix", and the removed dice are collected in reverse order. |
| `CliTray.ScanStepKeep` | dice_tray_cli/src/cli_dice_tray.rs:112-119 | At index k, removing a matching die, or keeping another one, turns "dice up to k + kept suffix after k" into "dice before k + kept suffix from k". |
| `CliTray.ScanStepMatching` | dice_tray_cli/src/cli_dice_tray.rs:112-119 | The reversed list of matching dice from index k is the list from k+1 with the die at k added when it matches, which is the order the loop pushes them. |
| `CliTray.ScanDone` | dice_tray_cli/src/cli_dice_tray.rs:120-124 | After the loop reaches index 0, the Err-or-Ok decision on an empty or non-empty collection gives exactly `RemoveDiceByLabel`. |
| `CliTray.RemoveDiceByLabelScan` | dice_tray_cli/src/cli_dice_tray.rs:108-125 | The index-walking loop of the source computes exactly `RemoveDiceByLabel` on a non-empty tray. |
| `CliTray.RollAll` | dice_tray_cli/src/cli_dice_tray.rs:128-132 | Every die is rolled once with the same optional type: die j becomes `Dice.Roll` of the old die with its draw, so it shows the draw and its result combines it. Order, ids, labels and face counts are kept. |
| `CliTray.RollAt` | dice_tray_cli/src/cli_dice_tray.rs:135-143 | Ok exactly for an index in range, and then only that die is replaced, by `Dice.Roll` of it with the given face. Out of range gives Err and leaves everything unchanged. |
| `CliTray.RollByLabel` | dice_tray_cli/src/cli_dice_tray.rs:146-163 | Err, with nothing changed, exactly when no die has the label. Otherwise each labelled die becomes `Dice.Roll` of it with its draw, and every other die is unchanged. |
| `CliTray.RemoveAll` | dice_tray_cli/src/cli_dice_tray.rs:169-177 | The tray is always left empty. It returns all the dice, or Err exactly when it was already empty. |
| `CliTray.RemoveAllTwice` | dice_tray_cli/src/cli_dice_tray.rs:169-177 | A second `remove_all` always reports the empty tray. |
| `CliTray.Clear` | dice_tray_cli/src/cli_dice_tray.rs:180-182 | Empties the tray and keeps id and aggregate type. |
| `CliTray.Values` | dice_tray_cli/src/cli_dice_tray.rs:193-226 | Each die contributes its number, or 0. |
| `CliTray.MaxOf` | dice_tray_cli/src/cli_dice_tray.rs:203-213 | The returned value is in the list and no element exceeds it. |
| `CliTray.MinOf` | dice_tray_cli/src/cli_dice_tray.rs:214-224 | The returned value is in the list and no element is below it. |
| `CliTray.GetResult` | dice_tray_cli/src/cli_dice_tray.rs:193-226 | Sum always gives a number. Best and Worst give none exactly on an empty tray; otherwise they give a value that some die has and that bounds every die's value. |
| `CliTray.SumResultAddDie` | dice_tray_cli/src/cli_dice_tray.rs:195-202 | An empty tray sums to 0, and adding a die adds its number to the sum. |
| `CliTray.GetSummary` | dice_tray_cli/src/cli_dice_tray.rs:228-234 | An empty tray has an empty summary. |
| `CliTray.SummaryAddDie` | dice_tray_cli/src/cli_dice_tray.rs:228-234 | Adding a die appends exactly its "@index:" entry, with the next index. |
| `CliTray.TrayToData` | dice_tray_cli/src/cli_dice_tray.rs:13-26 | The record carries the tray id as label and one die record per die, in order. |
| `CliTray.TrayFromData` | dice_tray_cli/src/app.rs:312-321 | A reloaded tray has the record's label, aggregate Sum, and die j restored with the id `firstId + j`. |
| `CliTray.TraySaveRestore` | dice_tray_cli/src/app.rs:294-347 | Saving and reloading a tray keeps its label and every die's visible state, in order. Only the ids are new. |
| `CliTray.TrayContract` | rust_dice/src/tray.rs:60-71 | Each targeted removal of the tray contract fails exactly when nothing matches: a bad index, an unknown id, an unknown label, or an empty tray. |
| `CliTray.TrayRollContract` | rust_dice/src/tray.rs:79-85 | Each targeted roll fails exactly when nothing matches: an index past the end, or a label no die carries. |
| `CliAllocator.New` | dice_tray_cli/src/cli_dice_allocator.rs:28-33 | No trays, and the first die will get id 0. |
| `CliAllocator.NewDie` | dice_tray_cli/src/cli_dice_allocator.rs:16-20 | The die is `new_die` with the current counter as id, and the counter advances by exactly one. |
| `CliAllocator.NewDieFromData` | dice_tray_cli/src/app.rs:316-318 | A restored die gets the next id, and the counter advances by one. |
| `CliAllocator.NewDice` | dice_tray_cli/src/app.rs:77-87 | n successive `new_die` calls give n dice with consecutive ids from the counter, die j being `new_die` with draw j, and the counter advances by n. |
| `CliAllocator.NewDiceCons` | dice_tray_cli/src/cli_dice_allocator.rs:16-20 | A batch is its first die followed by the batch made after it. |
| `CliAllocator.NewDiceIdsIncrease` | dice_tray_cli/src/cli_dice_allocator.rs:16-20 | Ids within a batch strictly increase, are at least the old counter, and are below the new one. |
| `CliParser.NotationPairs` | dice_tray_cli/src/cli_parser.rs:10-30 | At most one pair per token, each within `u32`. |
| `CliParser.NotationPairsEmpty` | dice_tray_cli/src/cli_parser.rs:10-30 | No pairs exactly when no token is dice notation. |
| `CliParser.PairOf` | dice_tray_cli/src/cli_parser.rs:11-28 | A token gives one pair exactly when it matches the notation. |
| `CliParser.ParseDiceNotation` | dice_tray_cli/src/cli_parser.rs:6-37 | Err exactly when no whitespace-separated token is notation. Otherwise the non-empty list of the notation tokens' pairs, in order. |
| `CliParser.RenderedNotationMatches` | dice_tray_cli/src/cli_parser.rs:4 | "NdM" written from two `u32` values is a single token that matches the regex and decodes to the same pair. |
| `CliParser.RenderNotations` | dice_tray_cli/src/cli_parser.rs:4 | One token per pair, in order. |
| `CliParser.NotationPairsOfRendered` | dice_tray_cli/src/cli_parser.rs:10-30 | The pairs of rendered tokens are the original pairs. |
| `CliParser.ParseRenderedNotation` | dice_tray_cli/src/cli_parser.rs:6-37 | Parsing space-separated "NdM" tokens gives back exactly the pairs, in order, whenever they fit a `u32`. |
| `CliParser.MissingCountZeroFaces` | dice_tray_cli/src/cli_parser.rs:12-21 | "d0" parses as one die with zero faces. |
| `CliParser.CountedZeroFaces` | dice_tray_cli/src/cli_parser.rs:12-26 | "2D0" parses as two dice with zero faces; the letter is case-insensitive. |
| `CliParser.ParseEach` | dice_tray_cli/src/cli_parser.rs:50-53 | Collecting into a Result fails exactly when some piece fails. Otherwise it gives one value per piece, in order. |
| `CliParser.ParseIndexList` | dice_tray_cli/src/cli_parser.rs:50-53 | Same as `ParseEach`, with trimmed `usize` parsing. |
| `CliParser.ParseTarget` | dice_tray_cli/src/cli_parser.rs:49-64 | A token with a comma, or made only of digits, is an index list, which fails when a piece does not parse. Any other token is a label. |
| `CliParser.ParseTargetList` | dice_tray_cli/src/cli_parser.rs:48-65 | Err (invalid index format) exactly when some token fails. Otherwise one target per token, in order. |
| `CliParser.ParseDiceTargets` | dice_tray_cli/src/cli_parser.rs:44-72 | Err exactly when there is no token or some index token fails. Otherwise one target per token, and index tokens give index targets. |
| `CliParser.RenderIndices` | dice_tray_cli/src/cli_parser.rs:50-53 | One decimal piece per index, in order. |
| `CliParser.ParseEachAll` | dice_tray_cli/src/cli_parser.rs:50-53 | When every piece parses, collecting gives exactly those values. |
| `CliParser.IndexListOfRendered` | dice_tray_cli/src/cli_parser.rs:50-53 | Indices that fit a `usize` survive rendering and parsing. |
| `CliParser.RenderedIndexToken` | dice_tray_cli/src/cli_parser.rs:49-53 | A rendered index list is one token, read as indices, that splits back into its pieces. |
| `CliParser.RenderedTargetParses` | dice_tray_cli/src/cli_parser.rs:49-64 | A well-formed target, written out, parses back to itself. |
| `CliParser.RenderTargets` | dice_tray_cli/src/cli_parser.rs:44-72 | One token per target, in order. |
| `CliParser.TargetListOfRendered` | dice_tray_cli/src/cli_parser.rs:48-65 | Rendered well-formed targets parse back to the same list. |
| `CliParser.ParseRenderedTargets` | dice_tray_cli/src/cli_parser.rs:44-72 | Writing well-formed targets out and parsing the command gives the same targets in the same order. |
| `CliParser.LoneCommaRejected` | dice_tray_cli/src/cli_parser.rs:49-59 | "," is an index token whose two empty pieces fail, so the command is rejected. |
| `CliApp.Find` | dice_tray_cli/src/app.rs:279-292 | Returns the position of the first tray with the key, or none exactly when no tray has it. |
| `CliApp.FindSameKeys` | dice_tray_cli/src/app.rs:279-292 | Lookup depends only on the trays' ids. |
| `CliApp.GetTrayMut` | dice_tray_cli/src/app.rs:279-292 | With a key: the tray with that id, or Err exactly when none has it. Without one: the first tray, or Err exactly on an empty map. |
| `CliApp.GetTrayMutUnique` | dice_tray_cli/src/app.rs:279-292 | With unique ids, the lookup finds the one tray with the key. |
| `CliApp.SetTray` | dice_tray_cli/src/app.rs:279-292 | Writing back a tray with the same id keeps every key's position and keeps keys unique. |
| `CliApp.New` | dice_tray_cli/src/app.rs:24-29 | A fresh allocator and no trays. |
| `CliApp.InsertNew` | dice_tray_cli/src/app.rs:36-46 | A loaded tray is appended exactly when its id is not present yet. |
| `CliApp.InsertAll` | dice_tray_cli/src/app.rs:36-46 | Loading only appends: the trays already present stay, in order. |
| `CliApp.InsertAllKeepsFirst` | dice_tray_cli/src/app.rs:36-49 | Loading keeps ids unique and makes every loaded id present. Each appended tray is the first loaded tray with its id. |
| `CliApp.InsertAllUnique` | dice_tray_cli/src/app.rs:36-46 | Loading keeps ids unique. |
| `CliApp.InsertAllHasLoaded` | dice_tray_cli/src/app.rs:36-46 | Every loaded id is present after loading. |
| `CliApp.InsertAllFirstLoaded` | dice_tray_cli/src/app.rs:36-46 | Each appended tray is the first loaded tray with its id, and its id was not present before. |
| `CliApp.KeptPosition` | dice_tray_cli/src/app.rs:36-46 | A loaded tray whose name no earlier tray uses appears, unchanged, somewhere in the result of inserting all loaded trays into an empty map. |
| `CliApp.Init` | dice_tray_cli/src/app.rs:31-61 | Afterwards there is at least one tray, unique ids stay unique, and every loaded id is present. The allocator has advanced by exactly the number of restored dice, and if every die id was below the counter before, every die id is below it after. Starting from no trays, when loading fails or yields none, there is exactly one empty "Main" tray. |
| `CliApp.RestoreDice` | dice_tray_cli/src/app.rs:316-318 | Each saved die is restored through the allocator: die j is the saved record with id counter + j, and the counter advances by the number of records. |
| `CliApp.LoadTrays` | dice_tray_cli/src/app.rs:310-324 | One tray per record, in record order, each with the record's name. The counter advances by the total number of saved dice. |
| `CliApp.LoadTraysFromData` | dice_tray_cli/src/app.rs:310-324 | Tray k is record k restored with dice ids starting where the records before it left the counter. |
| `CliApp.LoadTraysSnoc` | dice_tray_cli/src/app.rs:310-324 | Loading one more record appends exactly that record's restored tray. |
| `CliApp.LoadTraysNumbered` | dice_tray_cli/src/app.rs:310-324 | Tray k's dice are numbered from the old counter plus the number of dice saved in the records before it. |
| `CliApp.LoadTraysIdsFresh` | dice_tray_cli/src/app.rs:310-324 | Every restored die id lies between the counter before loading and the counter after. |
| `CliApp.RestoredTray` | dice_tray_cli/src/app.rs:313-320 | Creating the tray with the record's name and adding the restored dice gives the record's tray, as `CliTray.TrayFromData` restores it. |
| `CliApp.DiceCountPrefix` | dice_tray_cli/src/app.rs:310-324 | The dice saved before record k, plus record k's own, are at most all the dice saved, so record k's ids fit below the final counter. |
| `CliApp.InitKeepsFirst` | dice_tray_cli/src/app.rs:36-46 | Starting the app with saved records, the first record with a given name is restored as a tray, with its dice numbered after those of the records before it. |
| `CliApp.KeptRecord` | dice_tray_cli/src/app.rs:36-46 | The first record with a given name is the tray inserting the loaded trays keeps, restored with the ids the allocator hands its dice. |
| `CliApp.InitFromEmpty` | dice_tray_cli/src/app.rs:31-61 | On a new app with at least one record, the trays after `init` are the loaded trays inserted in order with duplicates skipped. |
| `CliApp.DeleteTray` | dice_tray_cli/src/app.rs:122-139 | Removes exactly the named tray, keeping the others in order. "Main" is never removed. No id, or an unknown id, changes nothing. With unique ids, the deleted id is gone afterwards. |
| `CliApp.RemovedKeys` | dice_tray_cli/src/app.rs:122-139 | Taking one tray out keeps every other id present, and with unique ids removes that tray's id. |
| `CliApp.Reset` | dice_tray_cli/src/app.rs:254-262 | Exactly one tray remains, an empty "Main". |
| `CliApp.NewTray` | dice_tray_cli/src/app.rs:269-277 | Err, with nothing changed, exactly when the id is taken. Otherwise an empty tray with that id is appended, and ids stay unique. |
| `CliApp.RollAll` | dice_tray_cli/src/app.rs:141-146 | Only the targeted tray is rolled, through `CliTray.RollAll`. A failed lookup changes nothing. |
| `CliApp.TargetedTail` | dice_tray_cli/src/app.rs:155-165 | A die no target names is named neither by the first target nor by the later ones. |
| `CliApp.RollIndices` | dice_tray_cli/src/app.rs:156-160 | Only listed positions can change. Ids, labels and face counts never change, and dice stay rollable. |
| `CliApp.RollIndicesDistinct` | dice_tray_cli/src/app.rs:156-160 | With no index listed twice, every listed position in range is rolled exactly once: it becomes `Dice.Roll` of the old die with its draw. |
| `CliApp.RollTargets` | dice_tray_cli/src/app.rs:155-165 | A die no target names is unchanged. Ids, labels and face counts never change. When every target is a label and no label is listed twice, each targeted die becomes `Dice.Roll` of the old die with its draw. Mixed lists decompose through `RollTargetsAppend` and `RollTargetsOne`. |
| `CliApp.RollTargetsOne` | dice_tray_cli/src/app.rs:156-164 | One index target is the index loop, and one label target is `roll_by_label` on the tray. |
| `CliApp.RollTargetsAppend` | dice_tray_cli/src/app.rs:155-165 | Rolling the targets a then b is rolling a, then b on the result, the order `for_each` visits them. |
| `CliApp.DistinctLabelsRolledOnce` | dice_tray_cli/src/app.rs:155-165 | If the later targets roll each die they name exactly once, then for a list of distinct labels the whole list does too: the first label rolls its dice, and the later labels leave them alone. |
| `CliApp.RollAtTargets` | dice_tray_cli/src/app.rs:148-168 | Always Ok. Only the targeted tray changes, and within it only the dice some target names. |
| `CliApp.DropAll` | dice_tray_cli/src/app.rs:170-178 | Empties the targeted tray. A failed lookup changes nothing. |
| `CliApp.RemoveDieAtMultiset` | dice_tray_cli/src/cli_dice_tray.rs:76-85 | Remaining dice plus the removed die are the original dice. |
| `CliApp.DropIndices` | dice_tray_cli/src/app.rs:189-193 | Dropping never adds or changes dice: the result is a sub-multiset. |
| `CliApp.DropTargets` | dice_tray_cli/src/app.rs:187-198 | Panics only with a label target, and does panic when the first target is a label and the tray is empty. Otherwise the tray keeps its id and type, its dice are a sub-multiset of the old ones, and on Ok no remaining die carries a label a target named. |
| `CliApp.DropFirst` | dice_tray_cli/src/app.rs:188-196 | One target: a label panics exactly on an empty tray, as `remove_dice_by_label` does. Otherwise the dice shrink to a sub-multiset, and a label on Ok leaves no die with that label. |
| `CliApp.DropTargetsTail` | dice_tray_cli/src/app.rs:187-198 | Dropping the first target and then the rest keeps both facts of `DropTargets` for the whole list. |
| `CliApp.LabelTargetInTail` | dice_tray_cli/src/app.rs:187-198 | A label among the later targets is a label among all of them. |
| `CliApp.DropAtTargets` | dice_tray_cli/src/app.rs:180-201 | A failed lookup is returned, with nothing changed. Otherwise the call panics exactly when dropping the targets from the tray panics, which needs a label target. If not, the targeted tray is replaced by the result, and the call is Ok exactly when every target was. |
| `CliApp.WithoutPrefix` | dice_tray_cli/src/app.rs:189-193 | Positions all below n affect only the first n dice. |
| `CliApp.WithoutIgnoresBeyond` | dice_tray_cli/src/app.rs:189-193 | A position past the end removes nothing. |
| `CliApp.WithoutLargest` | dice_tray_cli/src/app.rs:189-193 | Removing the largest listed position first agrees with removing the whole set of positions. |
| `CliApp.RemoveDieAtSplice` | dice_tray_cli/src/cli_dice_tray.rs:76-85 | In range, removal is the splice around the index. |
| `CliApp.DropIndicesStep` | dice_tray_cli/src/app.rs:189-193 | The last listed index is removed first. |
| `CliApp.PositionsOfSnoc` | dice_tray_cli/src/app.rs:189-193 | The positions of a list are those of its front plus its last element. |
| `CliApp.DropAscendingIndices` | dice_tray_cli/src/app.rs:189-193 | Removing an ascending list of in-range positions from the last to the first succeeds and removes exactly the listed dice. |
| `CliApp.DropStopsKeepingEarlier` | dice_tray_cli/src/app.rs:189-193 | Dropping "99,0" from three dice removes die 0, then fails on 99, and the removal stays. |
| `CliApp.RemoveFront` | dice_tray_cli/src/cli_dice_tray.rs:76-85 | Removing position 0 leaves the tail. |
| `CliApp.DropIndicesFailLast` | dice_tray_cli/src/app.rs:189-193 | When the last listed index is out of range, the drop fails at once and changes nothing. |
| `CliApp.DropFailsFirst` | dice_tray_cli/src/app.rs:189-193 | Dropping "0,99" from three dice fails first, so nothing is removed. |
| `CliApp.MoveAll` | dice_tray_cli/src/app.rs:203-220 | Err, with nothing changed, for a same-named source and destination, a missing source, or an empty source. With no destination, the source is drained, its dice are lost, and an error is returned. Otherwise the call is Ok, the source is emptied and its dice are appended to the destination. Tray ids and their order never change. |
| `CliApp.MoveAllIntoFirstTray` | dice_tray_cli/src/app.rs:207-218 | With no source id and the first tray's id as destination, the same-tray check passes and the dice end up where they were. |
| `CliApp.MoveTargets` | dice_tray_cli/src/app.rs:230-245 | Panics only with a label target, and does panic when the first target is a label and the source is empty. Otherwise the source keeps its id and type, and the dice removed and the dice left are together the original dice. |
| `CliApp.CollectMultiset` | dice_tray_cli/src/app.rs:237-241 | Putting one target's removed dice in front of those the later targets remove keeps the dice accounted for. |
| `CliApp.MoveAt` | dice_tray_cli/src/app.rs:222-251 | The same tray as source and destination is Err with nothing changed, and so is a missing source. Otherwise the call panics exactly when `MoveTargets` does. A failing target keeps the source's losses, and a missing destination loses the removed dice. On Ok, the targeted dice are appended to the destination, and source plus destination hold the same dice as before. |
| `CliApp.Deliver` | dice_tray_cli/src/app.rs:247-250 | The source is replaced by what is left of it, and the moved dice go to the end of the destination. Err exactly when the destination is missing. Source plus destination then hold the source's remaining dice, the moved ones, and the destination's own. |
| `CliApp.AddOne` | dice_tray_cli/src/app.rs:78-86 | The new die goes to the targeted tray, or is discarded when the lookup fails. The allocator advances in both cases. |
| `CliApp.AddEach` | dice_tray_cli/src/app.rs:77-87 | The loop equals one batch from the allocator appended to the targeted tray, or discarded when the lookup fails (the predicate `Delivered`), and the allocator ends where the batch leaves it. |
| `CliApp.AddNothing` | dice_tray_cli/src/app.rs:77-87 | A loop with no draws delivers the empty batch: the trays are left as they are. |
| `CliApp.AddDiceCons` | dice_tray_cli/src/cli_dice_tray.rs:64-73 | Adding one die, then the rest, equals adding them all. |
| `CliApp.AddEachStep` | dice_tray_cli/src/app.rs:77-87 | One iteration followed by the rest of the loop equals the whole batch. |
| `CliApp.UpdateTwice` | dice_tray_cli/src/app.rs:77-87 | A second write to the same tray slot overrides the first. |
| `CliApp.AddDiceFromRaw` | dice_tray_cli/src/app.rs:69-88 | The counter advances by `count` even when the tray is missing. The targeted tray gains exactly `count` dice after its old ones, with consecutive ids from the counter, the given faces, draws, default label and type, and the result `new_die` gives as written. No other tray changes. |
| `CliApp.AddDiceFromRawFreshIds` | dice_tray_cli/src/app.rs:69-88 | When every die's id is below the counter, the new dice's ids differ from those of the dice already in the tray. |
| `CliApp.DeliveredDice` | dice_tray_cli/src/app.rs:79-81 | A delivered batch, read die by die: the targeted tray keeps its old dice as a prefix and then holds the batch in order, and every other tray is unchanged. A failed lookup changes nothing. |
| `CliApp.DeliveredAt` | dice_tray_cli/src/app.rs:79-81 | When the lookup finds tray i, that tray ends with the delivered batch, die for die. |
| `CliApp.RawAddApp` | dice_tray_cli/src/app.rs:76-87 | After a raw add, the targeted tray ends with one die per draw, made with consecutive ids from the counter (the predicate `RawTail`). |
| `CliApp.RawAdd` | dice_tray_cli/src/app.rs:76-87 | A tray whose dice from position n on are the allocator's batch holds at n + j the die made with id counter + j and face `draws[j]`. |
| `CliApp.RawBatch` | dice_tray_cli/src/app.rs:76-78 | Die j of a raw batch has id counter + j, the given faces, draw j as its face, the default label, the given type or Face, and the result `new_die` gives as written. |
| `CliApp.RawDieOf` | rust_dice/src/dice_builders.rs:5-14 | One die made from the raw profile with an in-range face has exactly those fields. |
| `CliMain.FindResultType` | dice_tray_cli/src/main.rs:133-141 | A type exactly for 'f', 'b', 'w' and 'e', and each letter names its type. |
| `CliMain.FindResultTypeInverse` | dice_tray_cli/src/main.rs:133-141 | Every result type comes from its own letter. |
| `CliMain.AnyZeroFacesCons` | dice_tray_cli/src/main.rs:93-96 | A list asks for zero-faced dice exactly when its head or its tail does. |
| `CliMain.AddPairs` | dice_tray_cli/src/main.rs:93-96 | Panics exactly when some pair asks for dice with zero faces. Otherwise the tray keys are unchanged, and rollable trays stay rollable. |
| `CliMain.AddPair` | dice_tray_cli/src/main.rs:95 | One pair panics exactly when it asks for dice with zero faces. |
| `CliMain.AddKeepsRollable` | dice_tray_cli/src/app.rs:69-88 | A raw add with in-range draws keeps every die rollable. |
| `CliMain.AddedDice` | dice_tray_cli/src/app.rs:69-88 | A raw add on a found tray appends a batch of rollable dice to it. |
| `CliMain.AppendRollable` | dice_tray_cli/src/app.rs:69-88 | Two rollable batches together are rollable. |
| `CliMain.TailRollable` | dice_tray_cli/src/app.rs:69-88 | Rollable old dice followed by dice with at least one face are rollable. |
| `CliMain.SubsetKeepsRollable` | dice_tray_cli/src/app.rs:180-201 | A sub-multiset of rollable dice is rollable. |
| `CliMain.SameKeysUnique` | dice_tray_cli/src/app.rs:279-292 | Trays with the same ids at the same positions are equally unique. |
| `CliMain.DeleteKeeps` | dice_tray_cli/src/app.rs:122-139 | Deleting keeps ids unique and dice rollable. |
| `CliMain.DropKeepsRollable` | dice_tray_cli/src/app.rs:170-201 | Drops that return keep every remaining die rollable. |
| `CliMain.Execute` | dice_tray_cli/src/main.rs:65-123 | Every command keeps ids unique and dice rollable. A run panics only on an add whose notation parses, or on a drop whose targets parse and include a label. |
| `CliMain.ExecuteAdd` | dice_tray_cli/src/main.rs:87-98 | Notation that does not parse changes nothing. Otherwise ids stay unique, dice stay rollable, and a panic needs parsed notation. |
| `CliMain.ExecuteDrop` | dice_tray_cli/src/main.rs:72-86 | Targets that do not parse change nothing. Otherwise the run panics exactly when the app's `drop_at_targets` does, which needs a label target. Ids stay unique and dice stay rollable. |
| `CliMain.DropLabelOnEmptyTrayPanics` | dice_tray_cli/src/main.rs:72-86 | After `reset`, `drop` with a well-formed label panics, because the label meets the empty "Main" tray. |
| `CliMain.ExecuteRoll` | dice_tray_cli/src/main.rs:99-119 | Targets that do not parse change nothing. Ids stay unique and dice stay rollable. |
| `CliMain.NoTargetDispatch` | dice_tray_cli/src/main.rs:83-85 | `drop` without targets is `drop_all`, and `roll` without targets is `roll_all` with the decoded type. |
| `CliMain.AddZeroFacesPanics` | dice_tray_cli/src/main.rs:87-98 | `add d0` panics. |
| `LegacyTables.Keyed` | src/tables.rs:13-24 | n entries give exactly the keys 1..n, and key k holds entry k. |
| `LegacyTables.New` | src/tables.rs:13-24 | The table keeps its name and keys its entries from 1. |
| `LegacyTables.Lookup` | src/tables.rs:27-49 | Err (too large) exactly when the table has more entries than a `u32` counts. A found value is an entry of the table, and a face within the length reads its own key. |
| `LegacyTables.LookupNew` | src/tables.rs:13-49 | On a table of n entries, faces 1..n read their entry, faces n+1..2n wrap once, and 0 or anything past 2n is an error. |
| `LegacyTables.TestTable` | src/tables.rs:57-68 | The "test" table keys its six outcomes 1..6. |
| `LegacyTables.TestTableIsNew` | src/tables.rs:13-68 | The built-in table is exactly what `new` builds from the six outcomes. |
| `LegacySettings.New` | src/settings.rs:17-21 | No table is present. |
| `LegacySettings.AddResultTable` | src/settings.rs:24-26 | The table is stored under its name, replacing any earlier one. Every other name keeps its table. |
| `LegacySettings.DiceTableLookup` | src/settings.rs:28-38 | Err for an unknown table, and Err for a result without an entry. Ok exactly when the table has the entry, and then it is that entry. |
| `LegacySettings.AddThenLookup` | src/settings.rs:24-38 | After adding a table, a lookup under its name reads that table. |
| `LegacySettings.Default` | src/settings.rs:5-9 | The global settings hold the "test" table and no other. |
| `LegacySettings.DefaultLookup` | src/settings.rs:5-38 | Results 1..6 read the "test" outcomes, and anything else has no entry. |
| `LegacyDice.UpdateResult` | src/dice.rs:179-204 | Only the value changes. A Table die's value is cleared. Numeric types combine the face as `Dice.Fold` says, and Face shows the face. |
| `LegacyDice.SetResultType` | src/dice.rs:157-177 | Nothing happens for the same type or for a Table die. Otherwise the type changes, and an in-range face becomes the numeric value, or the value is cleared for Table. |
| `LegacyDice.Roll` | src/dice.rs:100-104 | The die shows the drawn face, and identity and faces are kept. A Table die stays a Table die without a value. Any other die takes the requested type. |
| `LegacyDice.TableIsSticky` | src/dice.rs:157-165 | Once a Table die, always a Table die, whatever types later rolls ask for. |
| `LegacyDice.RollSeq` | src/dice.rs:100-104 | Successive rolls keep faces and identity, and show the last draw. |
| `LegacyDice.RollFolds` | src/dice.rs:100-104 | A numeric die rolled with its own type combines the face into its value. Switching type starts from the face it showed. |
| `LegacyDice.New` | src/dice.rs:48-74 | Table exactly when an identity is given and the settings hold a table of that name, otherwise Face with the first face as value. The identity defaults to "d" plus the face count. |
| `LegacyDice.GetResult` | src/dice.rs:82-97 | A numeric die gives its value, or 0. A Table die gives its table's entry for its face, or "No result found.". |
| `LegacyDice.TestTableDie` | src/dice.rs:82-97 | A six-sided "test" die shows its face's outcome. An eight-sided one showing 7 finds nothing, because the die's lookup does not wrap. |
| `LegacyDice.SetCurrentFace` | src/dice.rs:111-154 | The face is clamped into `[1, faces]`, and the value is untouched. |
| `LegacyDice.ClampExtremes` | src/dice.rs:136-154 | Clamping lands on the minimum or maximum exactly at or beyond it. |
| `LegacyDice.NewDiceSet` | src/dice.rs:208-215 | `count` default-identity Face dice with the given faces and creation draws. |
| `LegacyDice.NewDiceFromVec` | src/dice.rs:218-220 | One default-identity Face die per face count, in order. |
| `LegacyDice.NewDiceFromVecWithId` | src/dice.rs:222-224 | One die per entry, in order, with its identity or the default. It is a Table die exactly when the identity names a table. |
| `LegacyDice.Compare` | src/dice.rs:227-250 | Equal exactly when face, faces and identity agree. Swapping the operands flips the verdict, and a lower face orders first. |
| `LegacyDice.CompareTransitive` | src/dice.rs:242-250 | The ordering is transitive, and a chain ends Equal exactly when both steps are Equal. |
| `LegacyTray.New` | src/tray.rs:9-13 | No dice. |
| `LegacyTray.AddDie` | src/tray.rs:16-18 | Appends, and the dice already there are untouched. |
| `LegacyTray.AddDice` | src/tray.rs:21-25 | Appends in argument order after the old dice. |
| `LegacyTray.RemoveAt` | src/tray.rs:28-34 | Some exactly for an index in range: that die, with the rest closing up in order. Otherwise None with the tray unchanged. |
| `LegacyTray.RemoveAtReinsert` | src/tray.rs:28-34 | Putting the removed die back at its index restores the tray. |
| `LegacyTray.RollAll` | src/tray.rs:37-41 | Every die becomes `LegacyDice.Roll` of itself with its own type and its draw: it shows the draw, and order, identities, faces and types are kept. |
| `LegacyTray.RollAt` | src/tray.rs:44-52 | Some, with the new face, exactly for an index in range. That die becomes `LegacyDice.Roll` of itself with its own type and the face, and no other die changes. |
| `LegacyTray.Clear` | src/tray.rs:55-57 | No dice left. |
| `LegacyTray.RollAllKeepsTables` | src/tray.rs:37-41 | Rolling the tray keeps Table dice Table dice. |
| `LegacyParser.Flags` | src/cli_parser.rs:32-33 | The flag words, no more than there are words. |
| `LegacyParser.NonFlags` | src/cli_parser.rs:64-70 | The non-flag words. With the flags they account for every word. |
| `LegacyParser.Segments` | src/cli_parser.rs:32-76 | One entry per flag plus a final one. The first entry has the starting type, and the last always holds a string. |
| `LegacyParser.SegmentTypes` | src/cli_parser.rs:55-63 | Entry k+1 has the type that flag k selects. |
| `LegacyParser.SegmentTypesAtFlag` | src/cli_parser.rs:55-63 | Same as `SegmentTypes`, when the first word is a flag. |
| `LegacyParser.SegmentTypesAtWord` | src/cli_parser.rs:64-70 | Same as `SegmentTypes`, when the first word is not a flag. |
| `LegacyParser.FlagsAtWord` | src/cli_parser.rs:64-70 | A non-flag word adds no flag. |
| `LegacyParser.FlagsAtFlag` | src/cli_parser.rs:33 | A flag word is the first flag. |
| `LegacyParser.FirstTypeAtFlag` | src/cli_parser.rs:55-63 | The entry after a leading flag has that flag's type. |
| `LegacyParser.TypeAfterFlag` | src/cli_parser.rs:33-63 | A leading flag shifts the entry numbering by one. |
| `LegacyParser.TypeAfterWord` | src/cli_parser.rs:64-70 | A leading word leaves the numbering alone. |
| `LegacyParser.ParseDiceTrayCommands` | src/cli_parser.rs:26-78 | One entry per flag word plus a final one. The first is an Add, and the last always holds a string. |
| `LegacyParser.CommandTypesFollowFlags` | src/cli_parser.rs:55-63 | Entry k+1 of a parsed line has the type that flag k selects, and unknown flags select Roll. |
| `LegacyParser.JoinEnds` | src/cli_parser.rs:66-69 | Non-empty words joined start with the first word's first character and end with the last word's last character. |
| `LegacyParser.TrimJoinedWords` | src/cli_parser.rs:38 | Words joined by single spaces need no trimming and split back into the words. |
| `LegacyParser.AllEntryWordsCons` | src/cli_parser.rs:26-78 | The words of the entries are those of the first entry, then those of the rest. |
| `LegacyParser.EntryOfWords` | src/cli_parser.rs:38 | An entry built from words splits back into them. |
| `LegacyParser.SegmentsAtEnd` | src/cli_parser.rs:73-76 | The final entry holds the gathered words. |
| `LegacyParser.SegmentsAtFlag` | src/cli_parser.rs:35-52 | A flag closes the gathered words into an entry. |
| `LegacyParser.FlagStep` | src/cli_parser.rs:33-63 | The flag case of word preservation. |
| `LegacyParser.WordStep` | src/cli_parser.rs:64-70 | The word case of word preservation. |
| `LegacyParser.SegmentsKeepWords` | src/cli_parser.rs:32-76 | The entries hold exactly the gathered and non-flag words, in order. |
| `LegacyParser.CommandsKeepWords` | src/cli_parser.rs:26-78 | No word is lost or reordered: the entries hold exactly the non-flag words, in input order. |
| `LegacyParser.WordRun` | src/cli_parser.rs:5 | The longest `\w*` prefix. |
| `LegacyParser.IdNames` | src/cli_parser.rs:5 | The names of the longest `\w+(,\w+)*` prefix, none exactly when no word character follows. |
| `LegacyParser.ParseIdentityFlag` | src/cli_parser.rs:133-138 | None exactly for a bare "$", or "$" followed by a non-word character. Otherwise a non-empty list of names. |
| `LegacyParser.WordRunOfName` | src/cli_parser.rs:5 | A name stops the `\w*` run at its end. |
| `LegacyParser.IdNamesOfJoined` | src/cli_parser.rs:5 | Names joined by commas are read back as the same names. |
| `LegacyParser.IdentityFlagRoundTrip` | src/cli_parser.rs:133-138 | A `$a,b,c` flag parses back to its names. |
| `LegacyParser.KeepParsed` | src/cli_parser.rs:143-146 | Keeps only pieces that parse as a `usize`, each within bounds. No parsable piece means no index. |
| `LegacyParser.KeepParsedAll` | src/cli_parser.rs:143-146 | When every piece parses, none is dropped and order is kept. |
| `LegacyParser.KeepParsedRendered` | src/cli_parser.rs:140-151 | Indices that fit a `usize` survive rendering and parsing, in order. |
| `LegacyParser.OverflowingIndexDropped` | src/cli_parser.rs:143-146 | An index past `usize` is dropped silently, and the rest are kept. |
| `LegacyParser.ScanFlags` | src/cli_parser.rs:113-131 | Without a `$` token there is no identity, and without an `@` flag there are no indices. |
| `LegacyParser.ScanIgnoresOthers` | src/cli_parser.rs:119-126 | Tokens that are neither flag leave the result alone. |
| `LegacyParser.IndexFlagOfRendered` | src/cli_parser.rs:6 | A rendered `@i,j` token matches the index-flag regex and splits into its pieces. |
| `LegacyParser.IndexFlagRoundTrip` | src/cli_parser.rs:140-151 | An `@i,j,k` flag parses back to its indices. |
| `LegacyParser.ScanSnoc` | src/cli_parser.rs:119-126 | One more token: a `$` token replaces the identities, an `@` flag replaces the indices, and anything else changes nothing. |
| `LegacyParser.ScanTwoFlags` | src/cli_parser.rs:119-126 | After an identity flag, an index flag and plain tokens, each flag decides its own part, whatever came before. |
| `LegacyParser.SnocPair` | src/cli_parser.rs:119-126 | Appending two tokens is appending one, then the other. |
| `LegacyParser.ScanAfterIdentity` | src/cli_parser.rs:120-121 | A `$` token sets the identities. |
| `LegacyParser.ScanAfterIndex` | src/cli_parser.rs:123-124 | An `@` flag sets the indices and keeps the identities. |
| `LegacyParser.LastFlagsWin` | src/cli_parser.rs:113-131 | The last flag of each kind decides the result. |
| `LegacyParser.ParseTargetFlags` | src/cli_parser.rs:113-131 | No command gives (None, None). Otherwise the result is the token scan shared by roll and drop. |
| `LegacyParser.TokenRequest` | src/cli_parser.rs:89-93 | A token asks for dice exactly when it is not a `$` token and matches the notation. |
| `LegacyParser.AsksZeroFacesCons` | src/cli_parser.rs:88-105 | The tokens ask for zero-faced dice exactly when the head or the tail does. |
| `LegacyParser.NewDice` | src/cli_parser.rs:94-102 | `count` dice with the given faces and in-range draws, named by the flag or by default. |
| `LegacyParser.AddTokens` | src/cli_parser.rs:88-105 | Panics exactly when some notation token asks for dice with zero faces. Otherwise gives as many dice as the notation tokens ask for. |
| `LegacyParser.ParseAddCommand` | src/cli_parser.rs:81-110 | No command gives None. Otherwise it panics exactly on a zero-face request, or gives the requested number of dice. |
| `LegacyParser.OneNotationToken` | src/cli_parser.rs:92-103 | One notation token creates exactly its dice. |
| `LegacyParser.NotationTokenDice` | src/cli_parser.rs:92-103 | A rendered "NdM" alone creates N dice of M faces, named by the flag if any. |
| `LegacyParser.FlagNamesLaterDice` | src/cli_parser.rs:89-101 | "$name NdM" makes N dice called `name`. |
| `LegacyParser.FlagSkipsEarlierDice` | src/cli_parser.rs:89-101 | "NdM $name" makes N dice with the default name. |
| `LegacyMain.ParseDiceNotation` | src/main.rs:89-98 | A result means the regex matched and both numbers parsed with nothing substituted. An empty count is rejected. |
| `LegacyMain.ParseRendered` | src/main.rs:89-98 | "NdM" from two `u32` values parses back to them. |
| `LegacyMain.ParseOverflow` | src/main.rs:89-98 | A count or face count past `u32` makes the notation fail. |
| `LegacyMain.MissingCountRejected` | src/main.rs:92 | "dM" is rejected here, where the other parsers read one die. |
| `LegacyMain.AnyZeroFacesCons` | src/main.rs:60-69 | A list asks for zero-faced dice exactly when its head or its tail does. |
| `LegacyMain.NotationDice` | src/main.rs:60-69 | Panics exactly when some notation asks for zero-faced dice. Otherwise the requested number of rollable Face dice with default identities. |
| `LegacyMain.FreshDiceJoin` | src/main.rs:60-69 | Two batches of fresh dice together are fresh, rollable Face dice with default identities. |
| `LegacyMain.OneNotationDice` | src/main.rs:60-69 | One "NdM" value creates exactly `new_dice_set(N, M)`. |
| `LegacyMain.ShakeRolls` | src/main.rs:72-75 | One in-range draw per die. |
| `LegacyMain.Iteration` | src/main.rs:38-86 | Panics exactly on a zero-face notation. Otherwise the loop ends exactly when `--exit` is given; the tray holds the kept dice plus those asked for, all rollable; kept dice keep identity and faces, and without a shake stay as they were. |
| `LegacyMain.AddKeepsRollable` | src/main.rs:60-69 | Appending rollable dice keeps the tray rollable and the old dice in place. |
| `LegacyMain.Shake` | src/main.rs:72-75 | Every die keeps its place, identity and faces. Without `--shake` the tray is unchanged. |
| `LegacyMain.NoOptionsNoChange` | src/main.rs:38-86 | A line without options changes nothing and keeps the loop going. |
| `LegacyMain.ClearThenRoll` | src/main.rs:54-69 | `--clear --roll NdM` leaves exactly the new set. |
| `LegacyMain.AddToEmpty` | src/main.rs:54-66 | Adding to a cleared tray gives exactly the added dice. |
| `Notation.DigitRunLength` | dice_tray_cli/src/cli_parser.rs:4 | The longest all-digit prefix. |
| `Notation.MatchNotation` | dice_tray_cli/src/cli_parser.rs:4 | A match means the token is count digits, one `d` or `D`, and at least one face digit. |
| `Notation.DigitRunOfNotation` | dice_tray_cli/src/cli_parser.rs:4 | The count's digits end at the letter. |
| `Notation.MatchNotationComplete` | dice_tray_cli/src/cli_parser.rs:4 | Every count-letter-faces token matches, with exactly those captures. |
| `Notation.DecodeLenient` | dice_tray_cli/src/cli_parser.rs:12-26 | An empty or unparsable count becomes 1, an unparsable face count becomes 6, and both fit a `u32`. |
| `Notation.DecodeRendered` | dice_tray_cli/src/cli_parser.rs:12-26 | Numbers that fit a `u32` decode to themselves. |
| `Text.TokenLength` | dice_tray_cli/src/cli_parser.rs:7 | The longest whitespace-free prefix. |
| `Text.SplitWhitespace` | dice_tray_cli/src/cli_parser.rs:7 | Every token is non-empty and whitespace-free. |
| `Text.TokenLengthOfWord` | dice_tray_cli/src/cli_parser.rs:7 | A word followed by whitespace or the end is one token. |
| `Text.SplitJoinedWords` | dice_tray_cli/src/cli_parser.rs:7 | Splitting words joined by spaces gives the words back. |
| `Text.JoinNoWhitespace` | dice_tray_cli/src/cli_parser.rs:49-52 | Whitespace-free pieces joined by a non-space separator are one token. |
| `Text.TrimStart` | dice_tray_cli/src/cli_parser.rs:52 | Only leading whitespace is removed. |
| `Text.TrimEnd` | dice_tray_cli/src/cli_parser.rs:52 | Only trailing whitespace is removed. |
| `Text.Trim` | dice_tray_cli/src/cli_parser.rs:52 | The result has no whitespace at its ends, and a string with none there is unchanged. |
| `Text.IndexOf` | dice_tray_cli/src/cli_parser.rs:51 | The first occurrence, or the length. |
| `Text.SplitOn` | dice_tray_cli/src/cli_parser.rs:51 | At least one piece, no piece holds the separator, and joining restores the input. |
| `Text.IndexOfAfterPiece` | dice_tray_cli/src/cli_parser.rs:51 | The separator after a separator-free piece is found at the piece's end. |
| `Text.SplitJoined` | dice_tray_cli/src/cli_parser.rs:51 | Splitting inverts joining separator-free pieces. |
| `Text.DigitChar` | dice_tray_cli/src/cli_parser.rs:17 | The character of a digit has that value. |
| `Text.NatToString` | dice_tray_cli/src/cli_parser.rs:17 | Digits only, with a leading '0' exactly for zero. |
| `Text.DigitsOfNatToString` | dice_tray_cli/src/cli_parser.rs:17 | A rendered number reads back as itself. |
| `Text.DigitsValueOfNonZeroLead` | dice_tray_cli/src/cli_parser.rs:17 | A digit string led by a non-zero digit is positive. |
| `Text.NatToStringOfDigits` | dice_tray_cli/src/cli_parser.rs:17 | A canonical digit string is the rendering of its value. |
| `Text.ParseUnsigned` | dice_tray_cli/src/cli_parser.rs:17 | `parse::<u32>` and `parse::<usize>` accept an optional '+' then digits, within the type's maximum. A digit string parses exactly when it fits, and the empty string never parses. |
| `Text.ParseRendered` | dice_tray_cli/src/cli_parser.rs:17 | A rendered number parses back exactly when it fits the type. |

## Left out

- Randomness: `SmallRng` seeding and `random_range(1..=faces)` are not modelled. Each roll receives its face as a parameter, constrained to `1..=faces`. A multi-die roll receives a draw function. A die's RNG seed appears only as the number a save record reports.
- Dice.Roll: the panic of `random_range(1..=0)` on a zero-faced die is excluded by the precondition `1 <= f <= faces`. Instead, the app-level models show that no zero-faced die enters a tray through an add (restored dice are discussed under `CliApp.Init` below): `CliMain.AddPairs` and `LegacyMain.NotationDice` panic first, and `CliMain.Execute` and `LegacyMain.Iteration` keep every die rollable.
- Dice.UpdateResult: the Sum result is an unbounded `nat`, so the `u32` overflow of `is_num_or(0) + current_face` after many rolls is not modelled, neither the panic with overflow checks on nor the wrap without them. The same goes for `CliTray.GetResult`'s `u32` sum and `LegacyDice.UpdateResult`.
- Dice.Increment: `u32` arithmetic is modelled with overflow checks on, as in a debug build, so `u32::MAX + 1` panics. In a release build the face wraps to 0 and the die is left showing 0. `Dice.IncrementWrapping` models that build, and `Dice.MaxFacedDieWraps` shows where the two part.
- Dice.Decrement: `u32` arithmetic is modelled with overflow checks on, as in a debug build, so `0 - 1` panics. In a release build the face wraps to `u32::MAX` and the die keeps it. `Dice.DecrementWrapping` models that build.
- Dice.SetCurrentFace: clamping a die with zero faces gives `faces` (0) rather than a face in range. The contract promises the range only for dice with at least one face, as the source does.
- I/O:
  - reading and writing the save file (`load_trays_from_file`, `save_trays_to_file`) is not modelled, and neither is JSON;
  - `init` receives the loaded trays, or none when loading failed;
  - `close` and the save path are left out;
  - `CliTray.TrayToData` and `CliTray.TrayFromData` model the record conversions on both sides.
- Printing: `show_tray`, `summarize_trays`, `show_all_trays`, both loggers and every `println!` are left out. Their only effect is console output.
- Command-line parsing by clap: the program's `Cli` struct and the older `TrayArgs` are taken as already parsed (`CliMain.Command`, `LegacyMain.TrayArgs`). The older loop's stdin reading, and its skipping of lines that clap rejects, are not modelled.
- `is_tray_id_valid` is not modelled separately. It is the key test `CliApp.HasKey`.
- `sort` on `CliTray` is `todo!()` in the source and is left out. So are `DiceAllocator::init` and `close` of the CLI allocator, which are `todo!()`, and `Custom` dice profiles, also `todo!()`.
- The `DieType` tag and the accessors (`get_id`, `get_label`, `get_dice`, ...) are plain datatype fields.
- `--name` of the older loop is parsed into `LegacyMain.TrayArgs.name`, but no step of the loop reads it.
- Regex character classes: `\d` and `\w` are modelled on ASCII digits, letters and `_`. The Rust regex crate's Unicode classes are wider. Rust's `char::is_whitespace` is modelled in full.
- The older `DiceTraySettings` global behind a `LazyLock` is an explicit settings parameter, and its default value is `LegacySettings.Default`.
- The older crate's `roll_all` and `roll_at` call `die.roll()` without a type. They are modelled as rolls asking for the die's own type.
- `DieResultType::to_string` is not modelled. It gives the type's name.
- `Dice.Roll` in `CliTray.RollAll` and `CliApp.RollAll`: `CliTray.ValidRoller` takes the draw as a function of the die alone. A tray holding two identical dice therefore gives both the same face, which the source does not promise.
- CliApp.LoadTrays: the failure of `new_die_from_data` (the `?` inside the loading loop) is not modelled, because `CliDiceAllocator` defines no such method; a load either restores every record or is absent (`None`). The ids an interrupted load would already have consumed are therefore not modelled either.
- CliApp.Init: loaded records are restored as saved, so a record may hold a die with zero faces. `CliMain.Execute` assumes every die is rollable, so a later roll of such a die, which panics in `random_range(1..=0)`, is outside the model.
- CliApp.RollTargets: the exact rolled value of each targeted die is stated for lists of distinct labels, and by `CliApp.RollIndicesDistinct` for one index list without repeats. A die named twice is rolled twice; such lists are covered only through `CliApp.RollTargetsAppend` and `CliApp.RollTargetsOne`.

## Findings

| source | as written | input that shows it | evidently intended | confidence | as-written member | corrected member |
|---|---|---|---|---|---|---|
| rust_dice/src/dice.rs:170-196 | `Die32::new` stores the placeholder result `Number(1)` and rolls with no type change, so the placeholder is combined into the first result under the die's type | a six-sided Worst die whose first face is 4 reports 1; a Sum die whose first face is 3 reports 4 | a new die's result is its first face, as for `set_result_type`, which resets the accumulator | not executed | `Dice.NewAsWrittenMisreports` | `Dice.New` |
| dice_tray_cli/src/cli_dice_tray.rs:89-105 | `remove_die_by_id` starts its scan at `i = self.dice.len()` and indexes `self.dice[i]` first | any tray, for example an empty one or one holding die 0, with any id: the first index is out of bounds and panics | scan from `len() - 1` down to 0, returning Err when no die has the id | not executed | `CliTray.RemoveDieByIdAsWritten` | `CliTray.RemoveDieById` |
| dice_tray_cli/src/cli_dice_tray.rs:108-125 | `remove_dice_by_label` computes `self.dice.len() - 1` on a `usize` | an empty tray: `0 - 1` underflows and panics, where the tray contract documents an Err | Err ("No dice with the specified label found") on an empty tray | not executed | `CliTray.RemoveDiceByLabelEmptyTray` | `CliTray.RemoveDiceByLabel` |

The app-level models follow the code as written where it is on the program's path: `CliAllocator.NewDie` uses `DiceBuilders.NewDie`, which keeps the placeholder result of `Die32::new`, and `CliApp.DropTargets` and `CliApp.MoveTargets` go through `CliTray.RemoveDiceByLabelAsWritten`, so a label target on an empty tray panics. The corrected members state the intended behaviour; `DiceBuilders.NewDieAgainstNew` and `CliTray.RemoveDiceByLabelAsWritten` relate each as-written member to its corrected one. `remove_die_by_id` is not called by the app.

=== FILE: app.dfy ===
/**
 * The command-line app: an insertion-ordered map of trays, keyed by tray id, with
 * the policies of `CliDiceTrayApp`. A tray's key is always its own id, so the map
 * is a sequence of trays with unique ids. File loading is replaced by the list of
 * loaded trays (or None when loading failed); console output is not modelled.
 */
module CliApp {
  import opened Results
  import opened Dice
  import opened DiceBuilders
  import CliTray
  import CliAllocator
  import opened DiceData
  import opened CliParser

  type Tray = CliTray.CliTray
  type Roller = CliTray.Roller

  datatype AppError =
    | NoTrayWithId(key: string)
    | NoTrays
    | SameTray
    | TrayExists(key: string)
    | TrayFailed(cause: CliTray.TrayError)

  datatype CliDiceTrayApp = CliDiceTrayApp(allocator: CliAllocator.CliDiceAllocator, trays: seq<Tray>)

  /** The protected tray that always exists after `init` and `reset`. */
  const MAIN: string := "Main"

  predicate UniqueKeys(trays: seq<Tray>) {
    forall i, j :: 0 <= i < j < |trays| ==> trays[i].id != trays[j].id
  }

  predicate HasKey(trays: seq<Tray>, key: string) {
    exists i :: 0 <= i < |trays| && trays[i].id == key
  }

  /** Every die in every tray can be rolled (has at least one face). */
  ghost predicate Rollable(app: CliDiceTrayApp) {
    forall i :: 0 <= i < |app.trays| ==> CliTray.AllRollable(app.trays[i].dice)
  }

  /** Position of the tray with id `key`, if any. */
  function Find(trays: seq<Tray>, key: string): (r: Option<nat>)
    ensures r.None? <==> !HasKey(trays, key)
    ensures r.Some? ==> r.value < |trays| && trays[r.value].id == key
    ensures r.Some? ==> forall j :: 0 <= j < r.value ==> trays[j].id != key
  {
    if |trays| == 0 then None
    else if trays[0].id == key then Some(0)
    else
      match Find(trays[1..], key)
      case None =>
        assert forall j :: 1 <= j < |trays| ==> trays[j] == trays[1..][j - 1];
        None
      case Some(k) => Some(k + 1)
  }

  /** Position lookup depends on the ids alone. */
  predicate SameKeys(a: seq<Tray>, b: seq<Tray>) {
    |a| == |b| && forall j :: 0 <= j < |a| ==> a[j].id == b[j].id
  }

  lemma {:induction false} FindSameKeys(a: seq<Tray>, b: seq<Tray>, key: string)
    requires SameKeys(a, b)
    ensures Find(a, key) == Find(b, key)
    decreases |a|
  {
    if |a| > 0 && a[0].id != key {
      FindSameKeys(a[1..], b[1..], key);
    }
  }

  /** `get_tray_mut`: Some(key) targets the tray with that id, or Err when there is
      none; None targets the first tray in insertion order, or Err on an empty map. */
  function GetTrayMut(app: CliDiceTrayApp, id: Option<string>): (r: Result<nat, AppError>)
    ensures r.Ok? ==> r.value < |app.trays|
    ensures id.Some? ==> (r.Ok? <==> HasKey(app.trays, id.value))
    ensures id.Some? && r.Ok? ==> app.trays[r.value].id == id.value
    ensures id.Some? && r.Err? ==> r.error == NoTrayWithId(id.value)
    ensures id.None? ==> (r.Ok? <==> |app.trays| > 0)
    ensures id.None? && r.Ok? ==> r.value == 0
  {
    match id
    case Some(key) => (
      match Find(app.trays, key)
      case Some(i) => Ok(i)
      case None => Err(NoTrayWithId(key)))
    case None => if |app.trays| > 0 then Ok(0) else Err(NoTrays)
  }

  /** With unique keys, the tray found for a key is the only one with it. */
  lemma GetTrayMutUnique(app: CliDiceTrayApp, key: string, i: nat)
    requires UniqueKeys(app.trays)
    requires i < |app.trays| && app.trays[i].id == key
    ensures GetTrayMut(app, Some(key)) == Ok(i)
  {
  }

  /** Replaces the tray at `i` by one with the same id; positions of keys stay put. */
  function SetTray(app: CliDiceTrayApp, i: nat, t: Tray): (r: CliDiceTrayApp)
    requires i < |app.trays| && t.id == app.trays[i].id
    ensures r.allocator == app.allocator && r.trays == app.trays[i := t]
    ensures SameKeys(app.trays, r.trays)
    ensures UniqueKeys(app.trays) ==> UniqueKeys(r.trays)
  {
    app.(trays := app.trays[i := t])
  }

  /** `CliDiceTrayApp::new`: a fresh allocator and no trays. */
  function New(): (app: CliDiceTrayApp)
    ensures app.trays == [] && app.allocator == CliAllocator.New()
  {
    CliDiceTrayApp(CliAllocator.New(), [])
  }

  /** Inserts a loaded tray unless its id is already present. */
  function InsertNew(trays: seq<Tray>, t: Tray): (r: seq<Tray>)
    ensures HasKey(trays, t.id) ==> r == trays
    ensures !HasKey(trays, t.id) ==> r == trays + [t]
  {
    if Find(trays, t.id).Some? then trays else trays + [t]
  }

  /** The loaded trays inserted one after another. */
  function InsertAll(trays: seq<Tray>, loaded: seq<Tray>): (r: seq<Tray>)
    ensures |trays| <= |r| && r[..|trays|] == trays
    decreases |loaded|
  {
    if |loaded| == 0 then trays
    else
      var prev := InsertAll(trays, loaded[..|loaded| - 1]);
      var r := InsertNew(prev, loaded[|loaded| - 1]);
      assert r[..|prev|] == prev;
      assert r[..|trays|] == prev[..|trays|];
      r
  }

  /** A tray inserted after the first `|trays|` was loaded, has an id not present
      before, and no earlier loaded tray had its id. */
  predicate FirstLoaded(trays: seq<Tray>, loaded: seq<Tray>, t: Tray) {
    !HasKey(trays, t.id)
    && exists k :: 0 <= k < |loaded| && t == loaded[k] && (forall k' :: 0 <= k' < k ==> loaded[k'].id != t.id)
  }

  /** Loading keeps ids unique, makes every loaded id present, and keeps, for each id,
      the first loaded tray with it. */
  lemma InsertAllKeepsFirst(trays: seq<Tray>, loaded: seq<Tray>)
    ensures UniqueKeys(trays) ==> UniqueKeys(InsertAll(trays, loaded))
    ensures forall k :: 0 <= k < |loaded| ==> HasKey(InsertAll(trays, loaded), loaded[k].id)
    ensures forall j :: |trays| <= j < |InsertAll(trays, loaded)| ==> FirstLoaded(trays, loaded, InsertAll(trays, loaded)[j])
  {
    InsertAllUnique(trays, loaded);
    InsertAllHasLoaded(trays, loaded);
    InsertAllFirstLoaded(trays, loaded);
  }

  lemma {:induction false} InsertAllUnique(trays: seq<Tray>, loaded: seq<Tray>)
    ensures UniqueKeys(trays) ==> UniqueKeys(InsertAll(trays, loaded))
    decreases |loaded|
  {
    if |loaded| > 0 {
      InsertAllUnique(trays, loaded[..|loaded| - 1]);
    }
  }

  lemma {:induction false} InsertAllHasLoaded(trays: seq<Tray>, loaded: seq<Tray>)
    ensures forall k :: 0 <= k < |loaded| ==> HasKey(InsertAll(trays, loaded), loaded[k].id)
    decreases |loaded|
  {
    if |loaded| > 0 {
      var front := loaded[..|loaded| - 1];
      var prev := InsertAll(trays, front);
      var t := loaded[|loaded| - 1];
      var r := InsertAll(trays, loaded);
      InsertAllHasLoaded(trays, front);
      assert r == InsertNew(prev, t);
      assert HasKey(r, t.id) by {
        if !HasKey(prev, t.id) {
          assert r[|prev|] == t;
        }
      }
      forall k | 0 <= k < |loaded| - 1
        ensures HasKey(r, loaded[k].id)
      {
        assert loaded[k] == front[k];
        var i :| 0 <= i < |prev| && prev[i].id == front[k].id;
        assert r[i] == prev[i];
      }
    }
  }

  lemma {:induction false} InsertAllFirstLoaded(trays: seq<Tray>, loaded: seq<Tray>)
    ensures forall j :: |trays| <= j < |InsertAll(trays, loaded)| ==> FirstLoaded(trays, loaded, InsertAll(trays, loaded)[j])
    decreases |loaded|
  {
    if |loaded| > 0 {
      var front := loaded[..|loaded| - 1];
      var prev := InsertAll(trays, front);
      var t := loaded[|loaded| - 1];
      var r := InsertAll(trays, loaded);
      InsertAllFirstLoaded(trays, front);
      InsertAllHasLoaded(trays, front);
      assert r == InsertNew(prev, t);
      forall j | |trays| <= j < |r|
        ensures FirstLoaded(trays, loaded, r[j])
      {
        if j < |prev| {
          assert FirstLoaded(trays, front, prev[j]);
          var k :| 0 <= k < |front| && prev[j] == front[k] && (forall k' :: 0 <= k' < k ==> front[k'].id != prev[j].id);
          assert r[j] == prev[j] && loaded[k] == front[k];
          assert forall k' :: 0 <= k' < k ==> loaded[k'] == front[k'];
        } else {
          assert r[j] == t && !HasKey(prev, t.id);
          forall k' | 0 <= k' < |loaded| - 1
            ensures loaded[k'].id != t.id
          {
            assert loaded[k'] == front[k'];
            assert HasKey(prev, front[k'].id);
          }
          assert forall i :: 0 <= i < |trays| ==> prev[i] == trays[i];
        }
      }
    }
  }

  /** Number of dice in all the save records. */
  function DiceCount(data: seq<CliTray.CliTrayData>): nat
    decreases |data|
  {
    if |data| == 0 then 0 else DiceCount(data[..|data| - 1]) + |data[|data| - 1].diceData|
  }

  /** The dice of one save record, restored one after another through the allocator. */
  function RestoreDice(a: CliAllocator.CliDiceAllocator, dd: seq<TypedDieData>): (r: (CliAllocator.CliDiceAllocator, seq<Die32>))
    ensures r.0 == a.(nextDieId := a.nextDieId + |dd|)
    ensures |r.1| == |dd|
    ensures forall j :: 0 <= j < |dd| ==> r.1[j] == ToDie(dd[j], a.nextDieId + j)
    decreases |dd|
  {
    if |dd| == 0 then (a, [])
    else
      var first := CliAllocator.NewDieFromData(a, dd[0]);
      var rest := RestoreDice(first.0, dd[1..]);
      (rest.0, [first.1] + rest.1)
  }

  /** `load_trays_from_file` once the file is read: each record becomes a new tray
      holding its restored dice, so the dice of record k are numbered after every
      die of the records before it, and the counter advances past all of them. */
  function LoadTrays(a: CliAllocator.CliDiceAllocator, data: seq<CliTray.CliTrayData>): (r: (CliAllocator.CliDiceAllocator, seq<Tray>))
    ensures r.0 == a.(nextDieId := a.nextDieId + DiceCount(data))
    ensures |r.1| == |data|
    ensures forall k :: 0 <= k < |data| ==> r.1[k].id == data[k].name
    decreases |data|
  {
    if |data| == 0 then (a, [])
    else
      var n := |data| - 1;
      var prev := LoadTrays(a, data[..n]);
      var restored := RestoreDice(prev.0, data[n].diceData);
      var t := CliTray.AddDice(CliTray.New(data[n].name), restored.1);
      (restored.0, prev.1 + [t])
  }

  /** Record k is restored as its tray with dice numbered from where the counter
      stood after the records before it ... */
  lemma {:induction false} LoadTraysFromData(a: CliAllocator.CliDiceAllocator, data: seq<CliTray.CliTrayData>, k: nat)
    requires k < |data|
    ensures LoadTrays(a, data).1[k] == CliTray.TrayFromData(data[k], LoadTrays(a, data[..k]).0.nextDieId)
    decreases |data|
  {
    var n := |data| - 1;
    LoadTraysSnoc(a, data);
    if k < n {
      LoadTraysFromData(a, data[..n], k);
      assert data[..n][..k] == data[..k] && data[..n][k] == data[k];
    } else {
      assert data[..k] == data[..n];
    }
  }

  /** ... that is, from the old counter plus the number of dice in those records. */
  lemma LoadTraysNumbered(a: CliAllocator.CliDiceAllocator, data: seq<CliTray.CliTrayData>, k: nat, first: nat)
    requires k < |data| && first == a.nextDieId + DiceCount(data[..k])
    ensures LoadTrays(a, data).1[k] == CliTray.TrayFromData(data[k], first)
  {
    LoadTraysFromData(a, data, k);
    assert LoadTrays(a, data[..k]).0.nextDieId == first;
  }

  /** Loading one more record keeps the trays loaded before and appends its tray,
      numbered from where the counter stood. */
  lemma LoadTraysSnoc(a: CliAllocator.CliDiceAllocator, data: seq<CliTray.CliTrayData>)
    requires |data| > 0
    ensures LoadTrays(a, data).1 == LoadTrays(a, data[..|data| - 1]).1
      + [CliTray.TrayFromData(data[|data| - 1], LoadTrays(a, data[..|data| - 1]).0.nextDieId)]
  {
    var n := |data| - 1;
    RestoredTray(LoadTrays(a, data[..n]).0, data[n]);
  }

  /** The records before k hold no more dice than the records up to and including k. */
  lemma {:induction false} DiceCountPrefix(data: seq<CliTray.CliTrayData>, k: nat)
    requires k < |data|
    ensures DiceCount(data[..k]) + |data[k].diceData| <= DiceCount(data)
    decreases |data|
  {
    var n := |data| - 1;
    if k < n {
      DiceCountPrefix(data[..n], k);
      assert data[..n][..k] == data[..k] && data[..n][k] == data[k];
    } else {
      assert data[..k] == data[..n];
    }
  }

  /** Restored dice get ids from the old counter up to, not including, the new one. */
  lemma LoadTraysIdsFresh(a: CliAllocator.CliDiceAllocator, data: seq<CliTray.CliTrayData>)
    ensures forall k, j :: 0 <= k < |data| && 0 <= j < |LoadTrays(a, data).1[k].dice| ==>
      a.nextDieId <= LoadTrays(a, data).1[k].dice[j].id < LoadTrays(a, data).0.nextDieId
  {
    var r := LoadTrays(a, data);
    forall k, j | 0 <= k < |data| && 0 <= j < |r.1[k].dice|
      ensures a.nextDieId <= r.1[k].dice[j].id < r.0.nextDieId
    {
      DiceCountPrefix(data, k);
      LoadTraysNumbered(a, data, k, a.nextDieId + DiceCount(data[..k]));
    }
  }

  /** The dice restored one by one, added to a new tray, are the record's tray. */
  lemma RestoredTray(a: CliAllocator.CliDiceAllocator, d: CliTray.CliTrayData)
    ensures CliTray.AddDice(CliTray.New(d.name), RestoreDice(a, d.diceData).1) == CliTray.TrayFromData(d, a.nextDieId)
  {
    var t := CliTray.AddDice(CliTray.New(d.name), RestoreDice(a, d.diceData).1);
    var u := CliTray.TrayFromData(d, a.nextDieId);
    assert t.dice == u.dice;
  }

  /** Every die in every tray has an id below `n`. */
  predicate IdsBelow(trays: seq<Tray>, n: nat) {
    forall i, j :: 0 <= i < |trays| && 0 <= j < |trays[i].dice| ==> trays[i].dice[j].id < n
  }

  /** `init`: the save records (None when the file could not be read) are restored
      through the allocator; each restored tray is kept unless an earlier one had its
      id; when no tray is present afterwards, an empty "Main" tray is created. */
  function Init(app: CliDiceTrayApp, loaded: Option<seq<CliTray.CliTrayData>>): (r: CliDiceTrayApp)
    ensures |r.trays| >= 1
    ensures r.allocator == app.allocator.(nextDieId := app.allocator.nextDieId + if loaded.Some? then DiceCount(loaded.value) else 0)
    ensures UniqueKeys(app.trays) ==> UniqueKeys(r.trays)
    ensures loaded.Some? ==> forall k :: 0 <= k < |loaded.value| ==> HasKey(r.trays, loaded.value[k].name)
    ensures |app.trays| == 0 && (loaded.None? || |loaded.value| == 0) ==> r.trays == [CliTray.New(MAIN)]
    ensures IdsBelow(app.trays, app.allocator.nextDieId) ==> IdsBelow(r.trays, r.allocator.nextDieId)
  {
    var load := if loaded.Some? then LoadTrays(app.allocator, loaded.value) else (app.allocator, []);
    var trays := InsertAll(app.trays, load.1);
    InsertAllKeepsFirst(app.trays, load.1);
    assert IdsBelow(app.trays, app.allocator.nextDieId) ==> IdsBelow(trays, load.0.nextDieId) by {
      if IdsBelow(app.trays, app.allocator.nextDieId) {
        if loaded.Some? { LoadTraysIdsFresh(app.allocator, loaded.value); }
        forall i, j | 0 <= i < |trays| && 0 <= j < |trays[i].dice|
          ensures trays[i].dice[j].id < load.0.nextDieId
        {
          if i < |app.trays| {
            assert trays[i] == trays[..|app.trays|][i];
          } else {
            assert FirstLoaded(app.trays, load.1, trays[i]);
          }
        }
      }
    }
    var a := app.(allocator := load.0);
    if |trays| == 0 then a.(trays := [CliTray.New(MAIN)]) else a.(trays := trays)
  }

  /** Among records sharing a name, the first one is the tray kept, with its dice
      numbered from the count of dice restored before it. */
  lemma InitKeepsFirst(data: seq<CliTray.CliTrayData>, k: nat)
    requires k < |data|
    requires forall k' :: 0 <= k' < k ==> data[k'].name != data[k].name
    ensures exists j :: 0 <= j < |Init(New(), Some(data)).trays| &&
                        Init(New(), Some(data)).trays[j] == CliTray.TrayFromData(data[k], DiceCount(data[..k]))
  {
    var j := KeptRecord(data, k);
    InitFromEmpty(data);
  }

  /** Where the first record with a given name ends up among the loaded trays. */
  lemma KeptRecord(data: seq<CliTray.CliTrayData>, k: nat) returns (j: nat)
    requires k < |data|
    requires forall k' :: 0 <= k' < k ==> data[k'].name != data[k].name
    ensures j < |InsertAll([], LoadTrays(CliAllocator.New(), data).1)|
    ensures InsertAll([], LoadTrays(CliAllocator.New(), data).1)[j] == CliTray.TrayFromData(data[k], DiceCount(data[..k]))
  {
    var loaded := LoadTrays(CliAllocator.New(), data).1;
    assert forall i :: 0 <= i < |data| ==> loaded[i].id == data[i].name;
    j := KeptPosition(loaded, k);
    LoadTraysNumbered(CliAllocator.New(), data, k, DiceCount(data[..k]));
  }

  /** Starting from no trays with at least one record, the map is the loaded trays
      without later duplicates. */
  lemma InitFromEmpty(data: seq<CliTray.CliTrayData>)
    requires |data| > 0
    ensures Init(New(), Some(data)).trays == InsertAll([], LoadTrays(CliAllocator.New(), data).1)
  {
    var loaded := LoadTrays(CliAllocator.New(), data).1;
    InsertAllKeepsFirst([], loaded);
    assert HasKey(InsertAll([], loaded), loaded[0].id);
  }

  /** Where the first loaded tray with a given id ends up. */
  lemma KeptPosition(loaded: seq<Tray>, k: nat) returns (j: nat)
    requires k < |loaded|
    requires forall k' :: 0 <= k' < k ==> loaded[k'].id != loaded[k].id
    ensures j < |InsertAll([], loaded)| && InsertAll([], loaded)[j] == loaded[k]
  {
    var r := InsertAll([], loaded);
    InsertAllKeepsFirst([], loaded);
    assert HasKey(r, loaded[k].id);
    j :| 0 <= j < |r| && r[j].id == loaded[k].id;
    assert FirstLoaded([], loaded, r[j]);
    var k2 :| 0 <= k2 < |loaded| && r[j] == loaded[k2]
      && forall k' :: 0 <= k' < k2 ==> loaded[k'].id != r[j].id;
    assert k2 == k;
  }

  /** `delete_tray`: removes exactly the named tray, keeping the order of the rest;
      never "Main", and nothing without an id or for an unknown id. */
  function DeleteTray(app: CliDiceTrayApp, id: Option<string>): (r: CliDiceTrayApp)
    ensures r.allocator == app.allocator
    ensures id.None? || id == Some(MAIN) || !HasKey(app.trays, id.value) ==> r == app
    ensures id.Some? && id.value != MAIN && HasKey(app.trays, id.value) ==>
      var i := Find(app.trays, id.value).value;
      r.trays == app.trays[..i] + app.trays[i + 1..]
    ensures HasKey(app.trays, MAIN) ==> HasKey(r.trays, MAIN)
    ensures UniqueKeys(app.trays) && id.Some? ==> !HasKey(r.trays, id.value) || id.value == MAIN
  {
    match id
    case None => app
    case Some(key) =>
      if key == MAIN then app
      else
        match Find(app.trays, key)
        case None => app
        case Some(i) =>
          var rest := app.trays[..i] + app.trays[i + 1..];
          RemovedKeys(app.trays, i, MAIN);
          RemovedKeys(app.trays, i, key);
          app.(trays := rest)
  }

  /** Taking out the tray at `i` keeps every other key, and under unique keys
      removes the key of that tray. */
  lemma RemovedKeys(trays: seq<Tray>, i: nat, key: string)
    requires i < |trays|
    ensures key != trays[i].id ==> (HasKey(trays, key) <==> HasKey(trays[..i] + trays[i + 1..], key))
    ensures UniqueKeys(trays) && key == trays[i].id ==> !HasKey(trays[..i] + trays[i + 1..], key)
  {
    var rest := trays[..i] + trays[i + 1..];
    assert forall j :: 0 <= j < i ==> rest[j] == trays[j];
    assert forall j :: i <= j < |rest| ==> rest[j] == trays[j + 1];
    if key != trays[i].id && HasKey(trays, key) {
      var m :| 0 <= m < |trays| && trays[m].id == key;
      if m < i { assert rest[m].id == key; } else { assert rest[m - 1].id == key; }
    }
  }

  /** `reset`: the map holds exactly one tray, an empty "Main". */
  function Reset(app: CliDiceTrayApp): (r: CliDiceTrayApp)
    ensures |r.trays| == 1 && r.trays[0].id == MAIN && r.trays[0].dice == []
    ensures r.allocator == app.allocator
  {
    app.(trays := [CliTray.New(MAIN)])
  }

  /** `new_tray`: Err and nothing changed when the id is taken; otherwise an empty
      tray with that id is appended. */
  function NewTray(app: CliDiceTrayApp, key: string): (r: (CliDiceTrayApp, Result<(), AppError>))
    ensures r.1.Err? <==> HasKey(app.trays, key)
    ensures r.1.Err? ==> r.0 == app && r.1.error == TrayExists(key)
    ensures r.1.Ok? ==> r.0.trays == app.trays + [CliTray.New(key)] && r.0.allocator == app.allocator
    ensures UniqueKeys(app.trays) ==> UniqueKeys(r.0.trays)
  {
    if Find(app.trays, key).Some? then (app, Err(TrayExists(key)))
    else (app.(trays := app.trays + [CliTray.New(key)]), Ok(()))
  }

  /** `roll_all` on the targeted tray; when the lookup fails nothing changes. */
  function RollAll(app: CliDiceTrayApp, id: Option<string>, rt: Option<DieResultType>, roll: Roller): (r: CliDiceTrayApp)
    requires CliTray.ValidRoller(roll) && Rollable(app)
    ensures GetTrayMut(app, id).Err? ==> r == app
    ensures GetTrayMut(app, id).Ok? ==>
      var i := GetTrayMut(app, id).value;
      r == app.(trays := app.trays[i := CliTray.RollAll(app.trays[i], rt, roll)])
    ensures SameKeys(app.trays, r.trays) && Rollable(r)
  {
    match GetTrayMut(app, id)
    case Err(_) => app
    case Ok(i) => SetTray(app, i, CliTray.RollAll(app.trays[i], rt, roll))
  }

  /** Whether die position `j` (labelled `name`) is named by one of the targets. */
  predicate Targeted(targets: seq<DiceTargets>, j: nat, name: string) {
    exists k :: 0 <= k < |targets| &&
      match targets[k]
      case Index(ns) => j in ns
      case Label(s) => s == name
  }

  /** A die not named by any target is not named by the later targets, nor by the
      first one. */
  lemma TargetedTail(targets: seq<DiceTargets>, dice: seq<Die32>)
    requires |targets| > 0
    ensures forall j :: 0 <= j < |dice| && !Targeted(targets, j, dice[j].name) ==>
      && !Targeted(targets[1..], j, dice[j].name)
      && (targets[0].Index? ==> j !in targets[0].indices)
      && (targets[0].Label? ==> targets[0].name != dice[j].name)
  {
    forall j | 0 <= j < |dice| && Targeted(targets[1..], j, dice[j].name)
      ensures Targeted(targets, j, dice[j].name)
    {
      var k :| 0 <= k < |targets[1..]| && match targets[1..][k]
        case Index(ns) => j in ns
        case Label(s) => s == dice[j].name;
      assert targets[k + 1] == targets[1..][k];
    }
  }

  /** The positions rolled one after another; `roll_at` errors are ignored. */
  function RollIndices(t: Tray, ns: seq<nat>, rt: Option<DieResultType>, roll: Roller): (r: Tray)
    requires CliTray.ValidRoller(roll) && CliTray.AllRollable(t.dice)
    ensures r.id == t.id && r.resultType == t.resultType && |r.dice| == |t.dice|
    ensures CliTray.AllRollable(r.dice)
    ensures forall j :: 0 <= j < |t.dice| ==>
      r.dice[j].id == t.dice[j].id && r.dice[j].name == t.dice[j].name && r.dice[j].faces == t.dice[j].faces
    ensures forall j :: 0 <= j < |t.dice| && j !in ns ==> r.dice[j] == t.dice[j]
    decreases |ns|
  {
    if |ns| == 0 then t
    else
      var i := ns[0];
      var f := if i < |t.dice| then roll(t.dice[i]) else 0;
      var t1 := CliTray.RollAt(t, i, rt, f).tray;
      RollIndices(t1, ns[1..], rt, roll)
  }

  /** The targets applied in order to one tray: index lists via `roll_at`, labels via
      `roll_by_label`, every error ignored. */
  function RollTargets(t: Tray, targets: seq<DiceTargets>, rt: Option<DieResultType>, roll: Roller): (r: Tray)
    requires CliTray.ValidRoller(roll) && CliTray.AllRollable(t.dice)
    ensures r.id == t.id && r.resultType == t.resultType && |r.dice| == |t.dice|
    ensures CliTray.AllRollable(r.dice)
    ensures forall j :: 0 <= j < |t.dice| ==>
      r.dice[j].id == t.dice[j].id && r.dice[j].name == t.dice[j].name && r.dice[j].faces == t.dice[j].faces
    ensures forall j :: 0 <= j < |t.dice| && !Targeted(targets, j, t.dice[j].name) ==> r.dice[j] == t.dice[j]
    ensures DistinctLabels(targets) ==> forall j :: 0 <= j < |t.dice| && Targeted(targets, j, t.dice[j].name) ==>
      r.dice[j] == Dice.Roll(t.dice[j], rt, roll(t.dice[j]))
    decreases |targets|
  {
    if |targets| == 0 then t
    else
      var t1 := match targets[0]
        case Index(ns) => RollIndices(t, ns, rt, roll)
        case Label(s) => CliTray.RollByLabel(t, s, rt, roll).tray;
      TargetedTail(targets, t.dice);
      var r := RollTargets(t1, targets[1..], rt, roll);
      DistinctLabelsRolledOnce(t, targets, rt, roll, t1, r);
      r
  }

  /** Every target is a label, and no label is named twice. */
  predicate DistinctLabels(targets: seq<DiceTargets>) {
    forall a :: 0 <= a < |targets| ==>
      targets[a].Label? && forall b :: a < b < |targets| ==> targets[b] != Label(targets[a].name)
  }

  /** With distinct labels, a die named by the first label is rolled by it and left
      alone afterwards; any other named die is left alone by it and rolled later. */
  lemma DistinctLabelsRolledOnce(t: Tray, targets: seq<DiceTargets>, rt: Option<DieResultType>, roll: Roller, t1: Tray, r: Tray)
    requires CliTray.ValidRoller(roll) && CliTray.AllRollable(t.dice)
    requires |targets| > 0
    requires targets[0].Label? ==> t1 == CliTray.RollByLabel(t, targets[0].name, rt, roll).tray
    requires CliTray.AllRollable(t1.dice) && |r.dice| == |t1.dice|
    requires forall j :: 0 <= j < |t1.dice| && !Targeted(targets[1..], j, t1.dice[j].name) ==> r.dice[j] == t1.dice[j]
    requires DistinctLabels(targets[1..]) ==> forall j :: 0 <= j < |t1.dice| && Targeted(targets[1..], j, t1.dice[j].name) ==>
      r.dice[j] == Dice.Roll(t1.dice[j], rt, roll(t1.dice[j]))
    ensures DistinctLabels(targets) ==> forall j :: 0 <= j < |t.dice| && Targeted(targets, j, t.dice[j].name) ==>
      r.dice[j] == Dice.Roll(t.dice[j], rt, roll(t.dice[j]))
  {
    if !DistinctLabels(targets) { return; }
    assert forall a :: 1 <= a < |targets| ==> targets[1..][a - 1] == targets[a];
    assert DistinctLabels(targets[1..]);
    var l := targets[0].name;
    forall j | 0 <= j < |t.dice| && Targeted(targets, j, t.dice[j].name)
      ensures r.dice[j] == Dice.Roll(t.dice[j], rt, roll(t.dice[j]))
    {
      assert t1.dice[j].name == t.dice[j].name;
      if t.dice[j].name == l {
        assert forall k :: 0 <= k < |targets[1..]| ==> targets[1..][k] == targets[k + 1] && targets[k + 1].Label?;
        assert !Targeted(targets[1..], j, l);
      } else {
        var k :| 0 <= k < |targets| && match targets[k]
          case Index(ns) => j in ns
          case Label(s) => s == t.dice[j].name;
        assert k > 0 && targets[1..][k - 1] == targets[k];
      }
    }
  }

  /** Rolling targets one after another: the targets' list split anywhere. */
  lemma {:induction false} RollTargetsAppend(t: Tray, a: seq<DiceTargets>, b: seq<DiceTargets>, rt: Option<DieResultType>, roll: Roller)
    requires CliTray.ValidRoller(roll) && CliTray.AllRollable(t.dice)
    ensures RollTargets(t, a + b, rt, roll) == RollTargets(RollTargets(t, a, rt, roll), b, rt, roll)
    decreases |a|
  {
    if |a| == 0 {
      assert a + b == b;
    } else {
      assert (a + b)[0] == a[0] && (a + b)[1..] == a[1..] + b;
      var t1 := match a[0]
        case Index(ns) => RollIndices(t, ns, rt, roll)
        case Label(s) => CliTray.RollByLabel(t, s, rt, roll).tray;
      RollTargetsAppend(t1, a[1..], b, rt, roll);
    }
  }

  /** One target alone: an index list is `roll_at` on each listed position, a label
      is `roll_by_label`. */
  lemma RollTargetsOne(t: Tray, target: DiceTargets, rt: Option<DieResultType>, roll: Roller)
    requires CliTray.ValidRoller(roll) && CliTray.AllRollable(t.dice)
    ensures target.Index? ==> RollTargets(t, [target], rt, roll) == RollIndices(t, target.indices, rt, roll)
    ensures target.Label? ==> RollTargets(t, [target], rt, roll) == CliTray.RollByLabel(t, target.name, rt, roll).tray
  {
    assert [target][1..] == [];
  }

  /** An index list without repeats rolls each listed in-range die exactly once;
      out-of-range positions are skipped. */
  lemma {:induction false} RollIndicesDistinct(t: Tray, ns: seq<nat>, rt: Option<DieResultType>, roll: Roller)
    requires CliTray.ValidRoller(roll) && CliTray.AllRollable(t.dice)
    requires forall a, b :: 0 <= a < b < |ns| ==> ns[a] != ns[b]
    ensures forall a :: 0 <= a < |ns| && ns[a] < |t.dice| ==>
      RollIndices(t, ns, rt, roll).dice[ns[a]] == Dice.Roll(t.dice[ns[a]], rt, roll(t.dice[ns[a]]))
    decreases |ns|
  {
    if |ns| > 0 {
      var i := ns[0];
      var f := if i < |t.dice| then roll(t.dice[i]) else 0;
      var t1 := CliTray.RollAt(t, i, rt, f).tray;
      var r := RollIndices(t1, ns[1..], rt, roll);
      assert RollIndices(t, ns, rt, roll) == r;
      RollIndicesDistinct(t1, ns[1..], rt, roll);
      forall a | 0 <= a < |ns| && ns[a] < |t.dice|
        ensures r.dice[ns[a]] == Dice.Roll(t.dice[ns[a]], rt, roll(t.dice[ns[a]]))
      {
        if a == 0 {
          assert forall b :: 0 <= b < |ns[1..]| ==> ns[1..][b] == ns[b + 1] != i;
        } else {
          assert ns[1..][a - 1] == ns[a] && ns[a] != i;
        }
      }
    }
  }

  /** `roll_at_targets`: always Ok; on the targeted tray exactly the dice named by some
      target may change (ids, labels and face counts never do); when the tray
      lookup fails nothing changes. */
  function RollAtTargets(app: CliDiceTrayApp, id: Option<string>, targets: seq<DiceTargets>,
                         rt: Option<DieResultType>, roll: Roller): (r: (CliDiceTrayApp, Result<(), AppError>))
    requires CliTray.ValidRoller(roll) && Rollable(app)
    ensures r.1 == Ok(())
    ensures GetTrayMut(app, id).Err? ==> r.0 == app
    ensures GetTrayMut(app, id).Ok? ==>
      var i := GetTrayMut(app, id).value;
      r.0 == app.(trays := app.trays[i := RollTargets(app.trays[i], targets, rt, roll)])
    ensures SameKeys(app.trays, r.0.trays) && Rollable(r.0)
  {
    match GetTrayMut(app, id)
    case Err(_) => (app, Ok(()))
    case Ok(i) => (SetTray(app, i, RollTargets(app.trays[i], targets, rt, roll)), Ok(()))
  }

  /** `drop_all`: empties the targeted tray; nothing changes when the lookup fails. */
  function DropAll(app: CliDiceTrayApp, id: Option<string>): (r: CliDiceTrayApp)
    ensures GetTrayMut(app, id).Err? ==> r == app
    ensures GetTrayMut(app, id).Ok? ==>
      var i := GetTrayMut(app, id).value;
      r == app.(trays := app.trays[i := app.trays[i].(dice := [])])
    ensures SameKeys(app.trays, r.trays)
  {
    match GetTrayMut(app, id)
    case Err(_) => app
    case Ok(i) => SetTray(app, i, CliTray.RemoveAll(app.trays[i]).tray)
  }

  lemma RemoveDieAtMultiset(t: Tray, i: nat)
    requires i < |t.dice|
    ensures multiset(CliTray.RemoveDieAt(t, i).tray.dice) + multiset{CliTray.RemoveDieAt(t, i).out.value} == multiset(t.dice)
  {
    var r := CliTray.RemoveDieAt(t, i);
    var rest := r.tray.dice;
    assert rest[..i] + [r.out.value] + rest[i..] == t.dice;
    assert rest == rest[..i] + rest[i..];
  }

  /** One index list of `drop_at_targets`: the positions removed from the last listed
      to the first, stopping at the first failing removal (earlier removals stay). */
  function DropIndices(t: Tray, ns: seq<nat>): (r: CliTray.Step<()>)
    ensures r.tray.id == t.id && r.tray.resultType == t.resultType
    ensures multiset(r.tray.dice) <= multiset(t.dice)
    decreases |ns|
  {
    if |ns| == 0 then CliTray.Step(t, Ok(()))
    else
      var s := CliTray.RemoveDieAt(t, ns[|ns| - 1]);
      if s.out.Err? then CliTray.Step(s.tray, Err(s.out.error))
      else
        RemoveDieAtMultiset(t, ns[|ns| - 1]);
        DropIndices(s.tray, ns[..|ns| - 1])
  }

  /** Whether some target names a label. */
  predicate HasLabelTarget(targets: seq<DiceTargets>) {
    exists k :: 0 <= k < |targets| && targets[k].Label?
  }

  /** A label target among the later targets, or after an index list put in front
      of them, is one among all the targets. */
  lemma LabelTargetInTail(targets: seq<DiceTargets>, ns: seq<nat>)
    requires |targets| > 0
    ensures HasLabelTarget(targets[1..]) ==> HasLabelTarget(targets)
    ensures HasLabelTarget([Index(ns)] + targets[1..]) ==> HasLabelTarget(targets)
  {
    if HasLabelTarget(targets[1..]) {
      var k :| 0 <= k < |targets[1..]| && targets[1..][k].Label?;
      assert targets[k + 1] == targets[1..][k];
    }
    if HasLabelTarget([Index(ns)] + targets[1..]) {
      var k :| 0 <= k < |[Index(ns)] + targets[1..]| && ([Index(ns)] + targets[1..])[k].Label?;
      assert targets[k] == ([Index(ns)] + targets[1..])[k];
    }
  }

  /** One target of `drop_at_targets`: an index list through `DropIndices`, a label
      through `remove_dice_by_label` as written, which panics on an empty tray. */
  function DropFirst(t: Tray, target: DiceTargets): (r: Run<CliTray.Step<()>>)
    ensures r.Panicked? <==> target.Label? && |t.dice| == 0
    ensures r.Returned? ==> r.value.tray.id == t.id && r.value.tray.resultType == t.resultType
    ensures r.Returned? ==> multiset(r.value.tray.dice) <= multiset(t.dice)
    ensures r.Returned? && r.value.out.Ok? && target.Label? ==>
      forall j :: 0 <= j < |r.value.tray.dice| ==> r.value.tray.dice[j].name != target.name
  {
    match target
    case Index(ns) => Returned(DropIndices(t, ns))
    case Label(l) =>
      match CliTray.RemoveDiceByLabelAsWritten(t, l)
      case Panicked => Panicked
      case Returned(s) => Returned(CliTray.Step(s.tray, if s.out.Ok? then Ok(()) else Err(s.out.error)))
  }

  /** The targets of `drop_at_targets` applied in order, stopping at the first Err.
      A label target reaches `remove_dice_by_label` as written, which panics on an
      empty tray; index targets never panic. */
  function DropTargets(t: Tray, targets: seq<DiceTargets>): (r: Run<CliTray.Step<()>>)
    ensures r.Panicked? ==> HasLabelTarget(targets)
    ensures |targets| > 0 && targets[0].Label? && |t.dice| == 0 ==> r.Panicked?
    ensures r.Returned? ==> r.value.tray.id == t.id && r.value.tray.resultType == t.resultType
    ensures r.Returned? ==> multiset(r.value.tray.dice) <= multiset(t.dice)
    ensures r.Returned? && r.value.out.Ok? ==> forall k, j :: 0 <= k < |targets| && targets[k].Label? && 0 <= j < |r.value.tray.dice| ==>
      r.value.tray.dice[j].name != targets[k].name
    decreases |targets|
  {
    if |targets| == 0 then Returned(CliTray.Step(t, Ok(())))
    else
      match DropFirst(t, targets[0])
      case Panicked => Panicked
      case Returned(s) =>
        if s.out.Err? then Returned(s)
        else
          var r := DropTargets(s.tray, targets[1..]);
          LabelTargetInTail(targets, []);
          DropTargetsTail(targets, t, s.tray, r);
          r
  }

  /** What the later targets leave of the tray after the first, seen from the start. */
  lemma DropTargetsTail(targets: seq<DiceTargets>, t: Tray, mid: Tray, r: Run<CliTray.Step<()>>)
    requires |targets| > 0
    requires multiset(mid.dice) <= multiset(t.dice)
    requires targets[0].Label? ==> forall j :: 0 <= j < |mid.dice| ==> mid.dice[j].name != targets[0].name
    requires r.Returned? ==> multiset(r.value.tray.dice) <= multiset(mid.dice)
    requires r.Returned? && r.value.out.Ok? ==> forall k, j :: 0 <= k < |targets[1..]| && targets[1..][k].Label? && 0 <= j < |r.value.tray.dice| ==>
      r.value.tray.dice[j].name != targets[1..][k].name
    ensures r.Returned? ==> multiset(r.value.tray.dice) <= multiset(t.dice)
    ensures r.Returned? && r.value.out.Ok? ==> forall k, j :: 0 <= k < |targets| && targets[k].Label? && 0 <= j < |r.value.tray.dice| ==>
      r.value.tray.dice[j].name != targets[k].name
  {
    if r.Returned? && r.value.out.Ok? {
      var dice := r.value.tray.dice;
      forall k, j | 0 <= k < |targets| && targets[k].Label? && 0 <= j < |dice|
        ensures dice[j].name != targets[k].name
      {
        if k == 0 {
          assert dice[j] in multiset(mid.dice);
        } else {
          assert targets[k] == targets[1..][k - 1];
        }
      }
    }
  }

  /** `drop_at_targets`: Err when the tray lookup fails (nothing changes); otherwise the
      targets are applied to the tray until one fails, whose error is returned, or
      until a label meets an empty tray, where the program panics. */
  function DropAtTargets(app: CliDiceTrayApp, id: Option<string>, targets: seq<DiceTargets>): (r: Run<(CliDiceTrayApp, Result<(), AppError>)>)
    ensures GetTrayMut(app, id).Err? ==> r == Returned((app, Err(GetTrayMut(app, id).error)))
    ensures GetTrayMut(app, id).Ok? ==>
      var i := GetTrayMut(app, id).value;
      var s := DropTargets(app.trays[i], targets);
      && (r.Panicked? <==> s.Panicked?)
      && (s.Returned? ==>
            && r.Returned?
            && r.value.0 == app.(trays := app.trays[i := s.value.tray])
            && (r.value.1.Ok? <==> s.value.out.Ok?))
    ensures r.Panicked? ==> HasLabelTarget(targets)
    ensures r.Returned? ==> SameKeys(app.trays, r.value.0.trays)
  {
    match GetTrayMut(app, id)
    case Err(e) => Returned((app, Err(e)))
    case Ok(i) =>
      match DropTargets(app.trays[i], targets)
      case Panicked => Panicked
      case Returned(s) => Returned((SetTray(app, i, s.tray), if s.out.Ok? then Ok(()) else Err(TrayFailed(s.out.error))))
  }

  /** The dice of `s` at positions outside `drop`, in order. */
  function Without(s: seq<Die32>, drop: set<nat>): seq<Die32> {
    if |s| == 0 then []
    else Without(s[..|s| - 1], drop) + (if |s| - 1 in drop then [] else [s[|s| - 1]])
  }

  lemma {:induction false} WithoutPrefix(s: seq<Die32>, drop: set<nat>, n: nat)
    requires n <= |s|
    requires forall x :: x in drop ==> x < n
    ensures Without(s, drop) == Without(s[..n], drop) + s[n..]
    decreases |s|
  {
    if |s| > n {
      WithoutPrefix(s[..|s| - 1], drop, n);
      assert s[..|s| - 1][..n] == s[..n];
      assert s[n..] == s[..|s| - 1][n..] + [s[|s| - 1]];
    } else {
      assert s[..n] == s;
    }
  }

  lemma {:induction false} WithoutIgnoresBeyond(s: seq<Die32>, drop: set<nat>, m: nat)
    requires |s| <= m
    ensures Without(s, drop + {m}) == Without(s, drop)
    decreases |s|
  {
    if |s| > 0 {
      WithoutIgnoresBeyond(s[..|s| - 1], drop, m);
    }
  }

  /** Removing position `m` first, when every other position to drop lies below it. */
  lemma WithoutLargest(s: seq<Die32>, drop: set<nat>, m: nat)
    requires m < |s|
    requires forall x :: x in drop ==> x < m
    ensures Without(s[..m] + s[m + 1..], drop) == Without(s, drop + {m})
  {
    var s' := s[..m] + s[m + 1..];
    WithoutPrefix(s', drop, m);
    assert s'[..m] == s[..m] && s'[m..] == s[m + 1..];
    WithoutPrefix(s, drop + {m}, m + 1);
    assert s[..m + 1][..m] == s[..m];
    WithoutIgnoresBeyond(s[..m], drop, m);
  }

  lemma RemoveDieAtSplice(t: Tray, i: nat)
    requires i < |t.dice|
    ensures CliTray.RemoveDieAt(t, i).out.Ok?
    ensures CliTray.RemoveDieAt(t, i).tray.dice == t.dice[..i] + t.dice[i + 1..]
  {
  }

  lemma DropIndicesStep(t: Tray, ns: seq<nat>)
    requires |ns| > 0 && ns[|ns| - 1] < |t.dice|
    ensures DropIndices(t, ns) == DropIndices(CliTray.RemoveDieAt(t, ns[|ns| - 1]).tray, ns[..|ns| - 1])
  {
  }

  /** The positions listed in `ns`. */
  function Positions(ns: seq<nat>): set<nat> {
    set a | 0 <= a < |ns| :: ns[a]
  }

  lemma PositionsOfSnoc(ns: seq<nat>)
    requires |ns| > 0
    ensures Positions(ns) == Positions(ns[..|ns| - 1]) + {ns[|ns| - 1]}
  {
    var init := ns[..|ns| - 1];
    forall x | x in Positions(ns)
      ensures x in Positions(init) + {ns[|ns| - 1]}
    {
      var a :| 0 <= a < |ns| && ns[a] == x;
      if a < |ns| - 1 { assert init[a] == x; }
    }
    forall x | x in Positions(init)
      ensures x in Positions(ns)
    {
      var a :| 0 <= a < |init| && init[a] == x;
      assert ns[a] == x;
    }
  }

  /** Removing an ascending list of in-range positions from the last to the first
      removes exactly the listed dice; the reverse order keeps earlier positions valid. */
  lemma {:induction false} DropAscendingIndices(t: Tray, ns: seq<nat>)
    requires forall a, b :: 0 <= a < b < |ns| ==> ns[a] < ns[b]
    requires forall a :: 0 <= a < |ns| ==> ns[a] < |t.dice|
    ensures DropIndices(t, ns).out.Ok?
    ensures DropIndices(t, ns).tray.dice == Without(t.dice, Positions(ns))
    decreases |ns|
  {
    if |ns| == 0 {
      assert Positions(ns) == {};
      WithoutPrefix(t.dice, {}, 0);
    } else {
      var m := ns[|ns| - 1];
      var init := ns[..|ns| - 1];
      RemoveDieAtSplice(t, m);
      var t1 := CliTray.RemoveDieAt(t, m).tray;
      DropIndicesStep(t, ns);
      assert forall a :: 0 <= a < |init| ==> init[a] == ns[a] && ns[a] < m;
      DropAscendingIndices(t1, init);
      assert forall x :: x in Positions(init) ==> x < m;
      WithoutLargest(t.dice, Positions(init), m);
      PositionsOfSnoc(ns);
    }
  }

  /** Drops stop at the first failure but keep what was already removed: dropping
      "99,0" from a three-die tray removes die 0, then fails on 99. */
  lemma DropStopsKeepingEarlier(t: Tray)
    requires |t.dice| == 3
    ensures DropIndices(t, [99, 0]).out.Err?
    ensures DropIndices(t, [99, 0]).tray.dice == t.dice[1..]
  {
    var ns: seq<nat> := [99, 0];
    var rest: seq<nat> := [99];
    assert ns[..1] == rest;
    DropIndicesStep(t, ns);
    var u := CliTray.RemoveDieAt(t, 0).tray;
    RemoveFront(t);
    DropIndicesFailLast(u, rest);
  }

  lemma RemoveFront(t: Tray)
    requires |t.dice| > 0
    ensures CliTray.RemoveDieAt(t, 0).tray.dice == t.dice[1..]
  {
    var s := CliTray.RemoveDieAt(t, 0);
    assert s.tray.dice[..0] + [s.out.value] + s.tray.dice[0..] == t.dice;
  }

  lemma DropIndicesFailLast(t: Tray, ns: seq<nat>)
    requires |ns| > 0 && ns[|ns| - 1] >= |t.dice|
    ensures DropIndices(t, ns) == CliTray.Step(t, Err(CliTray.NoDieAtIndex(ns[|ns| - 1])))
  {
  }

  /** ... and a failure on the last listed index removes nothing. */
  lemma DropFailsFirst(t: Tray)
    requires |t.dice| == 3
    ensures DropIndices(t, [0, 99]).out.Err?
    ensures DropIndices(t, [0, 99]).tray == t
  {
    assert CliTray.RemoveDieAt(t, 99).out.Err?;
  }

  /** `move_all`: Err with nothing changed when source and destination are named
      the same or the source is missing; otherwise the source is drained, and Err
      when it was empty; the dice go to the destination, and are lost when there is
      no destination tray. */
  function MoveAll(app: CliDiceTrayApp, from: Option<string>, to: string): (r: (CliDiceTrayApp, Result<(), AppError>))
    ensures from == Some(to) ==> r == (app, Err(SameTray))
    ensures from != Some(to) && GetTrayMut(app, from).Err? ==> r.0 == app && r.1.Err?
    ensures SameKeys(app.trays, r.0.trays)
    ensures from != Some(to) && GetTrayMut(app, from).Ok? ==>
      var i := GetTrayMut(app, from).value;
      && (|app.trays[i].dice| == 0 ==> r.0 == app && r.1.Err?)
      && (!HasKey(app.trays, to) ==> r.0.trays == app.trays[i := app.trays[i].(dice := [])] && r.1.Err?)
      && (HasKey(app.trays, to) && Find(app.trays, to).value != i && |app.trays[i].dice| > 0 ==>
            var k := Find(app.trays, to).value;
            && r.1.Ok?
            && r.0.trays == app.trays[i := app.trays[i].(dice := [])][k := app.trays[k].(dice := app.trays[k].dice + app.trays[i].dice)])
  {
    if from == Some(to) then (app, Err(SameTray))
    else
      match GetTrayMut(app, from)
      case Err(e) => (app, Err(e))
      case Ok(i) =>
        var s := CliTray.RemoveAll(app.trays[i]);
        var app1 := SetTray(app, i, s.tray);
        if s.out.Err? then (app1, Err(TrayFailed(s.out.error)))
        else
          FindSameKeys(app.trays, app1.trays, to);
          match GetTrayMut(app1, Some(to))
          case Err(e) => (app1, Err(e))
          case Ok(k) => (SetTray(app1, k, CliTray.AddDice(app1.trays[k], s.out.value)), Ok(()))
  }

  /** Without a source id the first tray is the source; moving into that same tray
      by its id is not caught as "same tray", and the dice end up where they were. */
  lemma MoveAllIntoFirstTray(app: CliDiceTrayApp)
    requires |app.trays| > 0 && |app.trays[0].dice| > 0
    ensures MoveAll(app, None, app.trays[0].id) == (app, Ok(()))
  {
    var t := app.trays[0];
    assert CliTray.RemoveAll(t).out == Ok(t.dice);
    var app1 := SetTray(app, 0, CliTray.RemoveAll(t).tray);
    FindSameKeys(app.trays, app1.trays, t.id);
    assert Find(app.trays, t.id) == Some(0);
    assert GetTrayMut(app1, Some(t.id)) == Ok(0);
    assert CliTray.AddDice(app1.trays[0], t.dice) == t;
    assert app1.trays[0 := t] == app.trays;
  }

  /** The targets of `move_at` applied in order to the source tray: index lists in the
      listed order, labels in full; the removed dice are collected in removal order,
      and the first failure stops the walk. A label target on an empty tray panics, as
      in `drop_at_targets`. */
  function MoveTargets(t: Tray, targets: seq<DiceTargets>): (r: Run<(Tray, seq<Die32>, Result<(), CliTray.TrayError>)>)
    ensures r.Panicked? ==> HasLabelTarget(targets)
    ensures |targets| > 0 && targets[0].Label? && |t.dice| == 0 ==> r.Panicked?
    ensures r.Returned? ==> r.value.0.id == t.id && r.value.0.resultType == t.resultType
    ensures r.Returned? ==> multiset(r.value.0.dice) + multiset(r.value.1) == multiset(t.dice)
    decreases |targets|, if |targets| > 0 && targets[0].Index? then |targets[0].indices| else 0
  {
    if |targets| == 0 then Returned((t, [], Ok(())))
    else
      match targets[0]
      case Index(ns) =>
        if |ns| == 0 then
          LabelTargetInTail(targets, []);
          MoveTargets(t, targets[1..])
        else
          var s := CliTray.RemoveDieAt(t, ns[0]);
          if s.out.Err? then Returned((t, [], Err(s.out.error)))
          else
            RemoveDieAtMultiset(t, ns[0]);
            var rest := [Index(ns[1..])] + targets[1..];
            LabelTargetInTail(targets, ns[1..]);
            var m := MoveTargets(s.tray, rest);
            CollectMultiset(t, s.tray, [s.out.value], m);
            Collect([s.out.value], m)
      case Label(l) =>
        match CliTray.RemoveDiceByLabelAsWritten(t, l)
        case Panicked => Panicked
        case Returned(s) =>
          if s.out.Err? then Returned((t, [], Err(s.out.error)))
          else
            var m := MoveTargets(s.tray, targets[1..]);
            CollectMultiset(t, s.tray, s.out.value, m);
            Collect(s.out.value, m)
  }

  /** The dice removed by one target, put in front of those the later targets remove. */
  function Collect(out: seq<Die32>, m: Run<(Tray, seq<Die32>, Result<(), CliTray.TrayError>)>): (r: Run<(Tray, seq<Die32>, Result<(), CliTray.TrayError>)>)
  {
    match m
    case Panicked => Panicked
    case Returned(v) => Returned((v.0, out + v.1, v.2))
  }

  lemma CollectMultiset(t: Tray, t1: Tray, out: seq<Die32>, m: Run<(Tray, seq<Die32>, Result<(), CliTray.TrayError>)>)
    requires multiset(t1.dice) + multiset(out) == multiset(t.dice)
    requires m.Returned? ==> multiset(m.value.0.dice) + multiset(m.value.1) == multiset(t1.dice)
    ensures Collect(out, m).Panicked? <==> m.Panicked?
    ensures Collect(out, m).Returned? ==>
      && Collect(out, m).value.0 == m.value.0
      && Collect(out, m).value.2 == m.value.2
      && multiset(Collect(out, m).value.0.dice) + multiset(Collect(out, m).value.1) == multiset(t.dice)
  {
  }

  /** `move_at`: as `move_all`, but only the targeted dice leave the source, in the
      order the targets name them; on Ok they are appended to the destination, so the
      source's dice and the destination's together are the same dice as before. A
      label that meets an empty source tray panics. */
  function MoveAt(app: CliDiceTrayApp, from: Option<string>, targets: seq<DiceTargets>, to: string): (r: Run<(CliDiceTrayApp, Result<(), AppError>)>)
    ensures from == Some(to) ==> r == Returned((app, Err(SameTray)))
    ensures from != Some(to) && GetTrayMut(app, from).Err? ==> r.Returned? && r.value.0 == app && r.value.1.Err?
    ensures r.Panicked? ==> HasLabelTarget(targets)
    ensures r.Returned? ==> SameKeys(app.trays, r.value.0.trays)
    ensures from != Some(to) && GetTrayMut(app, from).Ok? ==>
      var i := GetTrayMut(app, from).value;
      var m := MoveTargets(app.trays[i], targets);
      && (r.Panicked? <==> m.Panicked?)
      && (m.Returned? && m.value.2.Err? ==> r.Returned? && r.value.1.Err? && r.value.0.trays == app.trays[i := m.value.0])
      && (m.Returned? && m.value.2.Ok? && !HasKey(app.trays, to) ==>
            r.Returned? && r.value.1.Err? && r.value.0.trays == app.trays[i := m.value.0])
      && (m.Returned? && m.value.2.Ok? && HasKey(app.trays, to) && Find(app.trays, to).value != i ==>
            var k := Find(app.trays, to).value;
            && r.Returned?
            && r.value.1.Ok?
            && r.value.0.trays == app.trays[i := m.value.0][k := app.trays[k].(dice := app.trays[k].dice + m.value.1)]
            && multiset(r.value.0.trays[i].dice) + multiset(r.value.0.trays[k].dice)
               == multiset(app.trays[i].dice) + multiset(app.trays[k].dice))
  {
    if from == Some(to) then Returned((app, Err(SameTray)))
    else
      match GetTrayMut(app, from)
      case Err(e) => Returned((app, Err(e)))
      case Ok(i) =>
        match MoveTargets(app.trays[i], targets)
        case Panicked => Panicked
        case Returned(m) =>
          if m.2.Err? then Returned((SetTray(app, i, m.0), Err(TrayFailed(m.2.error))))
          else Returned(Deliver(app, i, m.0, m.1, to))
  }

  /** The second half of `move_at` and `move_all`: the source tray at `i` is replaced
      by what is left of it, then the moved dice go to the end of the destination `to`;
      when `to` names no tray the source keeps its loss and the call fails. */
  function Deliver(app: CliDiceTrayApp, i: nat, src: Tray, moved: seq<Die32>, to: string): (r: (CliDiceTrayApp, Result<(), AppError>))
    requires i < |app.trays| && src.id == app.trays[i].id
    ensures SameKeys(app.trays, r.0.trays)
    ensures r.1.Err? <==> !HasKey(app.trays, to)
    ensures !HasKey(app.trays, to) ==> r.0.trays == app.trays[i := src]
    ensures HasKey(app.trays, to) && Find(app.trays, to).value != i ==>
      var k := Find(app.trays, to).value;
      && r.0.trays == app.trays[i := src][k := app.trays[k].(dice := app.trays[k].dice + moved)]
      && multiset(r.0.trays[i].dice) + multiset(r.0.trays[k].dice)
         == multiset(src.dice) + multiset(moved) + multiset(app.trays[k].dice)
  {
    var app1 := SetTray(app, i, src);
    FindSameKeys(app.trays, app1.trays, to);
    match GetTrayMut(app1, Some(to))
    case Err(e) => (app1, Err(e))
    case Ok(k) => (SetTray(app1, k, CliTray.AddDice(app1.trays[k], moved)), Ok(()))
  }

  /** One iteration of `add_dice_from_raw`: the new die `d` goes to the targeted
      tray, or is discarded when the lookup fails; `a` is the allocator afterwards. */
  function AddOne(app: CliDiceTrayApp, id: Option<string>, a: CliAllocator.CliDiceAllocator, d: Die32): (r: CliDiceTrayApp)
    ensures r.allocator == a
    ensures SameKeys(app.trays, r.trays)
    ensures GetTrayMut(r, id) == GetTrayMut(app, id)
    ensures GetTrayMut(app, id).Err? ==> r.trays == app.trays
    ensures GetTrayMut(app, id).Ok? ==>
      var i := GetTrayMut(app, id).value;
      r.trays == app.trays[i := CliTray.AddDie(app.trays[i], d)]
  {
    var r := match GetTrayMut(app, id)
      case Ok(i) => SetTray(app, i, CliTray.AddDie(app.trays[i], d)).(allocator := a)
      case Err(_) => app.(allocator := a);
    FindSameKeys(app.trays, r.trays, if id.Some? then id.value else "");
    r
  }

  /** `batch` went to the end of the tray `id` targets, or nowhere when the lookup
      fails; no other tray changes and the ids stay where they were. */
  predicate Delivered(app: CliDiceTrayApp, id: Option<string>, batch: seq<Die32>, r: CliDiceTrayApp) {
    && SameKeys(app.trays, r.trays)
    && (GetTrayMut(app, id).Err? ==> r.trays == app.trays)
    && (GetTrayMut(app, id).Ok? ==>
          var i := GetTrayMut(app, id).value;
          r.trays == app.trays[i := CliTray.AddDice(app.trays[i], batch)])
  }

  /** The per-die loop of `add_dice_from_raw`: each die is made by the allocator and
      then added to the targeted tray, or discarded when the lookup fails. */
  function AddEach(app: CliDiceTrayApp, id: Option<string>, p: DieProfile, draws: seq<nat>): (r: CliDiceTrayApp)
    requires p.dieType.Numerical?
    requires forall j :: 0 <= j < |draws| ==> 1 <= draws[j] <= p.dieType.faces
    ensures r.allocator == CliAllocator.NewDice(app.allocator, p, draws).0
    ensures Delivered(app, id, CliAllocator.NewDice(app.allocator, p, draws).1, r)
    decreases |draws|
  {
    if |draws| == 0 then
      AddNothing(app, id);
      app
    else
      var nd := CliAllocator.NewDie(app.allocator, p, draws[0]);
      var app1 := AddOne(app, id, nd.0, nd.1);
      var r := AddEach(app1, id, p, draws[1..]);
      AddEachStep(app, id, p, draws, app1, r);
      r
  }

  lemma AddNothing(app: CliDiceTrayApp, id: Option<string>)
    ensures Delivered(app, id, [], app)
  {
    if GetTrayMut(app, id).Ok? {
      var i := GetTrayMut(app, id).value;
      assert app.trays[i].dice + [] == app.trays[i].dice;
    }
  }

  lemma AddDiceCons(t: Tray, d: Die32, rest: seq<Die32>)
    ensures CliTray.AddDice(CliTray.AddDie(t, d), rest) == CliTray.AddDice(t, [d] + rest)
  {
    assert t.dice + [d] + rest == t.dice + ([d] + rest);
  }

  lemma AddEachStep(app: CliDiceTrayApp, id: Option<string>, p: DieProfile, draws: seq<nat>,
                    app1: CliDiceTrayApp, r: CliDiceTrayApp)
    requires p.dieType.Numerical? && |draws| > 0
    requires forall j :: 0 <= j < |draws| ==> 1 <= draws[j] <= p.dieType.faces
    requires app1 == AddOne(app, id, CliAllocator.NewDie(app.allocator, p, draws[0]).0, CliAllocator.NewDie(app.allocator, p, draws[0]).1)
    requires r.allocator == CliAllocator.NewDice(app1.allocator, p, draws[1..]).0
    requires Delivered(app1, id, CliAllocator.NewDice(app1.allocator, p, draws[1..]).1, r)
    ensures r.allocator == CliAllocator.NewDice(app.allocator, p, draws).0
    ensures Delivered(app, id, CliAllocator.NewDice(app.allocator, p, draws).1, r)
  {
    var d := CliAllocator.NewDie(app.allocator, p, draws[0]).1;
    var rest := CliAllocator.NewDice(app1.allocator, p, draws[1..]).1;
    CliAllocator.NewDiceCons(app.allocator, p, draws);
    assert SameKeys(app.trays, app1.trays);
    if GetTrayMut(app, id).Ok? {
      var i := GetTrayMut(app, id).value;
      var t1 := CliTray.AddDie(app.trays[i], d);
      assert GetTrayMut(app1, id) == Ok(i);
      assert app1.trays == app.trays[i := t1];
      AddDiceCons(app.trays[i], d, rest);
      UpdateTwice(app.trays, i, t1, CliTray.AddDice(t1, rest));
    }
  }

  lemma UpdateTwice<T>(s: seq<T>, i: nat, a: T, b: T)
    requires i < |s|
    ensures s[i := a][i := b] == s[i := b]
  {
  }

  /** `add_dice_from_raw`: `count` new dice with `faces` faces and the given result
      type; `draws` are their creation rolls. */
  function AddDiceFromRaw(app: CliDiceTrayApp, id: Option<string>, count: nat, faces: nat,
                          rt: Option<DieResultType>, draws: seq<nat>): (r: CliDiceTrayApp)
    requires |draws| == count
    requires forall j :: 0 <= j < count ==> 1 <= draws[j] <= faces
    ensures r.allocator.nextDieId == app.allocator.nextDieId + count
    ensures SameKeys(app.trays, r.trays)
    ensures GetTrayMut(app, id).Err? ==> r.trays == app.trays
    ensures GetTrayMut(app, id).Ok? ==>
      var i := GetTrayMut(app, id).value;
      && RawTail(r.trays[i].dice, |app.trays[i].dice|, app.allocator.nextDieId, faces, rt, draws)
      && r.trays[i].dice[..|app.trays[i].dice|] == app.trays[i].dice
      && (forall j :: 0 <= j < |r.trays| && j != i ==> r.trays[j] == app.trays[j])
  {
    var p := DieProfile(None, Numerical(faces), rt);
    var r := AddEach(app, id, p, draws);
    RawAddApp(app, id, faces, rt, draws, r);
    r
  }

  /** What the loop delivered, read die by die. */
  lemma RawAddApp(app: CliDiceTrayApp, id: Option<string>, faces: nat, rt: Option<DieResultType>,
                  draws: seq<nat>, r: CliDiceTrayApp)
    requires forall j :: 0 <= j < |draws| ==> 1 <= draws[j] <= faces
    requires Delivered(app, id, CliAllocator.NewDice(app.allocator, DieProfile(None, Numerical(faces), rt), draws).1, r)
    ensures GetTrayMut(app, id).Ok? ==>
      var i := GetTrayMut(app, id).value;
      RawTail(r.trays[i].dice, |app.trays[i].dice|, app.allocator.nextDieId, faces, rt, draws)
  {
    var batch := CliAllocator.NewDice(app.allocator, DieProfile(None, Numerical(faces), rt), draws).1;
    if GetTrayMut(app, id).Ok? {
      var i := GetTrayMut(app, id).value;
      DeliveredAt(app, id, batch, r, i);
      RawAdd(r.trays[i].dice, |app.trays[i].dice|, app.allocator, faces, rt, draws);
    }
  }

  /** The targeted tray after a delivery ends with the batch. */
  lemma DeliveredAt(app: CliDiceTrayApp, id: Option<string>, batch: seq<Die32>, r: CliDiceTrayApp, i: nat)
    requires Delivered(app, id, batch, r)
    requires GetTrayMut(app, id) == Ok(i)
    ensures i < |r.trays| && |r.trays[i].dice| == |app.trays[i].dice| + |batch|
    ensures forall j :: 0 <= j < |batch| ==> r.trays[i].dice[|app.trays[i].dice| + j] == batch[j]
  {
    DeliveredDice(app, id, batch, r);
  }

  /** A tray whose dice from `n` on are the allocator's batch for `draws` holds, at
      `n + j`, the die made with id `a.nextDieId + j` and face `draws[j]`. */
  lemma RawAdd(dice: seq<Die32>, n: nat, a: CliAllocator.CliDiceAllocator, faces: nat,
               rt: Option<DieResultType>, draws: seq<nat>)
    requires forall j :: 0 <= j < |draws| ==> 1 <= draws[j] <= faces
    requires |dice| == n + |draws|
    requires forall j :: 0 <= j < |draws| ==>
      dice[n + j] == CliAllocator.NewDice(a, DieProfile(None, Numerical(faces), rt), draws).1[j]
    ensures RawTail(dice, n, a.nextDieId, faces, rt, draws)
  {
    RawBatch(a, faces, rt, draws);
  }

  /** `dice` ends, from position `n`, with one die per draw: the die at `n + j` was made
      with id `firstId + j` and creation face `draws[j]`. */
  predicate RawTail(dice: seq<Die32>, n: nat, firstId: nat, faces: nat, rt: Option<DieResultType>, draws: seq<nat>) {
    && |dice| == n + |draws|
    && forall j :: 0 <= j < |draws| ==> RawDie(dice[n + j], firstId + j, faces, rt, draws[j])
  }

  /** The die `add_dice_from_raw` makes with id `id` and creation face `f`: the default
      label, the given faces and type (Face when none), and the result `Die32::new`
      leaves, the placeholder 1 folded with `f`. */
  predicate RawDie(d: Die32, id: nat, faces: nat, rt: Option<DieResultType>, f: nat) {
    && d.id == id && d.faces == faces && d.currentFace == f
    && d.name == DefaultLabel(faces) && d.resultType == (if rt.Some? then rt.value else Face)
    && d.currentResult == Number(Fold(d.resultType, 1, f))
  }

  lemma RawBatch(a: CliAllocator.CliDiceAllocator, faces: nat, rt: Option<DieResultType>, draws: seq<nat>)
    requires forall j :: 0 <= j < |draws| ==> 1 <= draws[j] <= faces
    ensures forall j :: 0 <= j < |draws| ==>
      RawDie(CliAllocator.NewDice(a, DieProfile(None, Numerical(faces), rt), draws).1[j], a.nextDieId + j, faces, rt, draws[j])
  {
    var p := DieProfile(None, Numerical(faces), rt);
    var batch := CliAllocator.NewDice(a, p, draws).1;
    forall j | 0 <= j < |draws|
      ensures RawDie(batch[j], a.nextDieId + j, faces, rt, draws[j])
    {
      RawDieOf(a.nextDieId + j, faces, rt, draws[j]);
    }
  }

  lemma RawDieOf(id: nat, faces: nat, rt: Option<DieResultType>, f: nat)
    requires 1 <= f <= faces
    ensures RawDie(DiceBuilders.NewDie(id, DieProfile(None, Numerical(faces), rt), f), id, faces, rt, f)
  {
  }

  /** What `Delivered` means die by die: the batch follows the tray's old dice. */
  lemma DeliveredDice(app: CliDiceTrayApp, id: Option<string>, batch: seq<Die32>, r: CliDiceTrayApp)
    requires Delivered(app, id, batch, r)
    ensures SameKeys(app.trays, r.trays)
    ensures GetTrayMut(app, id).Err? ==> r.trays == app.trays
    ensures GetTrayMut(app, id).Ok? ==>
      var i := GetTrayMut(app, id).value;
      && |r.trays[i].dice| == |app.trays[i].dice| + |batch|
      && r.trays[i].dice[..|app.trays[i].dice|] == app.trays[i].dice
      && (forall j :: 0 <= j < |r.trays| && j != i ==> r.trays[j] == app.trays[j])
      && forall j :: 0 <= j < |batch| ==> r.trays[i].dice[|app.trays[i].dice| + j] == batch[j]
  {
  }

  /** The dice a raw add creates carry fresh ids: none equals an id the allocator
      handed out before. */
  lemma AddDiceFromRawFreshIds(app: CliDiceTrayApp, id: Option<string>, count: nat, faces: nat,
                               rt: Option<DieResultType>, draws: seq<nat>, i: nat)
    requires |draws| == count
    requires forall j :: 0 <= j < count ==> 1 <= draws[j] <= faces
    requires GetTrayMut(app, id) == Ok(i)
    requires forall k, j :: 0 <= k < |app.trays| && 0 <= j < |app.trays[k].dice| ==> app.trays[k].dice[j].id < app.allocator.nextDieId
    ensures forall j, j' :: 0 <= j < |app.trays[i].dice| <= j' < |AddDiceFromRaw(app, id, count, faces, rt, draws).trays[i].dice| ==>
      AddDiceFromRaw(app, id, count, faces, rt, draws).trays[i].dice[j].id != AddDiceFromRaw(app, id, count, faces, rt, draws).trays[i].dice[j'].id
  {
    var r := AddDiceFromRaw(app, id, count, faces, rt, draws);
    var n := |app.trays[i].dice|;
    forall j, j' | 0 <= j < n <= j' < |r.trays[i].dice|
      ensures r.trays[i].dice[j].id != r.trays[i].dice[j'].id
    {
      assert r.trays[i].dice[j] == app.trays[i].dice[j];
      assert r.trays[i].dice[n + (j' - n)].id == app.allocator.nextDieId + (j' - n);
    }
  }
}

=== FILE: cli_allocator.dfy ===
/**
 * `CliDiceAllocator`: the command-line app's source of new dice, handing out ids
 * from a single counter. The app also asks it for new trays and for dice restored
 * from save records; the allocator's text has neither, so those two are modelled
 * as `CliTray.New` and as a restore that takes the next id the way `new_die` does.
 */
module CliAllocator {
  import opened Results
  import opened Dice
  import opened DiceData
  import opened DiceBuilders
  import CliTray

  datatype CliDiceAllocator = CliDiceAllocator(trays: seq<CliTray.CliTray>, nextDieId: nat)

  /** `CliDiceAllocator::new`: no trays, the first die will get id 0. */
  function New(): (a: CliDiceAllocator)
    ensures a.trays == [] && a.nextDieId == 0
  {
    CliDiceAllocator([], 0)
  }

  /** `new_die`: builds a die from the profile with the current counter as its id, then
      advances the counter by one; faces, label and type come from the profile. */
  function NewDie(a: CliDiceAllocator, p: DieProfile, f: nat): (r: (CliDiceAllocator, Die32))
    requires p.dieType.Numerical? && 1 <= f <= p.dieType.faces
    ensures r.1.id == a.nextDieId
    ensures r.0 == a.(nextDieId := a.nextDieId + 1)
    ensures r.1 == DiceBuilders.NewDie(a.nextDieId, p, f)
  {
    (a.(nextDieId := a.nextDieId + 1), DiceBuilders.NewDie(a.nextDieId, p, f))
  }

  /** A die restored from a save record, given the next id. */
  function NewDieFromData(a: CliDiceAllocator, t: TypedDieData): (r: (CliDiceAllocator, Die32))
    ensures r.1 == ToDie(t, a.nextDieId)
    ensures r.0 == a.(nextDieId := a.nextDieId + 1)
  {
    (a.(nextDieId := a.nextDieId + 1), ToDie(t, a.nextDieId))
  }

  /** `count` dice from one profile, one `new_die` call after another. */
  function NewDice(a: CliDiceAllocator, p: DieProfile, draws: seq<nat>): (r: (CliDiceAllocator, seq<Die32>))
    requires p.dieType.Numerical?
    requires forall j :: 0 <= j < |draws| ==> 1 <= draws[j] <= p.dieType.faces
    ensures |r.1| == |draws|
    ensures r.0 == a.(nextDieId := a.nextDieId + |draws|)
    ensures forall j :: 0 <= j < |draws| ==> r.1[j] == DiceBuilders.NewDie(a.nextDieId + j, p, draws[j])
    decreases |draws|
  {
    if |draws| == 0 then (a, [])
    else
      var (a1, d) := NewDie(a, p, draws[0]);
      var (a2, ds) := NewDice(a1, p, draws[1..]);
      (a2, [d] + ds)
  }

  lemma NewDiceCons(a: CliDiceAllocator, p: DieProfile, draws: seq<nat>)
    requires p.dieType.Numerical? && |draws| > 0
    requires forall j :: 0 <= j < |draws| ==> 1 <= draws[j] <= p.dieType.faces
    ensures NewDice(a, p, draws).1 == [NewDie(a, p, draws[0]).1] + NewDice(NewDie(a, p, draws[0]).0, p, draws[1..]).1
    ensures NewDice(a, p, draws).0 == NewDice(NewDie(a, p, draws[0]).0, p, draws[1..]).0
  {
  }

  /** Ids handed out by successive `new_die` calls strictly increase, so no two dice
      from one allocator share an id. */
  lemma {:induction false} NewDiceIdsIncrease(a: CliDiceAllocator, p: DieProfile, draws: seq<nat>)
    requires p.dieType.Numerical?
    requires forall j :: 0 <= j < |draws| ==> 1 <= draws[j] <= p.dieType.faces
    ensures forall i, j :: 0 <= i < j < |draws| ==> NewDice(a, p, draws).1[i].id < NewDice(a, p, draws).1[j].id
    ensures forall j :: 0 <= j < |draws| ==> NewDice(a, p, draws).1[j].id >= a.nextDieId
    ensures forall j :: 0 <= j < |draws| ==> NewDice(a, p, draws).1[j].id < NewDice(a, p, draws).0.nextDieId
  {
    var r := NewDice(a, p, draws);
    forall j | 0 <= j < |draws|
      ensures r.1[j].id == a.nextDieId + j
    {
      assert r.1[j] == DiceBuilders.NewDie(a.nextDieId + j, p, draws[j]);
    }
  }
}

=== FILE: cli_main.dfy ===
/**
 * The command-line entry point after argument parsing: the one-letter result-type
 * option and the dispatch of one command to the app. The random draws are
 * parameters: `roll` for rolls of existing dice, `draw` for the creation roll of
 * a new die (given its id and face count).
 */
module CliMain {
  import opened Results
  import opened Dice
  import opened CliParser
  import CliTray
  import CliApp
  import CliAllocator
  import DiceBuilders
  import Text

  /** `find_result_type`: 'f', 'b', 'w', 'e' name Face, Best, Worst and Sum; any other
      letter, or no letter, gives no type. */
  function FindResultType(c: Option<char>): (r: Option<DieResultType>)
    ensures r.Some? <==> c.Some? && c.value in "fbwe"
    ensures r.Some? ==> ResultTypeCode(r.value) == c.value
  {
    match c
    case Some('f') => Some(Face)
    case Some('b') => Some(Best)
    case Some('w') => Some(Worst)
    case Some('e') => Some(Sum)
    case _ => None
  }

  /** The letter the help text gives for each result type. */
  function ResultTypeCode(t: DieResultType): char {
    match t
    case Face => 'f'
    case Best => 'b'
    case Worst => 'w'
    case Sum => 'e'
  }

  /** Every result type is reachable from exactly its own letter. */
  lemma FindResultTypeInverse(t: DieResultType)
    ensures FindResultType(Some(ResultTypeCode(t))) == Some(t)
  {
  }

  /** The subcommands; `NoCommand` is a run without one. */
  datatype Command =
    | Reset
    | Delete
    | Add(resultType: Option<char>, diceCommand: string)
    | Drop(targets: Option<string>)
    | Roll(resultType: Option<char>, targets: Option<string>)
    | NoCommand

  predicate NoDuplicateKeys(app: CliApp.CliDiceTrayApp) {
    CliApp.UniqueKeys(app.trays)
  }

  /** A pair asking for dice with no faces. */
  predicate ZeroFacesPair(pair: (nat, nat)) {
    pair.0 > 0 && pair.1 == 0
  }

  predicate AnyZeroFaces(pairs: seq<(nat, nat)>) {
    exists k :: 0 <= k < |pairs| && ZeroFacesPair(pairs[k])
  }

  lemma AnyZeroFacesCons(pairs: seq<(nat, nat)>)
    requires |pairs| > 0
    ensures AnyZeroFaces(pairs) <==> ZeroFacesPair(pairs[0]) || AnyZeroFaces(pairs[1..])
  {
    var rest := pairs[1..];
    if AnyZeroFaces(rest) {
      var k :| 0 <= k < |rest| && ZeroFacesPair(rest[k]);
      assert pairs[k + 1] == rest[k];
    }
    if AnyZeroFaces(pairs) && !ZeroFacesPair(pairs[0]) {
      var k :| 0 <= k < |pairs| && ZeroFacesPair(pairs[k]);
      assert rest[k - 1] == pairs[k];
    }
  }

  /** Each parsed `(count, faces)` pair handed to `add_dice_from_raw` in turn. A pair
      with zero faces and a positive count panics: the creation roll draws from the
      empty range 1..=0. */
  function AddPairs(app: CliApp.CliDiceTrayApp, id: Option<string>, pairs: seq<(nat, nat)>,
                    rt: Option<DieResultType>, draw: Draw): (r: Run<CliApp.CliDiceTrayApp>)
    requires ValidDraw(draw)
    ensures r.Panicked? <==> AnyZeroFaces(pairs)
    ensures r.Returned? ==> CliApp.SameKeys(app.trays, r.value.trays)
    ensures r.Returned? && CliApp.Rollable(app) ==> CliApp.Rollable(r.value)
    decreases |pairs|
  {
    if |pairs| == 0 then Returned(app)
    else
      AnyZeroFacesCons(pairs);
      match AddPair(app, id, pairs[0], rt, draw)
      case Panicked => Panicked
      case Returned(app1) =>
        match AddPairs(app1, id, pairs[1..], rt, draw)
        case Panicked => Panicked
        case Returned(a) => Returned(a)
  }

  /** One pair of `AddPairs`. */
  function AddPair(app: CliApp.CliDiceTrayApp, id: Option<string>, pair: (nat, nat),
                   rt: Option<DieResultType>, draw: Draw): (r: Run<CliApp.CliDiceTrayApp>)
    requires ValidDraw(draw)
    ensures r.Panicked? <==> ZeroFacesPair(pair)
    ensures r.Returned? ==> CliApp.SameKeys(app.trays, r.value.trays)
    ensures r.Returned? && CliApp.Rollable(app) ==> CliApp.Rollable(r.value)
  {
    var (count, faces) := pair;
    if count > 0 && faces == 0 then Panicked
    else
      var ds := Draws(app.allocator.nextDieId, count, faces, draw);
      AddKeepsRollable(app, id, count, faces, rt, ds);
      Returned(CliApp.AddDiceFromRaw(app, id, count, faces, rt, ds))
  }

  lemma AddKeepsRollable(app: CliApp.CliDiceTrayApp, id: Option<string>, count: nat, faces: nat,
                         rt: Option<DieResultType>, draws: seq<nat>)
    requires |draws| == count
    requires forall j :: 0 <= j < count ==> 1 <= draws[j] <= faces
    ensures CliApp.Rollable(app) ==> CliApp.Rollable(CliApp.AddDiceFromRaw(app, id, count, faces, rt, draws))
  {
    if CliApp.Rollable(app) && CliApp.GetTrayMut(app, id).Ok? {
      var i := CliApp.GetTrayMut(app, id).value;
      var made := AddedDice(app, id, count, faces, rt, draws);
      AppendRollable(app.trays[i].dice, made);
    }
  }

  /** The dice a raw add appends to the targeted tray. */
  lemma AddedDice(app: CliApp.CliDiceTrayApp, id: Option<string>, count: nat, faces: nat,
                  rt: Option<DieResultType>, draws: seq<nat>) returns (made: seq<Die32>)
    requires |draws| == count
    requires forall j :: 0 <= j < count ==> 1 <= draws[j] <= faces
    requires CliApp.GetTrayMut(app, id).Ok?
    ensures CliTray.AllRollable(made)
    ensures var i := CliApp.GetTrayMut(app, id).value;
      CliApp.AddDiceFromRaw(app, id, count, faces, rt, draws).trays == app.trays[i := CliTray.AddDice(app.trays[i], made)]
  {
    var p := DiceBuilders.DieProfile(None, DiceBuilders.Numerical(faces), rt);
    made := CliAllocator.NewDice(app.allocator, p, draws).1;
  }

  lemma AppendRollable(a: seq<Die32>, b: seq<Die32>)
    requires CliTray.AllRollable(a) && CliTray.AllRollable(b)
    ensures CliTray.AllRollable(a + b)
  {
    assert forall j :: |a| <= j < |a + b| ==> (a + b)[j] == b[j - |a|];
  }

  /** Dice kept from a rollable tray, then more dice with `faces >= 1` faces. */
  lemma TailRollable(before: seq<Die32>, after: seq<Die32>, faces: nat)
    requires CliTray.AllRollable(before)
    requires |before| <= |after| && after[..|before|] == before
    requires forall j :: |before| <= j < |after| ==> after[j].faces == faces
    requires |before| < |after| ==> faces >= 1
    ensures CliTray.AllRollable(after)
  {
    var n := |before|;
    forall j | 0 <= j < |after|
      ensures after[j].faces >= 1
    {
      if j < n {
        assert after[j] == after[..n][j];
      }
    }
  }

  lemma SubsetKeepsRollable(a: seq<Die32>, b: seq<Die32>)
    requires multiset(a) <= multiset(b)
    requires CliTray.AllRollable(b)
    ensures CliTray.AllRollable(a)
  {
    forall j | 0 <= j < |a|
      ensures a[j].faces >= 1
    {
      assert a[j] in multiset(b);
      var k :| 0 <= k < |b| && b[k] == a[j];
    }
  }

  lemma SameKeysUnique(a: seq<CliApp.Tray>, b: seq<CliApp.Tray>)
    requires CliApp.SameKeys(a, b)
    ensures CliApp.UniqueKeys(a) ==> CliApp.UniqueKeys(b)
  {
  }

  lemma DeleteKeeps(app: CliApp.CliDiceTrayApp, id: Option<string>)
    ensures CliApp.UniqueKeys(app.trays) ==> CliApp.UniqueKeys(CliApp.DeleteTray(app, id).trays)
    ensures CliApp.Rollable(app) ==> CliApp.Rollable(CliApp.DeleteTray(app, id))
  {
    var r := CliApp.DeleteTray(app, id);
    if r != app {
      var i := CliApp.Find(app.trays, id.value).value;
      assert forall j :: 0 <= j < i ==> r.trays[j] == app.trays[j];
      assert forall j :: i <= j < |r.trays| ==> r.trays[j] == app.trays[j + 1];
    }
  }

  lemma DropKeepsRollable(app: CliApp.CliDiceTrayApp, id: Option<string>, targets: seq<DiceTargets>)
    requires CliApp.Rollable(app)
    ensures CliApp.DropAtTargets(app, id, targets).Returned? ==> CliApp.Rollable(CliApp.DropAtTargets(app, id, targets).value.0)
    ensures CliApp.Rollable(CliApp.DropAll(app, id))
  {
    if CliApp.GetTrayMut(app, id).Ok? {
      var i := CliApp.GetTrayMut(app, id).value;
      var s := CliApp.DropTargets(app.trays[i], targets);
      if s.Returned? {
        SubsetKeepsRollable(s.value.tray.dice, app.trays[i].dice);
      }
    }
  }

  /** One command applied to the app, targeting the tray `id` (None: the first tray).
      Whatever the command, ids stay unique and every die stays rollable; the run
      panics only when an add names zero-faced dice or a drop names a label. */
  function Execute(app: CliApp.CliDiceTrayApp, id: Option<string>, cmd: Command,
                   roll: CliTray.Roller, draw: Draw): (r: Run<CliApp.CliDiceTrayApp>)
    requires CliTray.ValidRoller(roll) && ValidDraw(draw) && CliApp.Rollable(app)
    ensures r.Returned? ==> CliApp.Rollable(r.value)
    ensures r.Returned? && NoDuplicateKeys(app) ==> NoDuplicateKeys(r.value)
    ensures r.Panicked? ==>
      || (cmd.Add? && ParseDiceNotation(cmd.diceCommand).Ok?)
      || (cmd.Drop? && cmd.targets.Some? && ParseDiceTargets(cmd.targets.value).Ok?
          && CliApp.HasLabelTarget(ParseDiceTargets(cmd.targets.value).value))
  {
    match cmd
    case Reset => Returned(CliApp.Reset(app))
    case Delete =>
      DeleteKeeps(app, id);
      Returned(CliApp.DeleteTray(app, id))
    case Add(rc, text) => ExecuteAdd(app, id, rc, text, draw)
    case Drop(targets) => ExecuteDrop(app, id, targets)
    case Roll(rc, targets) => Returned(ExecuteRoll(app, id, rc, targets, roll))
    case NoCommand => Returned(app)
  }

  /** The Add command: the notation's dice, or nothing when it has none. */
  function ExecuteAdd(app: CliApp.CliDiceTrayApp, id: Option<string>, rc: Option<char>, text: string,
                      draw: Draw): (r: Run<CliApp.CliDiceTrayApp>)
    requires ValidDraw(draw) && CliApp.Rollable(app)
    ensures r.Returned? ==> CliApp.Rollable(r.value)
    ensures r.Returned? && NoDuplicateKeys(app) ==> NoDuplicateKeys(r.value)
    ensures r.Panicked? ==> ParseDiceNotation(text).Ok?
    ensures ParseDiceNotation(text).Err? ==> r == Returned(app)
  {
    match ParseDiceNotation(text)
    case Ok(pairs) =>
      var r := AddPairs(app, id, pairs, FindResultType(rc), draw);
      (match r
       case Panicked => Panicked
       case Returned(a) => SameKeysUnique(app.trays, a.trays); Returned(a))
    case Err(_) => Returned(app)
  }

  /** The Drop command: every die without targets, the targeted ones otherwise. An
      error from the drop is reported and leaves what was already removed; a label
      on an empty tray panics. */
  function ExecuteDrop(app: CliApp.CliDiceTrayApp, id: Option<string>, targets: Option<string>): (r: Run<CliApp.CliDiceTrayApp>)
    requires CliApp.Rollable(app)
    ensures r.Returned? ==> CliApp.Rollable(r.value)
    ensures r.Returned? && NoDuplicateKeys(app) ==> NoDuplicateKeys(r.value)
    ensures targets.Some? && ParseDiceTargets(targets.value).Err? ==> r == Returned(app)
    ensures r.Panicked? <==> targets.Some? && ParseDiceTargets(targets.value).Ok?
                             && CliApp.DropAtTargets(app, id, ParseDiceTargets(targets.value).value).Panicked?
    ensures r.Panicked? ==> CliApp.HasLabelTarget(ParseDiceTargets(targets.value).value)
  {
    match targets
    case None =>
      DropKeepsRollable(app, id, []);
      SameKeysUnique(app.trays, CliApp.DropAll(app, id).trays);
      Returned(CliApp.DropAll(app, id))
    case Some(text) =>
      match ParseDiceTargets(text)
      case Ok(ts) => (
        DropKeepsRollable(app, id, ts);
        match CliApp.DropAtTargets(app, id, ts)
        case Panicked => Panicked
        case Returned(a) =>
          SameKeysUnique(app.trays, a.0.trays);
          Returned(a.0))
      case Err(_) => Returned(app)
  }

  /** The Roll command: every die without targets, the targeted ones otherwise. */
  function ExecuteRoll(app: CliApp.CliDiceTrayApp, id: Option<string>, rc: Option<char>, targets: Option<string>,
                       roll: CliTray.Roller): (r: CliApp.CliDiceTrayApp)
    requires CliTray.ValidRoller(roll) && CliApp.Rollable(app)
    ensures CliApp.Rollable(r)
    ensures NoDuplicateKeys(app) ==> NoDuplicateKeys(r)
    ensures targets.Some? && ParseDiceTargets(targets.value).Err? ==> r == app
  {
    match targets
    case None =>
      var a := CliApp.RollAll(app, id, FindResultType(rc), roll);
      SameKeysUnique(app.trays, a.trays);
      a
    case Some(text) =>
      match ParseDiceTargets(text)
      case Ok(ts) =>
        var a := CliApp.RollAtTargets(app, id, ts, FindResultType(rc), roll).0;
        SameKeysUnique(app.trays, a.trays);
        a
      case Err(_) => app
  }

  /** Drop and Roll without targets act on the whole tray. */
  lemma NoTargetDispatch(app: CliApp.CliDiceTrayApp, id: Option<string>, rc: Option<char>,
                         roll: CliTray.Roller, draw: Draw)
    requires CliTray.ValidRoller(roll) && ValidDraw(draw) && CliApp.Rollable(app)
    ensures Execute(app, id, Drop(None), roll, draw) == Returned(CliApp.DropAll(app, id))
    ensures Execute(app, id, Roll(rc, None), roll, draw) == Returned(CliApp.RollAll(app, id, FindResultType(rc), roll))
  {
  }

  /** "d0" parses, and adding it panics. */
  lemma AddZeroFacesPanics(app: CliApp.CliDiceTrayApp, id: Option<string>, rc: Option<char>,
                           roll: CliTray.Roller, draw: Draw)
    requires CliTray.ValidRoller(roll) && ValidDraw(draw) && CliApp.Rollable(app)
    ensures Execute(app, id, Add(rc, "d0"), roll, draw) == Panicked
  {
    MissingCountZeroFaces();
  }

  /** A label dropped from an empty tray panics instead of failing: after `reset`,
      "drop goblin" (any label word) ends the run. */
  lemma DropLabelOnEmptyTrayPanics(app: CliApp.CliDiceTrayApp, l: string, roll: CliTray.Roller, draw: Draw)
    requires CliTray.ValidRoller(roll) && ValidDraw(draw)
    requires WellFormed(Label(l))
    ensures Execute(CliApp.Reset(app), None, Drop(Some(l)), roll, draw) == Panicked
  {
    ParseRenderedTargets([Label(l)]);
    assert Text.Join(RenderTargets([Label(l)]), ' ') == l;
  }
}

=== FILE: cli_parser.dfy ===
/**
 * The command-line app's two tokenisers: dice notation ("3d6 d20") and dice targets
 * ("0,2 goblin 5").
 */
module CliParser {
  import opened Results
  import opened Text
  import opened Notation

  datatype NotationError = NoDiceNotation
  datatype TargetError = InvalidIndexFormat | NoTargets

  /** The `(count, faces)` pair of each token that is dice notation, in input order;
      other tokens are skipped. */
  function NotationPairs(tokens: seq<string>): (pairs: seq<(nat, nat)>)
    ensures |pairs| <= |tokens|
    ensures forall j :: 0 <= j < |pairs| ==> pairs[j].0 <= U32_MAX && pairs[j].1 <= U32_MAX
  {
    if |tokens| == 0 then []
    else
      PairOf(tokens[0]) + NotationPairs(tokens[1..])
  }

  /** No pairs exactly when no token is dice notation. */
  lemma {:induction false} NotationPairsEmpty(tokens: seq<string>)
    ensures |NotationPairs(tokens)| == 0 <==> forall j :: 0 <= j < |tokens| ==> MatchNotation(tokens[j]).None?
    decreases |tokens|
  {
    if |tokens| > 0 {
      NotationPairsEmpty(tokens[1..]);
      assert forall j :: 1 <= j < |tokens| ==> tokens[j] == tokens[1..][j - 1];
    }
  }

  /** The pair of one token: none when it is not dice notation. */
  function PairOf(token: string): (r: seq<(nat, nat)>)
    ensures |r| <= 1
    ensures |r| == 0 <==> MatchNotation(token).None?
    ensures |r| == 1 ==> r[0].0 <= U32_MAX && r[0].1 <= U32_MAX
  {
    match MatchNotation(token)
    case Some(c) => [DecodeLenient(c)]
    case None => []
  }

  /** `parse_dice_notation`: the pairs of all notation tokens; Err exactly when no
      whitespace-separated token is dice notation. */
  function ParseDiceNotation(command: string): (r: Result<seq<(nat, nat)>, NotationError>)
    ensures r.Err? <==> forall j :: 0 <= j < |SplitWhitespace(command)| ==> MatchNotation(SplitWhitespace(command)[j]).None?
    ensures r.Ok? ==> r.value == NotationPairs(SplitWhitespace(command)) && |r.value| > 0
  {
    NotationPairsEmpty(SplitWhitespace(command));
    if |NotationPairs(SplitWhitespace(command))| == 0 then Err(NoDiceNotation)
    else Ok(NotationPairs(SplitWhitespace(command)))
  }

  /** The notation token for `count` dice with `faces` faces. */
  function RenderNotation(p: (nat, nat)): string {
    NatToString(p.0) + "d" + NatToString(p.1)
  }

  lemma RenderedNotationMatches(p: (nat, nat))
    requires p.0 <= U32_MAX && p.1 <= U32_MAX
    ensures IsWord(RenderNotation(p))
    ensures MatchNotation(RenderNotation(p)).Some?
    ensures DecodeLenient(MatchNotation(RenderNotation(p)).value) == p
  {
    MatchNotationComplete(NatToString(p.0), 'd', NatToString(p.1));
    DecodeRendered(p.0, p.1);
  }

  /** One notation token per pair, in order. */
  function RenderNotations(pairs: seq<(nat, nat)>): (tokens: seq<string>)
    ensures |tokens| == |pairs|
    ensures forall j :: 0 <= j < |pairs| ==> tokens[j] == RenderNotation(pairs[j])
  {
    if |pairs| == 0 then [] else [RenderNotation(pairs[0])] + RenderNotations(pairs[1..])
  }

  lemma {:induction false} NotationPairsOfRendered(pairs: seq<(nat, nat)>)
    requires forall j :: 0 <= j < |pairs| ==> pairs[j].0 <= U32_MAX && pairs[j].1 <= U32_MAX
    ensures NotationPairs(RenderNotations(pairs)) == pairs
    decreases |pairs|
  {
    if |pairs| > 0 {
      var tokens := RenderNotations(pairs);
      RenderedNotationMatches(pairs[0]);
      NotationPairsOfRendered(pairs[1..]);
      assert tokens[1..] == RenderNotations(pairs[1..]);
      assert [pairs[0]] + pairs[1..] == pairs;
    }
  }

  /** Writing pairs out as "NdM" tokens separated by spaces and parsing them gives the
      pairs back, in order, whenever they fit a `u32`. */
  lemma ParseRenderedNotation(pairs: seq<(nat, nat)>)
    requires |pairs| > 0
    requires forall j :: 0 <= j < |pairs| ==> pairs[j].0 <= U32_MAX && pairs[j].1 <= U32_MAX
    ensures ParseDiceNotation(Join(RenderNotations(pairs), ' ')) == Ok(pairs)
  {
    var tokens := RenderNotations(pairs);
    forall j | 0 <= j < |pairs|
      ensures IsWord(tokens[j])
    {
      RenderedNotationMatches(pairs[j]);
    }
    SplitJoinedWords(tokens);
    NotationPairsOfRendered(pairs);
  }

  /** A missing count means one die, and a zero face count is accepted. */
  lemma MissingCountZeroFaces()
    ensures ParseDiceNotation("d0") == Ok([(1, 0)])
  {
    SplitJoinedWords(["d0"]);
    MatchNotationComplete("", 'd', "0");
    assert "" + ['d'] + "0" == "d0";
    assert NatToString(0) == "0";
    ParseRendered(0, U32_MAX);
    assert NotationPairs(["d0"]) == [(1, 0)];
  }

  /** An explicit count is used as given, with zero faces accepted again. */
  lemma CountedZeroFaces()
    ensures ParseDiceNotation("2D0") == Ok([(2, 0)])
  {
    SplitJoinedWords(["2D0"]);
    MatchNotationComplete("2", 'D', "0");
    assert "2" + ['D'] + "0" == "2D0";
    assert NatToString(0) == "0";
    ParseRendered(0, U32_MAX);
    assert DigitsValue("2") == 2;
    assert NotationPairs(["2D0"]) == [(2, 0)];
  }

  /** A dice target: a list of tray positions, or a label. */
  datatype DiceTargets = Index(indices: seq<nat>) | Label(name: string)

  /** A token that is read as indices: it holds a comma, or is all ASCII digits. */
  predicate IsIndexToken(tok: string) {
    ',' in tok || AllDigits(tok)
  }

  /** One comma-separated piece, trimmed and parsed as a `usize`. */
  function ParseIndex(piece: string): Option<nat> {
    ParseUnsigned(Trim(piece), USIZE_MAX)
  }

  /** Every piece parsed by `parse`; None as soon as one piece fails, as collecting
      into a `Result` does. */
  function ParseEach<T>(pieces: seq<string>, parse: string -> Option<T>): (r: Option<seq<T>>)
    ensures r.None? <==> exists j :: 0 <= j < |pieces| && parse(pieces[j]).None?
    ensures r.Some? ==> |r.value| == |pieces|
    ensures r.Some? ==> forall j :: 0 <= j < |pieces| ==> parse(pieces[j]) == Some(r.value[j])
  {
    if |pieces| == 0 then Some([])
    else
      assert forall j :: 1 <= j < |pieces| ==> pieces[j] == pieces[1..][j - 1];
      var head := parse(pieces[0]);
      var tail := ParseEach(pieces[1..], parse);
      if head.None? || tail.None? then None else Some([head.value] + tail.value)
  }

  /** The comma-separated pieces of an index token, each parsed as a `usize`. */
  function ParseIndexList(pieces: seq<string>): (r: Option<seq<nat>>)
    ensures r.None? <==> exists j :: 0 <= j < |pieces| && ParseIndex(pieces[j]).None?
    ensures r.Some? ==> |r.value| == |pieces|
    ensures r.Some? ==> forall j :: 0 <= j < |pieces| ==> ParseIndex(pieces[j]) == Some(r.value[j])
  {
    ParseEach(pieces, ParseIndex)
  }

  /** One token: an index list (None when a piece fails to parse) or a label. */
  function ParseTarget(tok: string): (r: Option<DiceTargets>)
    ensures !IsIndexToken(tok) ==> r == Some(Label(tok))
    ensures IsIndexToken(tok) ==> (r.None? <==> ParseIndexList(SplitOn(tok, ',')).None?)
    ensures IsIndexToken(tok) && r.Some? ==> r.value == Index(ParseIndexList(SplitOn(tok, ',')).value)
  {
    if IsIndexToken(tok) then
      match ParseIndexList(SplitOn(tok, ','))
      case Some(v) => if |v| > 0 then Some(Index(v)) else None
      case None => None
    else
      Some(Label(tok))
  }

  function ParseTargetList(tokens: seq<string>): (r: Result<seq<DiceTargets>, TargetError>)
    ensures r.Err? <==> exists j :: 0 <= j < |tokens| && ParseTarget(tokens[j]).None?
    ensures r.Err? ==> r.error == InvalidIndexFormat
    ensures r.Ok? ==> |r.value| == |tokens|
    ensures r.Ok? ==> forall j :: 0 <= j < |tokens| ==> ParseTarget(tokens[j]) == Some(r.value[j])
  {
    match ParseEach(tokens, ParseTarget)
    case None => Err(InvalidIndexFormat)
    case Some(ts) => Ok(ts)
  }

  /** `parse_dice_targets`: one target per whitespace-separated token, in order; Err
      when there is no token or an index token has a piece that is not a `usize`. */
  function ParseDiceTargets(command: string): (r: Result<seq<DiceTargets>, TargetError>)
    ensures r.Err? <==> (|SplitWhitespace(command)| == 0
      || exists j :: 0 <= j < |SplitWhitespace(command)| && ParseTarget(SplitWhitespace(command)[j]).None?)
    ensures r.Ok? ==> |r.value| == |SplitWhitespace(command)|
    ensures r.Ok? ==> forall j :: 0 <= j < |r.value| ==>
      var tok := SplitWhitespace(command)[j];
      if IsIndexToken(tok) then r.value[j].Index? else r.value[j] == Label(tok)
  {
    var tokens := SplitWhitespace(command);
    if |tokens| == 0 then Err(NoTargets) else ParseTargetList(tokens)
  }

  /** A target written back as a token: indices joined by commas, or the label. */
  function RenderTarget(t: DiceTargets): string {
    match t
    case Index(ns) => Join(RenderIndices(ns), ',')
    case Label(s) => s
  }

  /** The decimal text of each index, in order. */
  function RenderIndices(ns: seq<nat>): (pieces: seq<string>)
    ensures |pieces| == |ns|
    ensures forall j :: 0 <= j < |ns| ==> pieces[j] == NatToString(ns[j])
  {
    if |ns| == 0 then [] else [NatToString(ns[0])] + RenderIndices(ns[1..])
  }

  /** Targets that can be written as a command: index lists that are non-empty and
      fit a `usize`, labels that are single tokens not mistaken for indices. */
  predicate WellFormed(t: DiceTargets) {
    match t
    case Index(ns) => |ns| > 0 && forall j :: 0 <= j < |ns| ==> ns[j] <= USIZE_MAX
    case Label(s) => IsWord(s) && !IsIndexToken(s)
  }

  /** `ParseEach` succeeds with exactly the values each piece parses to. */
  lemma ParseEachAll<T>(pieces: seq<string>, parse: string -> Option<T>, vs: seq<T>)
    requires |pieces| == |vs|
    requires forall j :: 0 <= j < |pieces| ==> parse(pieces[j]) == Some(vs[j])
    ensures ParseEach(pieces, parse) == Some(vs)
  {
    var r := ParseEach(pieces, parse);
    assert r.Some?;
    assert forall j :: 0 <= j < |vs| ==> r.value[j] == vs[j];
    assert r.value == vs;
  }

  lemma IndexListOfRendered(ns: seq<nat>)
    requires forall j :: 0 <= j < |ns| ==> ns[j] <= USIZE_MAX
    ensures ParseIndexList(RenderIndices(ns)) == Some(ns)
  {
    var pieces := RenderIndices(ns);
    forall j | 0 <= j < |ns|
      ensures ParseIndex(pieces[j]) == Some(ns[j])
    {
      assert HasNoWhitespace(pieces[j]);
      ParseRendered(ns[j], USIZE_MAX);
    }
    ParseEachAll(pieces, ParseIndex, ns);
  }

  /** A rendered index list is one token, read as indices, that splits back into the
      rendered numbers. */
  lemma RenderedIndexToken(ns: seq<nat>)
    requires |ns| > 0
    ensures IsWord(Join(RenderIndices(ns), ','))
    ensures IsIndexToken(Join(RenderIndices(ns), ','))
    ensures SplitOn(Join(RenderIndices(ns), ','), ',') == RenderIndices(ns)
  {
    var pieces := RenderIndices(ns);
    assert forall j :: 0 <= j < |pieces| ==> HasNoWhitespace(pieces[j]) && ',' !in pieces[j];
    JoinNoWhitespace(pieces, ',');
    SplitJoined(pieces, ',');
  }

  lemma RenderedTargetParses(t: DiceTargets)
    requires WellFormed(t)
    ensures IsWord(RenderTarget(t))
    ensures ParseTarget(RenderTarget(t)) == Some(t)
  {
    if t.Index? {
      RenderedIndexToken(t.indices);
      IndexListOfRendered(t.indices);
    }
  }

  /** One token per target, in order. */
  function RenderTargets(ts: seq<DiceTargets>): (tokens: seq<string>)
    ensures |tokens| == |ts|
    ensures forall j :: 0 <= j < |ts| ==> tokens[j] == RenderTarget(ts[j])
  {
    if |ts| == 0 then [] else [RenderTarget(ts[0])] + RenderTargets(ts[1..])
  }

  lemma TargetListOfRendered(ts: seq<DiceTargets>)
    requires forall j :: 0 <= j < |ts| ==> WellFormed(ts[j])
    ensures ParseTargetList(RenderTargets(ts)) == Ok(ts)
  {
    var tokens := RenderTargets(ts);
    forall j | 0 <= j < |ts|
      ensures ParseTarget(tokens[j]) == Some(ts[j])
    {
      RenderedTargetParses(ts[j]);
    }
    ParseEachAll(tokens, ParseTarget, ts);
  }

  /** Writing well-formed targets out, separated by spaces, and parsing them gives the
      same targets back in the same order. */
  lemma ParseRenderedTargets(ts: seq<DiceTargets>)
    requires |ts| > 0
    requires forall j :: 0 <= j < |ts| ==> WellFormed(ts[j])
    ensures ParseDiceTargets(Join(RenderTargets(ts), ' ')) == Ok(ts)
  {
    var tokens := RenderTargets(ts);
    forall j | 0 <= j < |ts|
      ensures IsWord(tokens[j])
    {
      RenderedTargetParses(ts[j]);
    }
    SplitJoinedWords(tokens);
    TargetListOfRendered(ts);
  }

  /** A lone comma splits into two empty pieces, neither of which is a number. */
  lemma LoneCommaRejected()
    ensures ParseDiceTargets(",") == Err(InvalidIndexFormat)
  {
    SplitJoinedWords([","]);
    SplitJoined(["", ""], ',');
    assert Join(["", ""], ',') == ",";
  }
}

=== FILE: cli_tray.dfy ===
/**
 * `CliTray`, the command-line app's tray: an ordered sequence of owned dice with
 * targeted removal and rolling, an aggregate result, and its save record. Each
 * operation returns the tray afterwards together with what the source call returns.
 */
module CliTray {
  import opened Results
  import opened Text
  import opened Dice
  import opened DiceData
  import opened TrayApi

  datatype CliTray = CliTray(id: string, dice: seq<Die32>, resultType: TrayResultType)

  /** Why a tray call failed; the source reports these as message strings. */
  datatype TrayError =
    | NoDieAtIndex(index: nat)
    | NoDieWithId(dieId: nat)
    | NoDieWithLabel(wanted: string)
    | AlreadyEmpty
    | IndexOutOfBounds

  /** The tray after a call, and the call's return value. */
  datatype Step<T> = Step(tray: CliTray, out: Result<T, TrayError>)

  /** The random draw of every roll in a multi-die operation, as a function of the die
      being rolled. */
  type Roller = Die32 -> nat

  ghost predicate ValidRoller(roll: Roller) {
    forall d: Die32 :: d.faces >= 1 ==> 1 <= roll(d) <= d.faces
  }

  predicate AllRollable(dice: seq<Die32>) {
    forall j :: 0 <= j < |dice| ==> dice[j].faces >= 1
  }

  /** `CliTray::new`: no dice, aggregate type Sum. */
  function New(id: string): (t: CliTray)
    ensures t.id == id && t.dice == [] && t.resultType == TraySum
  {
    CliTray(id, [], TraySum)
  }

  /** `add_die`: appends at the end; nothing else changes. */
  function AddDie(t: CliTray, d: Die32): (r: CliTray)
    ensures r.dice == t.dice + [d]
    ensures r.id == t.id && r.resultType == t.resultType
  {
    t.(dice := t.dice + [d])
  }

  /** `add_dice`: pushes the dice one by one, so they land at the end in argument order. */
  function AddDice(t: CliTray, ds: seq<Die32>): (r: CliTray)
    ensures r.dice == t.dice + ds
    ensures r.id == t.id && r.resultType == t.resultType
    decreases |ds|
  {
    if |ds| == 0 then t
    else
      var r := AddDice(AddDie(t, ds[0]), ds[1..]);
      assert t.dice + [ds[0]] + ds[1..] == t.dice + ds;
      r
  }

  /** `remove_die_at`: in range, the die at `i` is returned and putting it back at `i`
      restores the tray; out of range, Err and the tray is unchanged. */
  function RemoveDieAt(t: CliTray, i: nat): (r: Step<Die32>)
    ensures r.out.Ok? <==> i < |t.dice|
    ensures r.out.Ok? ==>
      && |r.tray.dice| + 1 == |t.dice|
      && r.tray.dice[..i] + [r.out.value] + r.tray.dice[i..] == t.dice
      && r.tray == t.(dice := r.tray.dice)
    ensures r.out.Err? ==> r.tray == t && r.out.error == NoDieAtIndex(i)
  {
    if i < |t.dice| then
      var rest := t.dice[..i] + t.dice[i + 1..];
      assert rest[..i] == t.dice[..i] && rest[i..] == t.dice[i + 1..];
      assert t.dice[..i] + [t.dice[i]] + t.dice[i + 1..] == t.dice;
      Step(t.(dice := rest), Ok(t.dice[i]))
    else
      Step(t, Err(NoDieAtIndex(i)))
  }

  /** Where a backwards scan for a die id stopped. */
  datatype Scan = FoundAt(index: nat) | NotFound | OutOfBounds

  /** The scan in `remove_die_by_id`: look at index `i`, then `i - 1`, ... down to 0,
      stopping at the first die with the id; indexing past the end panics. */
  function ScanForId(dice: seq<Die32>, id: nat, i: nat): (s: Scan)
    ensures s.OutOfBounds? <==> i >= |dice|
    ensures s.FoundAt? ==>
      && s.index <= i && s.index < |dice| && dice[s.index].id == id
      && forall j :: s.index < j <= i ==> dice[j].id != id
    ensures s.NotFound? ==> forall j :: 0 <= j <= i ==> dice[j].id != id
    decreases i
  {
    if i >= |dice| then OutOfBounds
    else if dice[i].id == id then FoundAt(i)
    else if i == 0 then NotFound
    else ScanForId(dice, id, i - 1)
  }

  /** `remove_die_by_id` as written: the scan starts at `dice.len()`, one past the last
      die, so the first index operation panics on every tray. */
  function RemoveDieByIdAsWritten(t: CliTray, id: nat): (r: Run<Step<Die32>>)
    ensures r.Panicked?
  {
    match ScanForId(t.dice, id, |t.dice|)
    case OutOfBounds => Panicked
    case FoundAt(k) => Returned(RemoveDieAt(t, k))
    case NotFound => Returned(Step(t, Err(NoDieWithId(id))))
  }

  /** `remove_die_by_id` with the scan starting at the last die: the first die met
      from the end that has the id is removed and returned; if no die has the id,
      Err and the tray is unchanged. */
  function RemoveDieById(t: CliTray, id: nat): (r: Step<Die32>)
    ensures r.out.Err? <==> forall j :: 0 <= j < |t.dice| ==> t.dice[j].id != id
    ensures r.out.Err? ==> r.tray == t && r.out.error == NoDieWithId(id)
    ensures r.out.Ok? ==> r.out.value.id == id
    ensures r.out.Ok? ==>
      exists k :: (0 <= k < |t.dice| && t.dice[k] == r.out.value
        && r.tray == t.(dice := t.dice[..k] + t.dice[k + 1..])
        && forall j :: k < j < |t.dice| ==> t.dice[j].id != id)
  {
    if |t.dice| == 0 then Step(t, Err(NoDieWithId(id)))
    else
      match ScanForId(t.dice, id, |t.dice| - 1)
      case FoundAt(k) =>
        var r := RemoveDieAt(t, k);
        assert r.tray == t.(dice := t.dice[..k] + t.dice[k + 1..]);
        r
      case NotFound => Step(t, Err(NoDieWithId(id)))
  }

  /** When ids are unique in the tray, the die removed by id is the only one with it. */
  lemma RemoveDieByIdUnique(t: CliTray, id: nat, k: nat)
    requires forall a, b :: 0 <= a < b < |t.dice| ==> t.dice[a].id != t.dice[b].id
    requires k < |t.dice| && t.dice[k].id == id
    ensures RemoveDieById(t, id).out == Ok(t.dice[k])
    ensures RemoveDieById(t, id).tray.dice == t.dice[..k] + t.dice[k + 1..]
  {
  }

  /** The elements `p` accepts, in order. */
  function Select<T>(s: seq<T>, p: T -> bool): (r: seq<T>)
    ensures forall j :: 0 <= j < |r| ==> p(r[j])
    ensures |r| == 0 <==> forall j :: 0 <= j < |s| ==> !p(s[j])
  {
    if |s| == 0 then []
    else
      assert forall j :: 1 <= j < |s| ==> s[j] == s[1..][j - 1];
      (if p(s[0]) then [s[0]] else []) + Select(s[1..], p)
  }

  /** The elements `p` rejects, in order. */
  function Reject<T>(s: seq<T>, p: T -> bool): (r: seq<T>)
    ensures forall j :: 0 <= j < |r| ==> !p(r[j])
    ensures |r| == 0 <==> forall j :: 0 <= j < |s| ==> p(s[j])
  {
    if |s| == 0 then []
    else
      assert forall j :: 1 <= j < |s| ==> s[j] == s[1..][j - 1];
      (if p(s[0]) then [] else [s[0]]) + Reject(s[1..], p)
  }

  /** Selecting from two pieces selects from each, in the order of the pieces: with
      `SelectOne` this pins `Select` to the accepted elements in order. */
  lemma {:induction false} SelectAppend<T>(a: seq<T>, b: seq<T>, p: T -> bool)
    ensures Select(a + b, p) == Select(a, p) + Select(b, p)
    decreases |a|
  {
    if |a| > 0 {
      assert (a + b)[0] == a[0] && (a + b)[1..] == a[1..] + b;
      SelectAppend(a[1..], b, p);
    } else {
      assert a + b == b;
    }
  }

  lemma SelectOne<T>(x: T, p: T -> bool)
    ensures Select([], p) == []
    ensures Select([x], p) == if p(x) then [x] else []
  {
    assert [x][1..] == [];
  }

  /** The same for `Reject`. */
  lemma {:induction false} RejectAppend<T>(a: seq<T>, b: seq<T>, p: T -> bool)
    ensures Reject(a + b, p) == Reject(a, p) + Reject(b, p)
    decreases |a|
  {
    if |a| > 0 {
      assert (a + b)[0] == a[0] && (a + b)[1..] == a[1..] + b;
      RejectAppend(a[1..], b, p);
    } else {
      assert a + b == b;
    }
  }

  lemma RejectOne<T>(x: T, p: T -> bool)
    ensures Reject([], p) == []
    ensures Reject([x], p) == if p(x) then [] else [x]
  {
    assert [x][1..] == [];
  }

  /** Splitting by a test loses and invents nothing. */
  lemma {:induction false} SelectRejectPartition<T>(s: seq<T>, p: T -> bool)
    ensures multiset(Select(s, p)) + multiset(Reject(s, p)) == multiset(s)
  {
    if |s| > 0 {
      var x, t := s[0], s[1..];
      assert s == [x] + t;
      SelectRejectPartition(t, p);
      SelectAppend([x], t, p);
      RejectAppend([x], t, p);
      SelectOne(x, p);
      RejectOne(x, p);
      assert multiset(Select([x], p)) + multiset(Reject([x], p)) == multiset([x]);
    }
  }

  function Labelled(name: string): Die32 -> bool {
    (d: Die32) => d.name == name
  }

  /** The dice whose label differs from `name`, in tray order. */
  function Keep(s: seq<Die32>, name: string): (r: seq<Die32>)
    ensures forall j :: 0 <= j < |r| ==> r[j].name != name
  {
    Reject(s, Labelled(name))
  }

  /** The dice labelled `name`, in tray order. */
  function Matching(s: seq<Die32>, name: string): (r: seq<Die32>)
    ensures forall j :: 0 <= j < |r| ==> r[j].name == name
    ensures |r| == 0 <==> forall j :: 0 <= j < |s| ==> s[j].name != name
  {
    Select(s, Labelled(name))
  }

  /** Splitting by label loses and invents nothing. */
  lemma KeepMatchingPartition(s: seq<Die32>, name: string)
    ensures multiset(Keep(s, name)) + multiset(Matching(s, name)) == multiset(s)
  {
    SelectRejectPartition(s, Labelled(name));
  }

  function Reverse<T>(s: seq<T>): (r: seq<T>)
    ensures |r| == |s|
    ensures forall j :: 0 <= j < |s| ==> r[j] == s[|s| - 1 - j]
  {
    if |s| == 0 then [] else Reverse(s[1..]) + [s[0]]
  }

  lemma {:induction false} ReverseMultiset<T>(s: seq<T>)
    ensures multiset(Reverse(s)) == multiset(s)
  {
    if |s| > 0 {
      ReverseMultiset(s[1..]);
      assert s == [s[0]] + s[1..];
    }
  }

  /** `remove_dice_by_label` with an empty tray answered by Err: every die with the label
      is removed and returned in reverse tray order, the others keep their order, and
      Err (tray unchanged) when no die has the label. */
  function RemoveDiceByLabel(t: CliTray, name: string): (r: Step<seq<Die32>>)
    ensures r.out.Err? <==> forall j :: 0 <= j < |t.dice| ==> t.dice[j].name != name
    ensures r.out.Err? ==> r.tray == t && r.out.error == NoDieWithLabel(name)
    ensures r.out.Ok? ==>
      && (forall j :: 0 <= j < |r.out.value| ==> r.out.value[j].name == name)
      && (forall j :: 0 <= j < |r.tray.dice| ==> r.tray.dice[j].name != name)
      && multiset(r.out.value) + multiset(r.tray.dice) == multiset(t.dice)
      && r.tray == t.(dice := r.tray.dice)
    ensures r.out.Ok? ==> r.tray.dice == Keep(t.dice, name) && r.out.value == Reverse(Matching(t.dice, name))
  {
    var m := Matching(t.dice, name);
    if |m| == 0 then Step(t, Err(NoDieWithLabel(name)))
    else
      KeepMatchingPartition(t.dice, name);
      ReverseMultiset(m);
      Step(t.(dice := Keep(t.dice, name)), Ok(Reverse(m)))
  }

  /** `remove_dice_by_label` as written: `len() - 1` underflows on an empty tray and
      panics; on a non-empty tray it behaves as `RemoveDiceByLabel`. */
  function RemoveDiceByLabelAsWritten(t: CliTray, name: string): (r: Run<Step<seq<Die32>>>)
    ensures r.Panicked? <==> |t.dice| == 0
    ensures r.Returned? ==> r.value == RemoveDiceByLabel(t, name)
  {
    if |t.dice| == 0 then Panicked else Returned(RemoveDiceByLabel(t, name))
  }

  /** The tray contract asks for Err when no die has the label; the source panics instead
      when the tray is empty. */
  lemma RemoveDiceByLabelEmptyTray(id: string, name: string)
    ensures RemoveDiceByLabelAsWritten(New(id), name) == Panicked
    ensures RemoveDiceByLabel(New(id), name) == Step(New(id), Err(NoDieWithLabel(name)))
  {
  }

  lemma KeepStep(s: seq<Die32>, k: nat, name: string)
    requires 0 < k <= |s|
    ensures Keep(s[k - 1..], name) == (if s[k - 1].name == name then [] else [s[k - 1]]) + Keep(s[k..], name)
    ensures Matching(s[k - 1..], name) == (if s[k - 1].name == name then [s[k - 1]] else []) + Matching(s[k..], name)
  {
    assert s[k - 1..][1..] == s[k..];
  }

  /** One step of the scan below, at index `k`: the die there is the original one;
      removing it when it has the label (keeping it otherwise) leaves the state the
      invariant asks for at `k`, and the collected dice gain it at the end. */
  lemma ScanStep(s: seq<Die32>, k: nat, name: string)
    requires k < |s|
    ensures var d := s[..k + 1] + Keep(s[k + 1..], name);
      && k < |d| && d[k] == s[k]
      && (s[k].name == name ==> d[..k] + d[k + 1..] == s[..k] + Keep(s[k..], name))
      && (s[k].name != name ==> d == s[..k] + Keep(s[k..], name))
    ensures Reverse(Matching(s[k..], name))
      == Reverse(Matching(s[k + 1..], name)) + (if s[k].name == name then [s[k]] else [])
  {
    ScanStepKeep(s, k, name);
    ScanStepMatching(s, k, name);
  }

  lemma ScanStepKeep(s: seq<Die32>, k: nat, name: string)
    requires k < |s|
    ensures var d := s[..k + 1] + Keep(s[k + 1..], name);
      && k < |d| && d[k] == s[k]
      && (s[k].name == name ==> d[..k] + d[k + 1..] == s[..k] + Keep(s[k..], name))
      && (s[k].name != name ==> d == s[..k] + Keep(s[k..], name))
  {
    KeepStep(s, k + 1, name);
    var pre, x, kept := s[..k], s[k], Keep(s[k + 1..], name);
    assert s[..k + 1] == pre + [x];
    var d := pre + [x] + kept;
    assert d[..k] == pre;
    assert d[k + 1..] == kept;
    if x.name != name {
      assert Keep(s[k..], name) == [x] + kept;
      assert d == pre + ([x] + kept);
    } else {
      assert Keep(s[k..], name) == kept;
    }
  }

  lemma ScanStepMatching(s: seq<Die32>, k: nat, name: string)
    requires k < |s|
    ensures Reverse(Matching(s[k..], name))
      == Reverse(Matching(s[k + 1..], name)) + (if s[k].name == name then [s[k]] else [])
  {
    KeepStep(s, k + 1, name);
    var m := Matching(s[k..], name);
    if s[k].name == name {
      assert m[1..] == Matching(s[k + 1..], name);
    } else {
      assert m == Matching(s[k + 1..], name);
    }
  }

  /** The loop of `remove_dice_by_label` on a non-empty tray: walk the indices from the
      last down to 0, removing and collecting each die with the label. */
  method RemoveDiceByLabelScan(t: CliTray, name: string) returns (r: Step<seq<Die32>>)
    requires |t.dice| > 0
    ensures r == RemoveDiceByLabel(t, name)
  {
    var dice := t.dice;
    var removed: seq<Die32> := [];
    var k := |t.dice|;
    while k > 0
      invariant 0 <= k <= |t.dice|
      invariant dice == t.dice[..k] + Keep(t.dice[k..], name)
      invariant removed == Reverse(Matching(t.dice[k..], name))
    {
      k := k - 1;
      ScanStep(t.dice, k, name);
      if dice[k].name == name {
        removed := removed + [dice[k]];
        dice := dice[..k] + dice[k + 1..];
      }
    }
    ScanDone(t, name);
    if |removed| == 0 {
      r := Step(t, Err(NoDieWithLabel(name)));
    } else {
      r := Step(t.(dice := dice), Ok(removed));
    }
  }

  /** The scan's final state is the removal's result. */
  lemma ScanDone(t: CliTray, name: string)
    ensures var dice := t.dice[..0] + Keep(t.dice[0..], name);
      var removed := Reverse(Matching(t.dice[0..], name));
      RemoveDiceByLabel(t, name)
        == if |removed| == 0 then Step(t, Err(NoDieWithLabel(name))) else Step(t.(dice := dice), Ok(removed))
  {
    assert t.dice[0..] == t.dice && t.dice[..0] + Keep(t.dice, name) == Keep(t.dice, name);
  }

  /** `roll_all`: every die is rolled with the same optional type override, each
      drawing its face from `roll`; labels, ids and face counts are kept. */
  function RollAll(t: CliTray, rt: Option<DieResultType>, roll: Roller): (r: CliTray)
    requires ValidRoller(roll) && AllRollable(t.dice)
    ensures r.id == t.id && r.resultType == t.resultType && |r.dice| == |t.dice|
    ensures forall j :: 0 <= j < |t.dice| ==>
      && r.dice[j].id == t.dice[j].id && r.dice[j].name == t.dice[j].name
      && r.dice[j].faces == t.dice[j].faces
      && r.dice[j].currentFace == roll(t.dice[j])
      && r.dice[j].resultType == (if rt.Some? then rt.value else t.dice[j].resultType)
      && r.dice[j] == Dice.Roll(t.dice[j], rt, roll(t.dice[j]))
  {
    t.(dice := seq(|t.dice|, j requires 0 <= j < |t.dice| => Roll(t.dice[j], rt, roll(t.dice[j]))))
  }

  /** `roll_at`: rolls exactly the die at `i` with the drawn face `f`; Err with nothing
      changed when there is no die at `i`. */
  function RollAt(t: CliTray, i: nat, rt: Option<DieResultType>, f: nat): (r: Step<()>)
    requires i < |t.dice| ==> ValidFace(t.dice[i], f)
    ensures r.out.Ok? <==> i < |t.dice|
    ensures r.out.Err? ==> r.tray == t && r.out.error == IndexOutOfBounds
    ensures r.tray.id == t.id && r.tray.resultType == t.resultType && |r.tray.dice| == |t.dice|
    ensures forall j :: 0 <= j < |t.dice| && j != i ==> r.tray.dice[j] == t.dice[j]
    ensures i < |t.dice| ==>
      && r.tray.dice[i].currentFace == f
      && r.tray.dice[i].id == t.dice[i].id && r.tray.dice[i].name == t.dice[i].name
      && r.tray.dice[i].faces == t.dice[i].faces
      && r.tray.dice[i] == Dice.Roll(t.dice[i], rt, f)
  {
    if i < |t.dice| then Step(t.(dice := t.dice[i := Roll(t.dice[i], rt, f)]), Ok(()))
    else Step(t, Err(IndexOutOfBounds))
  }

  predicate HasLabel(dice: seq<Die32>, name: string) {
    exists j :: 0 <= j < |dice| && dice[j].name == name
  }

  /** `roll_by_label`: rolls every die with the label and no other; Err with nothing
      changed when no die has the label. */
  function RollByLabel(t: CliTray, name: string, rt: Option<DieResultType>, roll: Roller): (r: Step<()>)
    requires ValidRoller(roll)
    requires forall j :: 0 <= j < |t.dice| && t.dice[j].name == name ==> t.dice[j].faces >= 1
    ensures r.out.Err? <==> forall j :: 0 <= j < |t.dice| ==> t.dice[j].name != name
    ensures r.out.Err? ==> r.tray == t
    ensures r.tray.id == t.id && r.tray.resultType == t.resultType && |r.tray.dice| == |t.dice|
    ensures forall j :: 0 <= j < |t.dice| && t.dice[j].name != name ==> r.tray.dice[j] == t.dice[j]
    ensures forall j :: 0 <= j < |t.dice| && t.dice[j].name == name ==>
      && r.tray.dice[j].currentFace == roll(t.dice[j])
      && r.tray.dice[j].id == t.dice[j].id && r.tray.dice[j].name == name
      && r.tray.dice[j].faces == t.dice[j].faces
      && r.tray.dice[j] == Dice.Roll(t.dice[j], rt, roll(t.dice[j]))
  {
    if HasLabel(t.dice, name) then
      var dice := seq(|t.dice|, j requires 0 <= j < |t.dice| =>
        if t.dice[j].name == name then Roll(t.dice[j], rt, roll(t.dice[j])) else t.dice[j]);
      Step(t.(dice := dice), Ok(()))
    else
      Step(t, Err(NoDieWithLabel(name)))
  }

  /** `remove_all`: hands back every die and leaves the tray empty; Err when it was
      already empty. */
  function RemoveAll(t: CliTray): (r: Step<seq<Die32>>)
    ensures r.tray == t.(dice := [])
    ensures r.out.Err? <==> |t.dice| == 0
    ensures r.out.Ok? ==> r.out.value == t.dice
    ensures r.out.Err? ==> r.out.error == AlreadyEmpty
  {
    if |t.dice| == 0 then Step(t, Err(AlreadyEmpty)) else Step(t.(dice := []), Ok(t.dice))
  }

  /** A second `remove_all` in a row always reports the empty tray. */
  lemma RemoveAllTwice(t: CliTray)
    ensures RemoveAll(RemoveAll(t).tray).out == Err(AlreadyEmpty)
  {
  }

  /** `clear`: empties the tray, whatever it held, without any error. */
  function Clear(t: CliTray): (r: CliTray)
    ensures r.dice == [] && r.id == t.id && r.resultType == t.resultType
  {
    t.(dice := [])
  }

  /** What each die contributes to the tray's aggregate: its number, or 0. */
  function Values(dice: seq<Die32>): (vs: seq<nat>)
    ensures |vs| == |dice|
    ensures forall j :: 0 <= j < |dice| ==> vs[j] == dice[j].currentResult.IsNumOr(0)
  {
    seq(|dice|, j requires 0 <= j < |dice| => dice[j].currentResult.IsNumOr(0))
  }

  function SumOf(vs: seq<nat>): nat {
    if |vs| == 0 then 0 else SumOf(vs[..|vs| - 1]) + vs[|vs| - 1]
  }

  function MaxOf(vs: seq<nat>): (m: nat)
    requires |vs| > 0
    ensures m in vs && forall j :: 0 <= j < |vs| ==> vs[j] <= m
  {
    if |vs| == 1 then vs[0]
    else
      var rest := MaxOf(vs[1..]);
      assert forall j :: 1 <= j < |vs| ==> vs[j] == vs[1..][j - 1];
      if vs[0] >= rest then vs[0] else rest
  }

  function MinOf(vs: seq<nat>): (m: nat)
    requires |vs| > 0
    ensures m in vs && forall j :: 0 <= j < |vs| ==> m <= vs[j]
  {
    if |vs| == 1 then vs[0]
    else
      var rest := MinOf(vs[1..]);
      assert forall j :: 1 <= j < |vs| ==> vs[j] == vs[1..][j - 1];
      if vs[0] <= rest then vs[0] else rest
  }

  /** `get_result`: Sum adds `is_num_or(0)` over the dice; Best and Worst are the
      largest and smallest of those values, and no result on an empty tray. */
  function GetResult(t: CliTray): (r: TrayResult)
    ensures !r.TrayText?
    ensures t.resultType == TraySum ==> r.TrayNumber?
    ensures t.resultType != TraySum ==> (r.TrayNone? <==> |t.dice| == 0)
    ensures t.resultType == TrayBest && r.TrayNumber? ==>
      && (exists j :: 0 <= j < |t.dice| && r.n == t.dice[j].currentResult.IsNumOr(0))
      && forall j :: 0 <= j < |t.dice| ==> t.dice[j].currentResult.IsNumOr(0) <= r.n
    ensures t.resultType == TrayWorst && r.TrayNumber? ==>
      && (exists j :: 0 <= j < |t.dice| && r.n == t.dice[j].currentResult.IsNumOr(0))
      && forall j :: 0 <= j < |t.dice| ==> r.n <= t.dice[j].currentResult.IsNumOr(0)
  {
    var vs := Values(t.dice);
    match t.resultType
    case TraySum => TrayNumber(SumOf(vs))
    case TrayBest => if |vs| == 0 then TrayNone else TrayNumber(MaxOf(vs))
    case TrayWorst => if |vs| == 0 then TrayNone else TrayNumber(MinOf(vs))
  }

  /** The Sum aggregate of an empty tray is 0, and adding a die adds its number. */
  lemma SumResultAddDie(t: CliTray, d: Die32)
    requires t.resultType == TraySum
    ensures GetResult(New(t.id)) == TrayNumber(0)
    ensures GetResult(AddDie(t, d)).n == GetResult(t).n + d.currentResult.IsNumOr(0)
  {
    var vs := Values(t.dice + [d]);
    assert vs[..|vs| - 1] == Values(t.dice);
  }

  /** One line of `get_summary`: "@index:" then the die's own summary. */
  function SummaryEntry(index: nat, d: Die32): string {
    "@" + NatToString(index) + ":" + Summary(d)
  }

  function SummaryOf(dice: seq<Die32>): string {
    if |dice| == 0 then "" else SummaryOf(dice[..|dice| - 1]) + SummaryEntry(|dice| - 1, dice[|dice| - 1])
  }

  /** `get_summary`: the entries of all dice, indexed from 0, in tray order. */
  function GetSummary(t: CliTray): (s: string)
    ensures |t.dice| == 0 ==> s == ""
  {
    SummaryOf(t.dice)
  }

  /** Adding a die appends exactly its entry, at the next index, to the summary. */
  lemma SummaryAddDie(t: CliTray, d: Die32)
    ensures GetSummary(AddDie(t, d)) == GetSummary(t) + SummaryEntry(|t.dice|, d)
  {
    assert (t.dice + [d])[..|t.dice|] == t.dice;
  }

  /** The save record of a tray: its id as label and one die record per die. */
  datatype CliTrayData = CliTrayData(name: string, diceData: seq<TypedDieData>)

  /** `CliTrayData::from`; `seeds` are the seeds the dice report when saved. */
  function TrayToData(t: CliTray, seeds: seq<nat>): (r: CliTrayData)
    requires |seeds| == |t.dice|
    ensures r.name == t.id && |r.diceData| == |t.dice|
    ensures forall j :: 0 <= j < |t.dice| ==> r.diceData[j] == FromDie(t.dice[j], seeds[j])
  {
    CliTrayData(t.id, seq(|t.dice|, j requires 0 <= j < |t.dice| => FromDie(t.dice[j], seeds[j])))
  }

  /** Rebuilding a tray from its record when trays are loaded: a new tray with the
      record's label, and each die restored with the next id from `firstId` on. */
  function TrayFromData(data: CliTrayData, firstId: nat): (r: CliTray)
    ensures r.id == data.name && r.resultType == TraySum && |r.dice| == |data.diceData|
    ensures forall j :: 0 <= j < |data.diceData| ==> r.dice[j] == ToDie(data.diceData[j], firstId + j)
  {
    AddDice(New(data.name), seq(|data.diceData|, j requires 0 <= j < |data.diceData| => ToDie(data.diceData[j], firstId + j)))
  }

  /** Saving and reloading a tray keeps its label and, die by die in order, every
      visible field; only the ids are the freshly assigned ones. */
  lemma TraySaveRestore(t: CliTray, seeds: seq<nat>, firstId: nat)
    requires |seeds| == |t.dice|
    ensures TrayFromData(TrayToData(t, seeds), firstId).id == t.id
    ensures TrayFromData(TrayToData(t, seeds), firstId).dice
         == seq(|t.dice|, j requires 0 <= j < |t.dice| => t.dice[j].(id := firstId + j))
  {
    var data := TrayToData(t, seeds);
    var r := TrayFromData(data, firstId);
    var want := seq(|t.dice|, j requires 0 <= j < |t.dice| => t.dice[j].(id := firstId + j));
    forall j | 0 <= j < |t.dice|
      ensures r.dice[j] == want[j]
    {
      var id := firstId + j;
      assert data.diceData[j] == FromDie(t.dice[j], seeds[j]);
      SaveRestore(t.dice[j], seeds[j], id);
    }
    assert r.dice == want;
  }

  /** The tray contract: each targeted removal fails exactly when nothing matches. */
  lemma TrayContract(t: CliTray, i: nat, id: nat, name: string)
    ensures RemoveDieAt(t, i).out.Err? <==> i >= |t.dice|
    ensures RemoveDieById(t, id).out.Err? <==> forall j :: 0 <= j < |t.dice| ==> t.dice[j].id != id
    ensures RemoveDiceByLabel(t, name).out.Err? <==> forall j :: 0 <= j < |t.dice| ==> t.dice[j].name != name
    ensures RemoveAll(t).out.Err? <==> |t.dice| == 0
  {
  }

  /** The same for the targeted rolls. */
  lemma TrayRollContract(t: CliTray, i: nat, name: string, rt: Option<DieResultType>, f: nat, roll: Roller)
    requires i < |t.dice| ==> ValidFace(t.dice[i], f)
    requires ValidRoller(roll) && AllRollable(t.dice)
    ensures RollAt(t, i, rt, f).out.Err? <==> i >= |t.dice|
    ensures RollByLabel(t, name, rt, roll).out.Err? <==> forall j :: 0 <= j < |t.dice| ==> t.dice[j].name != name
  {
  }
}

=== FILE: dice.dfy ===
/**
 * The current generation's die (`Die32`): a face in [1, faces], a label that groups
 * dice, and a result accumulated across rolls according to the die's result type.
 * The random draw of a roll is the parameter `f`.
 */
module Dice {
  import opened Results
  import opened Text
  import opened Order

  /** How a die folds each new face into its result. */
  datatype DieResultType = Face | Best | Worst | Sum

  /** A die's result: a number, a text outcome, or nothing. */
  datatype DieResult = Number(n: nat) | Str(s: string) | NoResult {

    /** `is_num_or`: the number carried, or `default` when the result is not a number. */
    function IsNumOr(default: nat): nat {
      if Number? then n else default
    }

    /** `DieResult::to_string`: decimal for a number, the text itself, empty for nothing. */
    function ToString(): string {
      match this
      case Number(k) => NatToString(k)
      case Str(t) => t
      case NoResult => ""
    }
  }

  /** A die of the current generation. `name` is the source's `label`; the random
      generator is not part of the model (each roll receives its face). */
  datatype Die32 = Die32(
    id: nat,
    name: string,
    faces: nat,
    currentFace: nat,
    currentResult: DieResult,
    resultType: DieResultType)

  /** A face the random draw of a roll of `d` can produce. */
  predicate ValidFace(d: Die32, f: nat) {
    1 <= f <= d.faces
  }

  /** The creation roll of a new die, given a number that tells new dice apart (its
      id, or its position among the dice one command creates) and its face count. */
  type Draw = (nat, nat) -> nat

  ghost predicate ValidDraw(draw: Draw) {
    forall k: nat, faces: nat :: faces >= 1 ==> 1 <= draw(k, faces) <= faces
  }

  /** The creation rolls of `count` dice told apart by `first`, `first + 1`, ... */
  function Draws(first: nat, count: nat, faces: nat, draw: Draw): (ds: seq<nat>)
    requires ValidDraw(draw) && (count > 0 ==> faces >= 1)
    ensures |ds| == count && forall j :: 0 <= j < count ==> 1 <= ds[j] <= faces
  {
    seq(count, j requires 0 <= j < count => draw(first + j, faces))
  }

  predicate FaceInRange(d: Die32) {
    1 <= d.currentFace <= d.faces
  }

  function Max(a: nat, b: nat): nat {
    if a >= b then a else b
  }

  function Min(a: nat, b: nat): nat {
    if a <= b then a else b
  }

  /** Reference definition of the per-roll accumulation: previous result `p`, new face `f`. */
  function Fold(t: DieResultType, p: nat, f: nat): (r: nat)
    ensures t == Best ==> r >= p && r >= f && (r == p || r == f)
    ensures t == Worst ==> r <= p && r <= f && (r == p || r == f)
    ensures t == Sum ==> r - p == f
    ensures t == Face ==> r == f
  {
    match t
    case Face => f
    case Best => Max(p, f)
    case Worst => Min(p, f)
    case Sum => p + f
  }

  /** The label a die gets when none is supplied: "d" followed by its face count. */
  function DefaultLabel(faces: nat): string {
    "d" + NatToString(faces)
  }

  /** `update_result`: folds the current face into the result. A non-numeric previous
      result counts as 1 for Best, as `faces` for Worst and as 0 for Sum. */
  function UpdateResult(d: Die32): (r: Die32)
    ensures r == d.(currentResult := r.currentResult)
    ensures d.resultType == Face ==> r.currentResult == Number(d.currentFace)
    ensures d.resultType in {Best, Worst, Sum} && d.currentResult.Number? ==>
      r.currentResult == Number(Fold(d.resultType, d.currentResult.n, d.currentFace))
    ensures d.resultType == Best && !d.currentResult.Number? ==>
      r.currentResult == if d.currentFace > 1 then Number(d.currentFace) else d.currentResult
    ensures d.resultType == Worst && !d.currentResult.Number? ==>
      r.currentResult == if d.currentFace < d.faces then Number(d.currentFace) else d.currentResult
    ensures d.resultType == Sum && !d.currentResult.Number? ==> r.currentResult == Number(d.currentFace)
  {
    match d.resultType
    case Face => d.(currentResult := Number(d.currentFace))
    case Best =>
      if d.currentFace > d.currentResult.IsNumOr(1) then d.(currentResult := Number(d.currentFace)) else d
    case Worst =>
      if d.currentFace < d.currentResult.IsNumOr(d.faces) then d.(currentResult := Number(d.currentFace)) else d
    case Sum => d.(currentResult := Number(d.currentResult.IsNumOr(0) + d.currentFace))
  }

  /** The accumulator a result type starts from when a die switches to it. */
  function ResetValue(t: DieResultType, faces: nat): nat {
    match t
    case Best => 1
    case Worst => faces
    case Sum => 0
    case Face => 0
  }

  /** `set_result_type`: nothing happens when the type is unchanged; otherwise the
      accumulator is reset for the new type and the current face is folded in, which
      for an in-range face leaves exactly that face as the result. */
  function SetResultType(d: Die32, t: DieResultType): (r: Die32)
    ensures d.resultType == t ==> r == d
    ensures r.resultType == t
    ensures r == d.(currentResult := r.currentResult, resultType := t)
    ensures d.resultType != t && FaceInRange(d) ==> r.currentResult == Number(d.currentFace)
  {
    if d.resultType == t then d
    else UpdateResult(d.(currentResult := Number(ResetValue(t, d.faces)), resultType := t))
  }

  /** `roll`: apply the requested result type (if any), show the drawn face `f`, fold it in. */
  function Roll(d: Die32, rt: Option<DieResultType>, f: nat): (r: Die32)
    requires ValidFace(d, f)
    ensures r.currentFace == f && FaceInRange(r)
    ensures r.id == d.id && r.name == d.name && r.faces == d.faces
    ensures r.resultType == if rt.Some? then rt.value else d.resultType
  {
    var typed := if rt.Some? then SetResultType(d, rt.value) else d;
    UpdateResult(typed.(currentFace := f))
  }

  /** Rolling without a type, or with the die's own type, never resets the accumulator:
      the new face is folded into the previous result. */
  lemma RollFolds(d: Die32, rt: Option<DieResultType>, f: nat)
    requires ValidFace(d, f)
    requires rt.None? || rt == Some(d.resultType)
    requires d.currentResult.Number?
    ensures Roll(d, rt, f).currentResult == Number(Fold(d.resultType, d.currentResult.n, f))
  {
  }

  /** Switching type on a roll resets the accumulator, folds in the old face, then the
      new one: switching to Sum yields old face + new face. */
  lemma RollSwitchingType(d: Die32, t: DieResultType, f: nat)
    requires ValidFace(d, f) && FaceInRange(d)
    requires d.resultType != t
    ensures Roll(d, Some(t), f).currentResult == Number(Fold(t, d.currentFace, f))
    ensures Roll(d, Some(t), f).resultType == t
  {
  }

  predicate ValidFaces(d: Die32, fs: seq<nat>) {
    forall i :: 0 <= i < |fs| ==> ValidFace(d, fs[i])
  }

  /** Successive rolls without a type override, drawing the faces `fs` in order. */
  function RollMany(d: Die32, fs: seq<nat>): (r: Die32)
    requires ValidFaces(d, fs)
    ensures r.faces == d.faces && r.resultType == d.resultType
    decreases |fs|
  {
    if |fs| == 0 then d else RollMany(Roll(d, None, fs[0]), fs[1..])
  }

  function Total(fs: seq<nat>): nat {
    if |fs| == 0 then 0 else fs[0] + Total(fs[1..])
  }

  /** A Sum die's result after n rolls is its previous result plus all n drawn faces. */
  lemma {:induction false} SumAccumulates(d: Die32, fs: seq<nat>)
    requires ValidFaces(d, fs)
    requires d.resultType == Sum && d.currentResult.Number?
    ensures RollMany(d, fs).currentResult == Number(d.currentResult.n + Total(fs))
    decreases |fs|
  {
    if |fs| > 0 {
      var next := Roll(d, None, fs[0]);
      RollFolds(d, None, fs[0]);
      assert ValidFaces(next, fs[1..]);
      SumAccumulates(next, fs[1..]);
    }
  }

  /** The die `Die32::new` builds before its first roll: face 1, result `Number(1)`. */
  function Unrolled(id: nat, name: Option<string>, faces: nat, rt: Option<DieResultType>): Die32 {
    Die32(
      id,
      if name.Some? then name.value else DefaultLabel(faces),
      faces,
      1,
      Number(1),
      if rt.Some? then rt.value else Face)
  }

  /** `Die32::new` as written: the placeholder `Number(1)` is rolled into with no type
      change, so it is never reset for the die's type. */
  function NewAsWritten(id: nat, name: Option<string>, faces: nat, rt: Option<DieResultType>, f: nat): (r: Die32)
    requires 1 <= f <= faces
    ensures r.currentResult == Number(Fold(r.resultType, 1, f))
    ensures r.id == id && r.faces == faces && r.currentFace == f
    ensures r.name == if name.Some? then name.value else DefaultLabel(faces)
    ensures r.resultType == if rt.Some? then rt.value else Face
  {
    Roll(Unrolled(id, name, faces, rt), None, f)
  }

  /** A fresh Worst die reports 1 whatever it shows, and a fresh Sum die reports one
      more than its first face. */
  lemma NewAsWrittenMisreports()
    ensures NewAsWritten(0, None, 6, Some(Worst), 4).currentFace == 4
    ensures NewAsWritten(0, None, 6, Some(Worst), 4).currentResult == Number(1)
    ensures NewAsWritten(0, None, 6, Some(Sum), 3).currentResult == Number(4)
  {
  }

  /** `Die32::new` with the placeholder accumulator chosen for the die's type, so that
      the first roll's face is the first result for every type. */
  function New(id: nat, name: Option<string>, faces: nat, rt: Option<DieResultType>, f: nat): (r: Die32)
    requires 1 <= f <= faces
    ensures r.id == id && r.faces == faces && r.currentFace == f
    ensures r.name == if name.Some? then name.value else DefaultLabel(faces)
    ensures r.resultType == if rt.Some? then rt.value else Face
    ensures r.currentResult == Number(f)
  {
    var d := Unrolled(id, name, faces, rt);
    Roll(d.(currentResult := Number(ResetValue(d.resultType, faces))), None, f)
  }

  /** `increment`: one face up, wrapping from `faces` to 1; the result is untouched.
      The `u32` addition panics on a face of `u32::MAX`. */
  function Increment(d: Die32): (r: Run<Die32>)
    ensures r.Panicked? <==> d.currentFace >= U32_MAX
    ensures r.Returned? ==> r.value == d.(currentFace := r.value.currentFace)
    ensures r.Returned? && d.faces >= 1 ==> FaceInRange(r.value)
    ensures r.Returned? && d.currentFace < d.faces ==> r.value.currentFace == d.currentFace + 1
    ensures r.Returned? && d.currentFace >= d.faces ==> r.value.currentFace == 1
  {
    if d.currentFace >= U32_MAX then Panicked
    else
      var next := d.currentFace + 1;
      Returned(d.(currentFace := if next > d.faces then 1 else next))
  }

  /** `decrement`: one face down, wrapping from 1 to `faces`; the result is untouched.
      The `u32` subtraction panics on a face of 0. */
  function Decrement(d: Die32): (r: Run<Die32>)
    ensures r.Panicked? <==> d.currentFace == 0
    ensures r.Returned? ==> r.value == d.(currentFace := r.value.currentFace)
    ensures r.Returned? && d.faces >= 1 && d.currentFace <= d.faces ==> FaceInRange(r.value)
    ensures r.Returned? && d.currentFace > 1 ==> r.value.currentFace == d.currentFace - 1
    ensures r.Returned? && d.currentFace == 1 ==> r.value.currentFace == d.faces
  {
    if d.currentFace == 0 then Panicked
    else
      var prev := d.currentFace - 1;
      Returned(d.(currentFace := if prev < 1 then d.faces else prev))
  }

  /** `increment` in a build without overflow checks: `u32::MAX + 1` wraps to 0, which
      is not above `faces`, so the die is left showing face 0. Below `u32::MAX` it is the
      checked build's step. */
  function IncrementWrapping(d: Die32): (r: Die32)
    requires d.currentFace <= U32_MAX && d.faces <= U32_MAX
    ensures r == d.(currentFace := r.currentFace)
    ensures r.currentFace <= U32_MAX
    ensures d.currentFace < U32_MAX ==> Increment(d) == Returned(r)
    ensures d.currentFace == U32_MAX ==> r.currentFace == 0
  {
    var next := (d.currentFace + 1) % (U32_MAX + 1);
    d.(currentFace := if next > d.faces then 1 else next)
  }

  /** `decrement` in a build without overflow checks: `0 - 1` wraps to `u32::MAX`, which
      is not below 1, so the die is left showing face `u32::MAX`. Above 0 it is the
      checked build's step. */
  function DecrementWrapping(d: Die32): (r: Die32)
    requires d.currentFace <= U32_MAX && d.faces <= U32_MAX
    ensures r == d.(currentFace := r.currentFace)
    ensures r.currentFace <= U32_MAX
    ensures d.currentFace > 0 ==> Decrement(d) == Returned(r)
    ensures d.currentFace == 0 ==> r.currentFace == U32_MAX
  {
    var prev := (d.currentFace - 1) % (U32_MAX + 1);
    d.(currentFace := if prev < 1 then d.faces else prev)
  }

  /** The one in-range face where the two builds part: a die with `u32::MAX` faces at its
      maximum panics with overflow checks, and without them shows face 0 instead of
      wrapping to 1. */
  lemma MaxFacedDieWraps(d: Die32)
    requires d.faces == U32_MAX && IsMax(d)
    ensures FaceInRange(d)
    ensures Increment(d).Panicked?
    ensures IncrementWrapping(d).currentFace == 0 && !FaceInRange(IncrementWrapping(d))
  {
  }

  predicate IsMax(d: Die32) {
    d.currentFace == d.faces
  }

  predicate IsMin(d: Die32) {
    d.currentFace == 1
  }

  /** On an in-range face of a die with fewer than `u32::MAX` faces, increment and
      decrement never panic, undo each other, and each wraps the extreme face onto the
      other extreme. */
  lemma IncrementDecrementInverse(d: Die32)
    requires FaceInRange(d) && d.faces < U32_MAX
    ensures Increment(d).Returned? && Decrement(d).Returned?
    ensures Decrement(Increment(d).value) == Returned(d)
    ensures Increment(Decrement(d).value) == Returned(d)
    ensures IsMax(d) ==> IsMin(Increment(d).value)
    ensures IsMin(d) ==> IsMax(Decrement(d).value)
  {
  }

  /** Rust's `face as u32` on an `i32`: negative values wrap to large ones. */
  function I32AsU32(face: int): (r: nat)
    requires I32_MIN <= face <= I32_MAX
    ensures r <= U32_MAX
    ensures face >= 0 ==> r == face
    ensures face < 0 ==> r >= 0x8000_0000
  {
    if face < 0 then face + 0x1_0000_0000 else face
  }

  /** Clamp into [1, faces] (`clamp_to_bounds`). */
  function Clamp(value: nat, faces: nat): nat {
    if value < 1 then 1 else if value > faces then faces else value
  }

  /** `set_face`: the `i32` argument is cast to `u32`, then clamped into [1, faces];
      so a negative argument lands on `faces`, not on 1. The result is untouched. */
  function SetFace(d: Die32, face: int): (r: Die32)
    requires I32_MIN <= face <= I32_MAX
    ensures r == d.(currentFace := r.currentFace)
    ensures d.faces >= 1 ==> FaceInRange(r)
    ensures 1 <= face <= d.faces ==> r.currentFace == face
    ensures face == 0 ==> r.currentFace == 1
    ensures face > d.faces ==> r.currentFace == d.faces
    ensures face < 0 && d.faces <= 0x8000_0000 ==> r.currentFace == d.faces
  {
    d.(currentFace := Clamp(I32AsU32(face), d.faces))
  }

  /** `set_current_face`: clamp a `u32` into [1, faces]. */
  function SetCurrentFace(d: Die32, face: nat): (r: Die32)
    ensures r == d.(currentFace := r.currentFace)
    ensures d.faces >= 1 ==> FaceInRange(r)
    ensures 1 <= face <= d.faces ==> r.currentFace == face
    ensures face == 0 ==> r.currentFace == 1
    ensures face > d.faces ==> r.currentFace == d.faces
  {
    d.(currentFace := Clamp(face, d.faces))
  }

  function Key(d: Die32): DieKey {
    DieKey(d.currentFace, d.faces, d.name)
  }

  /** `Ord for Die32`: lexicographic on (current face, faces, label); the id and the
      result play no part. */
  function Compare(a: Die32, b: Die32): (c: Cmp)
    ensures c == Equal <==> a.currentFace == b.currentFace && a.faces == b.faces && a.name == b.name
    ensures CompareKey(Key(b), Key(a)) == Flip(c)
    ensures a.currentFace < b.currentFace ==> c == Less
  {
    CompareKeyFlip(Key(a), Key(b));
    CompareKey(Key(a), Key(b))
  }

  /** The ordering is transitive, so it is a total order on visible state. */
  lemma CompareTransitive(a: Die32, b: Die32, c: Die32)
    requires Compare(a, b) == Less && Compare(b, c) == Less
    ensures Compare(a, c) == Less
  {
    CompareKeyTransitive(Key(a), Key(b), Key(c));
  }

  /** `get_summary`: "&label = result ". */
  function Summary(d: Die32): string {
    "&" + d.name + " = " + d.currentResult.ToString() + " "
  }
}

=== FILE: dice_builders.dfy ===
/**
 * Die profiles and the helpers that build dice from them. The random draw of each
 * die's creation roll is supplied by the caller.
 */
module DiceBuilders {
  import opened Results
  import opened Dice

  /** What kind of die a profile builds. `Custom` is not implemented by the source. */
  datatype DieProfileType = Numerical(faces: nat) | Custom

  /** A template for new dice: optional label, kind, optional result type. The
      result type is `None` for every profile the builders themselves create. */
  datatype DieProfile = DieProfile(name: Option<string>, dieType: DieProfileType, resultType: Option<DieResultType>)

  /** `new_die`: a numerical profile becomes a freshly rolled `Die32` with the given id,
      built by `Die32::new` as written, so the first face is folded into the
      placeholder result 1 under the die's type. */
  function NewDie(id: nat, p: DieProfile, f: nat): (r: Die32)
    requires p.dieType.Numerical? && 1 <= f <= p.dieType.faces
    ensures r.id == id && r.faces == p.dieType.faces && r.currentFace == f
    ensures r.name == if p.name.Some? then p.name.value else DefaultLabel(p.dieType.faces)
    ensures r.resultType == if p.resultType.Some? then p.resultType.value else Face
    ensures r.currentResult == Number(Fold(r.resultType, 1, f))
  {
    NewAsWritten(id, p.name, p.dieType.faces, p.resultType, f)
  }

  /** For Face and Best dice the placeholder is harmless: `new_die` gives what the
      corrected constructor gives. For Sum and Worst dice only the first result
      differs: it is `1 + f` and `1` where the corrected one is `f`. */
  lemma NewDieAgainstNew(id: nat, p: DieProfile, f: nat)
    requires p.dieType.Numerical? && 1 <= f <= p.dieType.faces
    ensures NewDie(id, p, f) == New(id, p.name, p.dieType.faces, p.resultType, f).(currentResult := NewDie(id, p, f).currentResult)
    ensures NewDie(id, p, f).resultType in {Face, Best} ==> NewDie(id, p, f) == New(id, p.name, p.dieType.faces, p.resultType, f)
    ensures NewDie(id, p, f).resultType == Sum ==> NewDie(id, p, f).currentResult == Number(1 + f)
    ensures NewDie(id, p, f).resultType == Worst ==> NewDie(id, p, f).currentResult == Number(1)
  {
  }

  /** `new_num_die`: the same as `new_die` with a `Numerical(faces)` profile. */
  function NewNumDie(id: nat, name: Option<string>, faces: nat, f: nat): (r: Die32)
    requires 1 <= f <= faces
    ensures r == NewDie(id, DieProfile(name, Numerical(faces), None), f)
    ensures r.resultType == Face
    ensures r.currentResult == Number(f)
  {
    NewDie(id, DieProfile(name, Numerical(faces), None), f)
  }

  /** `new_dice_set`: `count` default-labelled dice with `faces` faces; die `i` has id `i`. */
  method NewDiceSet(count: nat, faces: nat, draws: seq<nat>) returns (dice: seq<Die32>)
    requires |draws| == count
    requires forall i :: 0 <= i < count ==> 1 <= draws[i] <= faces
    ensures |dice| == count
    ensures forall i :: 0 <= i < count ==>
      && dice[i].id == i && dice[i].faces == faces && dice[i].name == DefaultLabel(faces)
      && dice[i].currentFace == draws[i] && dice[i].resultType == Face
    ensures forall i :: 0 <= i < count ==>
      dice[i] == NewNumDie(i, None, faces, draws[i]) && dice[i].currentResult == Number(draws[i])
  {
    dice := [];
    var i := 0;
    while i < count
      invariant 0 <= i <= count && |dice| == i
      invariant forall k :: 0 <= k < i ==> dice[k] == NewNumDie(k, None, faces, draws[k])
    {
      dice := dice + [NewNumDie(i, None, faces, draws[i])];
      i := i + 1;
    }
  }

  /** `new_dice_from_vec`: one default-labelled die per entry, in order, id = position,
      faces = entry. */
  method NewDiceFromVec(facesList: seq<nat>, draws: seq<nat>) returns (dice: seq<Die32>)
    requires |draws| == |facesList|
    requires forall i :: 0 <= i < |facesList| ==> 1 <= draws[i] <= facesList[i]
    ensures |dice| == |facesList|
    ensures forall i :: 0 <= i < |facesList| ==>
      && dice[i].id == i && dice[i].faces == facesList[i]
      && dice[i].name == DefaultLabel(facesList[i]) && dice[i].currentFace == draws[i]
    ensures forall i :: 0 <= i < |facesList| ==>
      && dice[i] == NewNumDie(i, None, facesList[i], draws[i])
      && dice[i].resultType == Face && dice[i].currentResult == Number(draws[i])
  {
    dice := [];
    var i := 0;
    while i < |facesList|
      invariant 0 <= i <= |facesList| && |dice| == i
      invariant forall k :: 0 <= k < i ==> dice[k] == NewNumDie(k, None, facesList[k], draws[k])
    {
      dice := dice + [NewNumDie(i, None, facesList[i], draws[i])];
      i := i + 1;
    }
  }

  /** `new_dice_from_vec_with_label`: as above, each entry also giving an optional label. */
  method NewDiceFromVecWithLabel(specs: seq<(Option<string>, nat)>, draws: seq<nat>) returns (dice: seq<Die32>)
    requires |draws| == |specs|
    requires forall i :: 0 <= i < |specs| ==> 1 <= draws[i] <= specs[i].1
    ensures |dice| == |specs|
    ensures forall i :: 0 <= i < |specs| ==>
      && dice[i].id == i && dice[i].faces == specs[i].1 && dice[i].currentFace == draws[i]
      && dice[i].name == if specs[i].0.Some? then specs[i].0.value else DefaultLabel(specs[i].1)
    ensures forall i :: 0 <= i < |specs| ==>
      && dice[i] == NewNumDie(i, specs[i].0, specs[i].1, draws[i])
      && dice[i].resultType == Face && dice[i].currentResult == Number(draws[i])
  {
    dice := [];
    var i := 0;
    while i < |specs|
      invariant 0 <= i <= |specs| && |dice| == i
      invariant forall k :: 0 <= k < i ==> dice[k] == NewNumDie(k, specs[k].0, specs[k].1, draws[k])
    {
      dice := dice + [NewNumDie(i, specs[i].0, specs[i].1, draws[i])];
      i := i + 1;
    }
  }
}

=== FILE: dice_data.dfy ===
/**
 * The save record of a die (`DieData32`) and the conversions between a die and its
 * record. The seed a die reports (`get_rng_seed`) comes from its random generator,
 * which the model leaves out, so it is a parameter here.
 */
module DiceData {
  import opened Dice

  /** The serialisable state of a die; `name` is the source's `label`. */
  datatype DieData32 = DieData32(
    rngSeed: nat,
    name: string,
    faces: nat,
    currentFace: nat,
    currentResult: DieResult,
    currentResultType: DieResultType)

  /** The tagged record that selects which die type to rebuild. */
  datatype TypedDieData = Die32Data(data: DieData32)

  /** `DieData32::from_die`: copies every visible field and the reported seed. */
  function FromDie(d: Die32, seed: nat): (r: TypedDieData)
    ensures r.data.rngSeed == seed
    ensures r.data.name == d.name && r.data.faces == d.faces
    ensures r.data.currentFace == d.currentFace
    ensures r.data.currentResult == d.currentResult
    ensures r.data.currentResultType == d.resultType
  {
    Die32Data(DieData32(seed, d.name, d.faces, d.currentFace, d.currentResult, d.resultType))
  }

  /** `Die32::from_data`: the id comes from the caller; nothing is rolled or clamped,
      so a saved face outside [1, faces] survives. */
  function FromData(id: nat, data: DieData32): (r: Die32)
    ensures r.id == id
    ensures r.name == data.name && r.faces == data.faces
    ensures r.currentFace == data.currentFace
    ensures r.currentResult == data.currentResult
    ensures r.resultType == data.currentResultType
  {
    Die32(id, data.name, data.faces, data.currentFace, data.currentResult, data.currentResultType)
  }

  /** `TypedDieData::to_die`. */
  function ToDie(t: TypedDieData, id: nat): (r: Die32)
    ensures r.id == id
    ensures r.name == t.data.name && r.faces == t.data.faces
    ensures r.currentFace == t.data.currentFace
    ensures r.currentResult == t.data.currentResult
    ensures r.resultType == t.data.currentResultType
  {
    match t
    case Die32Data(data) => FromData(id, data)
  }

  /** Saving then restoring keeps label, faces, face, result and result type; only the
      id is the one supplied at restore time. */
  lemma SaveRestore(d: Die32, seed: nat, id: nat)
    ensures ToDie(FromDie(d, seed), id) == d.(id := id)
  {
  }

  /** Restoring then saving gives the record back, up to the seed the die reports. */
  lemma RestoreSave(t: TypedDieData, id: nat, seed: nat)
    ensures FromDie(ToDie(t, id), seed) == Die32Data(t.data.(rngSeed := seed))
  {
  }
}

=== FILE: id_generator.dfy ===
/** `IdGenerator`: two independent monotonic counters, one for dice, one for trays. */
module IdGenerator {

  datatype IdGenerator = IdGenerator(nextDieId: nat, nextTrayId: nat)

  /** `IdGenerator::new`: both counters start at 0. */
  function New(): (g: IdGenerator)
    ensures g.nextDieId == 0 && g.nextTrayId == 0
  {
    IdGenerator(0, 0)
  }

  /** `get_die_id`: hands out the current die counter and advances it by one; the tray
      counter is untouched. */
  function GetDieId(g: IdGenerator): (r: (IdGenerator, nat))
    ensures r.1 == g.nextDieId
    ensures r.0.nextDieId == r.1 + 1 && r.0.nextTrayId == g.nextTrayId
  {
    (g.(nextDieId := g.nextDieId + 1), g.nextDieId)
  }

  /** `get_tray_id`: the same for the tray counter; the die counter is untouched. */
  function GetTrayId(g: IdGenerator): (r: (IdGenerator, nat))
    ensures r.1 == g.nextTrayId
    ensures r.0.nextTrayId == r.1 + 1 && r.0.nextDieId == g.nextDieId
  {
    (g.(nextTrayId := g.nextTrayId + 1), g.nextTrayId)
  }

  /** `n` successive `get_die_id` calls: consecutive, hence strictly increasing and
      pairwise distinct, ids. */
  function DieIds(g: IdGenerator, n: nat): (r: (IdGenerator, seq<nat>))
    ensures |r.1| == n
    ensures forall i :: 0 <= i < n ==> r.1[i] == g.nextDieId + i
    ensures forall i, j :: 0 <= i < j < n ==> r.1[i] < r.1[j]
    ensures r.0.nextDieId == g.nextDieId + n && r.0.nextTrayId == g.nextTrayId
    decreases n
  {
    if n == 0 then (g, [])
    else
      var (g1, id) := GetDieId(g);
      var (g2, ids) := DieIds(g1, n - 1);
      (g2, [id] + ids)
  }

  /** Interleaving tray ids does not disturb the die counter, and vice versa. */
  lemma CountersIndependent(g: IdGenerator)
    ensures GetDieId(GetTrayId(g).0).1 == GetDieId(g).1
    ensures GetTrayId(GetDieId(g).0).1 == GetTrayId(g).1
  {
  }
}

=== FILE: legacy_dice.dfy ===
/**
 * The older crate's die (`Die`): like the current one, but with a fifth result type,
 * Table, which reads the outcome from a named result table and, once set, is never
 * left again. The settings holding the tables are a parameter.
 */
module LegacyDice {
  import opened Results
  import opened Text
  import opened Order
  import Dice
  import opened LegacySettings
  import LegacyTables

  datatype ResultType = Face | Best | Worst | Sum | Table

  datatype DieResult = Number(n: nat) | Str(s: string) | NoResult

  /** `identity` names the die and, for Table dice, the table it reads. */
  datatype Die = Die(
    identity: string,
    faces: nat,
    currentFace: nat,
    resultValue: Option<nat>,
    resultType: ResultType)

  /** The text `get_result` gives when a Table die's lookup fails. */
  const NO_RESULT: string := "No result found."

  /** The current generation's type with the same fold. */
  function Numeric(t: ResultType): Dice.DieResultType
    requires t != Table
  {
    match t
    case Face => Dice.Face
    case Best => Dice.Best
    case Worst => Dice.Worst
    case Sum => Dice.Sum
  }

  function UnwrapOr(v: Option<nat>, default: nat): nat {
    if v.Some? then v.value else default
  }

  /** `update_result`: the numeric types fold the current face into the value (a
      missing value counting as 1, `faces` and 0 for Best, Worst and Sum); Table
      clears it. */
  function UpdateResult(d: Die): (r: Die)
    ensures r == d.(resultValue := r.resultValue)
    ensures d.resultType == Table ==> r.resultValue.None?
    ensures d.resultType in {Face, Sum} ==> r.resultValue.Some?
    ensures d.resultType != Table && d.resultValue.Some? ==>
      r.resultValue == Some(Dice.Fold(Numeric(d.resultType), d.resultValue.value, d.currentFace))
    ensures d.resultType == Face ==> r.resultValue == Some(d.currentFace)
  {
    match d.resultType
    case Face => d.(resultValue := Some(d.currentFace))
    case Best => if d.currentFace > UnwrapOr(d.resultValue, 1) then d.(resultValue := Some(d.currentFace)) else d
    case Worst => if d.currentFace < UnwrapOr(d.resultValue, d.faces) then d.(resultValue := Some(d.currentFace)) else d
    case Sum => d.(resultValue := Some(UnwrapOr(d.resultValue, 0) + d.currentFace))
    case Table => d.(resultValue := None)
  }

  /** The value a type starts from when a die switches to it. */
  function ResetValue(t: ResultType, faces: nat): Option<nat> {
    match t
    case Table => None
    case Best => Some(1)
    case Worst => Some(faces)
    case Sum => Some(0)
    case Face => Some(0)
  }

  /** `set_result_type`: nothing happens when the type is unchanged or the die is a
      Table die; otherwise the value is reset for the new type and the current face
      folded in. */
  function SetResultType(d: Die, t: ResultType): (r: Die)
    ensures d.resultType == t || d.resultType == Table ==> r == d
    ensures d.resultType != Table ==> r.resultType == t
    ensures r == d.(resultValue := r.resultValue, resultType := r.resultType)
    ensures d.resultType != Table && d.resultType != t && t != Table && 1 <= d.currentFace <= d.faces ==>
      r.resultValue == Some(d.currentFace)
    ensures d.resultType != Table && t == Table ==> r.resultValue.None?
  {
    if d.resultType == t || d.resultType == Table then d
    else UpdateResult(d.(resultValue := ResetValue(t, d.faces), resultType := t))
  }

  /** `roll`: request type `t`, show the drawn face `f`, fold it in. */
  function Roll(d: Die, t: ResultType, f: nat): (r: Die)
    requires 1 <= f <= d.faces
    ensures r.currentFace == f && r.identity == d.identity && r.faces == d.faces
    ensures d.resultType == Table ==> r.resultType == Table && r.resultValue.None?
    ensures d.resultType != Table ==> r.resultType == t
  {
    UpdateResult(SetResultType(d, t).(currentFace := f))
  }

  /** Once a Table die, always a Table die, whatever type later rolls ask for. */
  lemma {:induction false} TableIsSticky(d: Die, ts: seq<ResultType>, fs: seq<nat>)
    requires d.resultType == Table
    requires |ts| == |fs| && forall i :: 0 <= i < |fs| ==> 1 <= fs[i] <= d.faces
    ensures RollSeq(d, ts, fs).resultType == Table
    ensures |fs| > 0 ==> RollSeq(d, ts, fs).resultValue.None?
    decreases |fs|
  {
    if |fs| > 0 {
      assert RollSeq(d, ts, fs) == RollSeq(Roll(d, ts[0], fs[0]), ts[1..], fs[1..]);
      TableIsSticky(Roll(d, ts[0], fs[0]), ts[1..], fs[1..]);
    }
  }

  /** Successive rolls asking for types `ts` and drawing faces `fs`. */
  function RollSeq(d: Die, ts: seq<ResultType>, fs: seq<nat>): (r: Die)
    requires |ts| == |fs| && forall i :: 0 <= i < |fs| ==> 1 <= fs[i] <= d.faces
    ensures r.faces == d.faces && r.identity == d.identity
    ensures |fs| > 0 ==> r.currentFace == fs[|fs| - 1]
    decreases |fs|
  {
    if |fs| == 0 then d else RollSeq(Roll(d, ts[0], fs[0]), ts[1..], fs[1..])
  }

  /** Rolling a numeric die with its own type folds the new face into its value;
      switching to another numeric type starts from the face it showed. */
  lemma RollFolds(d: Die, t: ResultType, f: nat)
    requires 1 <= f <= d.faces && 1 <= d.currentFace <= d.faces
    requires d.resultType != Table && t != Table
    requires d.resultValue.Some?
    ensures t == d.resultType ==>
      Roll(d, t, f).resultValue == Some(Dice.Fold(Numeric(t), d.resultValue.value, f))
    ensures t != d.resultType ==>
      Roll(d, t, f).resultValue == Some(Dice.Fold(Numeric(t), d.currentFace, f))
  {
  }

  /** `Die::new`: the type is Table exactly when an identity is given and the settings
      hold a table of that name, otherwise Face; the identity defaults to "d" and the
      face count; the creation roll draws `f`. */
  function New(s: DiceTraySettings, identity: Option<string>, faces: nat, f: nat): (r: Die)
    requires 1 <= f <= faces
    ensures r.resultType == Table <==> identity.Some? && HasTable(s, identity.value)
    ensures r.resultType != Table ==> r.resultType == Face && r.resultValue == Some(f)
    ensures r.resultType == Table ==> r.resultValue.None?
    ensures r.identity == if identity.Some? then identity.value else Dice.DefaultLabel(faces)
    ensures r.faces == faces && r.currentFace == f
  {
    var t := if identity.Some? && HasTable(s, identity.value) then Table else Face;
    var name := if identity.Some? then identity.value else Dice.DefaultLabel(faces);
    Roll(Die(name, faces, 1, Some(1), t), t, f)
  }

  /** `get_result`: a numeric die gives its value (0 when missing); a Table die gives
      the table's entry for its face, or `NO_RESULT`. */
  function GetResult(s: DiceTraySettings, d: Die): (r: DieResult)
    ensures d.resultType != Table ==> r == Number(UnwrapOr(d.resultValue, 0))
    ensures d.resultType == Table ==> r.Str?
    ensures d.resultType == Table && DiceTableLookup(s, d.identity, d.currentFace).Ok? ==>
      r == Str(s.resultTables[d.identity][d.currentFace])
    ensures d.resultType == Table && DiceTableLookup(s, d.identity, d.currentFace).Err? ==> r == Str(NO_RESULT)
  {
    if d.resultType != Table then Number(UnwrapOr(d.resultValue, 0))
    else
      match DiceTableLookup(s, d.identity, d.currentFace)
      case Ok(entry) => Str(entry)
      case Err(_) => Str(NO_RESULT)
  }

  /** A die named after the default "test" table reads its outcomes: a six-sided one
      shows the entry for its face, and an eight-sided one showing 7 finds nothing,
      since the die's lookup does not wrap the way the table's own `lookup` does. */
  lemma TestTableDie(f: nat)
    requires 1 <= f <= 6
    ensures GetResult(Default(), New(Default(), Some("test"), 6, f)) == Str(LegacyTables.TEST_ENTRIES[f - 1])
    ensures GetResult(Default(), New(Default(), Some("test"), 8, 7)) == Str(NO_RESULT)
  {
    DefaultLookup(f);
    DefaultLookup(7);
  }

  /** `set_current_face`: clamped into [1, faces]; the value is untouched. */
  function SetCurrentFace(d: Die, face: nat): (r: Die)
    ensures r == d.(currentFace := r.currentFace)
    ensures d.faces >= 1 ==> 1 <= r.currentFace <= d.faces
    ensures 1 <= face <= d.faces ==> r.currentFace == face
    ensures face > d.faces ==> r.currentFace == d.faces
  {
    d.(currentFace := Dice.Clamp(face, d.faces))
  }

  predicate IsMin(d: Die) {
    d.currentFace == 1
  }

  predicate IsMax(d: Die) {
    d.currentFace == d.faces
  }

  /** Clamping lands on the extremes exactly at and beyond them. */
  lemma ClampExtremes(d: Die, face: nat)
    requires d.faces >= 1
    ensures IsMin(SetCurrentFace(d, face)) <==> face <= 1 || d.faces == 1
    ensures IsMax(SetCurrentFace(d, face)) <==> face >= d.faces || d.faces == 1
  {
  }

  /** `new_dice_set`: `count` default-identity Face dice with `faces` faces; `fs` are
      their creation rolls. */
  function NewDiceSet(s: DiceTraySettings, count: nat, faces: nat, fs: seq<nat>): (r: seq<Die>)
    requires |fs| == count && forall i :: 0 <= i < count ==> 1 <= fs[i] <= faces
    ensures |r| == count
    ensures forall i :: 0 <= i < count ==>
      r[i].identity == Dice.DefaultLabel(faces) && r[i].faces == faces
      && r[i].resultType == Face && r[i].currentFace == fs[i]
  {
    seq(count, i requires 0 <= i < count => New(s, None, faces, fs[i]))
  }

  /** `new_dice_from_vec`: one default-identity die per face count, in order. */
  function NewDiceFromVec(s: DiceTraySettings, faces: seq<nat>, fs: seq<nat>): (r: seq<Die>)
    requires |fs| == |faces| && forall i :: 0 <= i < |faces| ==> 1 <= fs[i] <= faces[i]
    ensures |r| == |faces|
    ensures forall i :: 0 <= i < |faces| ==>
      r[i].faces == faces[i] && r[i].identity == Dice.DefaultLabel(faces[i]) && r[i].resultType == Face
  {
    seq(|faces|, i requires 0 <= i < |faces| => New(s, None, faces[i], fs[i]))
  }

  /** `new_dice_from_vec_with_id`: one die per (identity, faces) entry, in order. */
  function NewDiceFromVecWithId(s: DiceTraySettings, entries: seq<(Option<string>, nat)>, fs: seq<nat>): (r: seq<Die>)
    requires |fs| == |entries| && forall i :: 0 <= i < |entries| ==> 1 <= fs[i] <= entries[i].1
    ensures |r| == |entries|
    ensures forall i :: 0 <= i < |entries| ==>
      r[i].faces == entries[i].1
      && r[i].identity == (if entries[i].0.Some? then entries[i].0.value else Dice.DefaultLabel(entries[i].1))
      && (r[i].resultType == Table <==> entries[i].0.Some? && HasTable(s, entries[i].0.value))
  {
    seq(|entries|, i requires 0 <= i < |entries| => New(s, entries[i].0, entries[i].1, fs[i]))
  }

  function Key(d: Die): DieKey {
    DieKey(d.currentFace, d.faces, d.identity)
  }

  /** `Ord for Die`: lexicographic on (current face, faces, identity). */
  function Compare(a: Die, b: Die): (c: Cmp)
    ensures c == Equal <==> a.currentFace == b.currentFace && a.faces == b.faces && a.identity == b.identity
    ensures CompareKey(Key(b), Key(a)) == Flip(c)
    ensures a.currentFace < b.currentFace ==> c == Less
  {
    CompareKeyFlip(Key(a), Key(b));
    CompareKey(Key(a), Key(b))
  }

  /** The ordering is a total preorder on keys: "not greater" chains, and the ends of a
      chain are equal only when every step is. */
  lemma CompareTransitive(a: Die, b: Die, c: Die)
    requires Compare(a, b) != Greater && Compare(b, c) != Greater
    ensures Compare(a, c) != Greater
    ensures Compare(a, c) == Equal <==> Compare(a, b) == Equal && Compare(b, c) == Equal
  {
    if Compare(a, b) == Equal {
      assert Key(a) == Key(b);
    } else if Compare(b, c) == Equal {
      assert Key(b) == Key(c);
    } else {
      CompareKeyTransitive(Key(a), Key(b), Key(c));
    }
  }
}

=== FILE: legacy_main.dfy ===
/**
 * The older crate's interactive loop: each input line, once its options are parsed,
 * clears the tray, adds the dice its notations ask for, shakes the tray, and may end
 * the loop, in that order. Reading the line, clap's option parsing and the logging
 * are not modelled: an iteration starts from the parsed options. Creation and shake
 * rolls come from `draw`, keyed by a running count of the rolls the iteration makes.
 */
module LegacyMain {
  import opened Results
  import opened Text
  import opened Notation
  import opened Dice
  import LegacySettings
  import LegacyDice
  import LegacyTray
  import CliParser

  /** `parse_dice_notation`: the notation regex, then both captures parsed as a `u32`
      with nothing substituted, so an empty count ("d6") or a number past `u32::MAX`
      gives None. */
  function ParseDiceNotation(notation: string): (r: Option<(nat, nat)>)
    ensures r.Some? ==> MatchNotation(notation).Some?
    ensures r.Some? ==> r.value == DecodeLenient(MatchNotation(notation).value)
    ensures MatchNotation(notation).Some? && |MatchNotation(notation).value.count| == 0 ==> r.None?
  {
    match MatchNotation(notation)
    case None => None
    case Some(c) =>
      match ParseUnsigned(c.count, U32_MAX)
      case None => None
      case Some(count) =>
        match ParseUnsigned(c.faces, U32_MAX)
        case None => None
        case Some(faces) => Some((count, faces))
  }

  /** "NdM" written from two `u32` values parses back to them. */
  lemma ParseRendered(count: nat, faces: nat)
    requires count <= U32_MAX && faces <= U32_MAX
    ensures ParseDiceNotation(CliParser.RenderNotation((count, faces))) == Some((count, faces))
  {
    MatchNotationComplete(NatToString(count), 'd', NatToString(faces));
    Text.ParseRendered(count, U32_MAX);
    Text.ParseRendered(faces, U32_MAX);
  }

  /** A count or a face count past `u32::MAX` makes the whole notation fail. */
  lemma ParseOverflow(count: nat, faces: nat)
    requires count > U32_MAX || faces > U32_MAX
    ensures ParseDiceNotation(CliParser.RenderNotation((count, faces))).None?
  {
    MatchNotationComplete(NatToString(count), 'd', NatToString(faces));
    Text.ParseRendered(count, U32_MAX);
    Text.ParseRendered(faces, U32_MAX);
  }

  /** Without a count the notation is rejected, where the other parsers read one die. */
  lemma MissingCountRejected(faces: nat)
    ensures ParseDiceNotation("d" + NatToString(faces)).None?
    ensures DecodeLenient(MatchNotation("d" + NatToString(faces)).value).0 == 1
  {
    var digits := NatToString(faces);
    var token := "d" + digits;
    DigitsOfNatToString(faces);
    assert token == "" + ['d'] + digits;
    MatchNotationComplete("", 'd', digits);
    assert MatchNotation(token) == Some(Captures("", digits));
  }

  /** The options of one input line; `name` is parsed but no step of the loop reads it. */
  datatype TrayArgs = TrayArgs(roll: seq<string>, clear: bool, shake: bool, exit: bool, name: seq<string>)

  /** A notation asking for dice with no faces. */
  predicate ZeroFacesNotation(notation: string) {
    ParseDiceNotation(notation).Some? && ParseDiceNotation(notation).value.0 > 0 && ParseDiceNotation(notation).value.1 == 0
  }

  predicate AnyZeroFaces(notations: seq<string>) {
    exists j :: 0 <= j < |notations| && ZeroFacesNotation(notations[j])
  }

  lemma AnyZeroFacesCons(notations: seq<string>)
    requires |notations| > 0
    ensures AnyZeroFaces(notations) <==> ZeroFacesNotation(notations[0]) || AnyZeroFaces(notations[1..])
  {
    var rest := notations[1..];
    if AnyZeroFaces(rest) {
      var k :| 0 <= k < |rest| && ZeroFacesNotation(rest[k]);
      assert notations[k + 1] == rest[k];
    }
    if AnyZeroFaces(notations) && !ZeroFacesNotation(notations[0]) {
      var k :| 0 <= k < |notations| && ZeroFacesNotation(notations[k]);
      assert rest[k - 1] == notations[k];
    }
  }

  /** The number of dice the notations that parse ask for. */
  function Requested(notations: seq<string>): nat {
    if |notations| == 0 then 0
    else
      var n := if ParseDiceNotation(notations[0]).Some? then ParseDiceNotation(notations[0]).value.0 else 0;
      n + Requested(notations[1..])
  }

  /** Every die of the tray can be rolled. */
  predicate Rollable(dice: seq<LegacyDice.Die>) {
    forall j :: 0 <= j < |dice| ==> dice[j].faces >= 1
  }

  /** The dice of the `--roll` values, in order: a value that does not parse adds
      nothing; one that does adds `new_dice_set(count, faces)`, which panics in the
      creation roll when it asks for dice with no faces. `made` counts the dice
      created before. */
  function NotationDice(s: LegacySettings.DiceTraySettings, notations: seq<string>, draw: Draw, made: nat)
    : (r: Run<seq<LegacyDice.Die>>)
    requires ValidDraw(draw)
    ensures r.Panicked? <==> AnyZeroFaces(notations)
    ensures r.Returned? ==> |r.value| == Requested(notations) && Rollable(r.value)
    ensures r.Returned? ==> forall j :: 0 <= j < |r.value| ==>
      r.value[j].resultType == LegacyDice.Face && r.value[j].identity == DefaultLabel(r.value[j].faces)
    decreases |notations|
  {
    if |notations| == 0 then Returned([])
    else
      AnyZeroFacesCons(notations);
      match ParseDiceNotation(notations[0])
      case None => NotationDice(s, notations[1..], draw, made)
      case Some((count, faces)) =>
        if count > 0 && faces == 0 then Panicked
        else
          var dice := LegacyDice.NewDiceSet(s, count, faces, Draws(made, count, faces, draw));
          match NotationDice(s, notations[1..], draw, made + count)
          case Panicked => Panicked
          case Returned(rest) =>
            FreshDiceJoin(dice, rest);
            Returned(dice + rest)
  }

  /** Dice as `new_dice_set` makes them: rollable, face-valued, with default labels. */
  predicate FreshDice(dice: seq<LegacyDice.Die>) {
    forall j :: 0 <= j < |dice| ==>
      dice[j].faces >= 1 && dice[j].resultType == LegacyDice.Face && dice[j].identity == DefaultLabel(dice[j].faces)
  }

  lemma FreshDiceJoin(a: seq<LegacyDice.Die>, b: seq<LegacyDice.Die>)
    requires FreshDice(a) && FreshDice(b)
    ensures FreshDice(a + b) && Rollable(a + b)
    ensures forall j :: 0 <= j < |a + b| ==>
      (a + b)[j].resultType == LegacyDice.Face && (a + b)[j].identity == DefaultLabel((a + b)[j].faces)
  {
    assert forall j :: |a| <= j < |a + b| ==> (a + b)[j] == b[j - |a|];
  }

  /** One "NdM" value creates exactly `new_dice_set(N, M)`. */
  lemma OneNotationDice(s: LegacySettings.DiceTraySettings, count: nat, faces: nat, draw: Draw)
    requires ValidDraw(draw)
    requires count <= U32_MAX && 1 <= faces <= U32_MAX
    ensures NotationDice(s, [CliParser.RenderNotation((count, faces))], draw, 0)
      == Returned(LegacyDice.NewDiceSet(s, count, faces, Draws(0, count, faces, draw)))
  {
    var note := CliParser.RenderNotation((count, faces));
    ParseRendered(count, faces);
    var one: seq<string> := [note];
    assert one[1..] == [];
    var dice := LegacyDice.NewDiceSet(s, count, faces, Draws(0, count, faces, draw));
    assert NotationDice(s, [], draw, count) == Returned([]);
    assert dice + [] == dice;
  }

  /** The shake rolls: die `j` draws with key `made + j`. */
  function ShakeRolls(t: LegacyTray.Tray, draw: Draw, made: nat): (fs: seq<nat>)
    requires ValidDraw(draw) && Rollable(t.dice)
    ensures LegacyTray.ValidDraws(t, fs)
  {
    seq(|t.dice|, j requires 0 <= j < |t.dice| => draw(made + j, t.dice[j].faces))
  }

  /** One pass of the loop from the parsed options: the tray afterwards and whether
      the loop ends. */
  function Iteration(t: LegacyTray.Tray, args: TrayArgs, s: LegacySettings.DiceTraySettings, draw: Draw)
    : (r: Run<(LegacyTray.Tray, bool)>)
    requires ValidDraw(draw) && Rollable(t.dice)
    ensures r.Panicked? <==> AnyZeroFaces(args.roll)
    ensures r.Returned? ==> r.value.1 == args.exit && Rollable(r.value.0.dice)
    ensures r.Returned? ==> |r.value.0.dice| == (if args.clear then 0 else |t.dice|) + Requested(args.roll)
    ensures r.Returned? && !args.clear ==> forall j :: 0 <= j < |t.dice| ==>
      r.value.0.dice[j].identity == t.dice[j].identity && r.value.0.dice[j].faces == t.dice[j].faces
    ensures r.Returned? && !args.clear && !args.shake ==> r.value.0.dice[..|t.dice|] == t.dice
  {
    var t1 := if args.clear then LegacyTray.Clear(t) else t;
    match NotationDice(s, args.roll, draw, 0)
    case Panicked => Panicked
    case Returned(dice) =>
      var t2 := LegacyTray.AddDice(t1, dice);
      AddKeepsRollable(t1, dice);
      Returned((Shake(t2, args.shake, draw, |dice|), args.exit))
  }

  /** Appending rollable dice to a rollable tray keeps it rollable, and the dice
      already there keep their places. */
  lemma AddKeepsRollable(t: LegacyTray.Tray, dice: seq<LegacyDice.Die>)
    requires Rollable(t.dice) && Rollable(dice)
    ensures Rollable(LegacyTray.AddDice(t, dice).dice)
    ensures forall j :: 0 <= j < |t.dice| ==> LegacyTray.AddDice(t, dice).dice[j] == t.dice[j]
  {
    var r := LegacyTray.AddDice(t, dice).dice;
    var n := |t.dice|;
    forall j | 0 <= j < |r|
      ensures r[j].faces >= 1
      ensures j < n ==> r[j] == t.dice[j]
    {
      if j < n {
        assert r[j] == r[..n][j];
      } else {
        assert r[n + (j - n)] == dice[j - n];
      }
    }
  }

  /** `--shake`: every die rolled once, keeping its place, name and face count. */
  function Shake(t: LegacyTray.Tray, on: bool, draw: Draw, made: nat): (r: LegacyTray.Tray)
    requires ValidDraw(draw) && Rollable(t.dice)
    ensures Rollable(r.dice) && |r.dice| == |t.dice|
    ensures forall j :: 0 <= j < |t.dice| ==> r.dice[j].identity == t.dice[j].identity && r.dice[j].faces == t.dice[j].faces
    ensures !on ==> r == t
  {
    if on then LegacyTray.RollAll(t, ShakeRolls(t, draw, made)) else t
  }

  /** A line without options changes nothing and keeps the loop going. */
  lemma NoOptionsNoChange(t: LegacyTray.Tray, s: LegacySettings.DiceTraySettings, draw: Draw)
    requires ValidDraw(draw) && Rollable(t.dice)
    ensures Iteration(t, TrayArgs([], false, false, false, []), s, draw) == Returned((t, false))
  {
    assert t.dice + [] == t.dice;
  }

  /** `--clear --roll NdM`: the tray afterwards holds exactly the new set. */
  lemma ClearThenRoll(t: LegacyTray.Tray, s: LegacySettings.DiceTraySettings, count: nat, faces: nat, draw: Draw)
    requires ValidDraw(draw) && Rollable(t.dice)
    requires count <= U32_MAX && 1 <= faces <= U32_MAX
    ensures Iteration(t, TrayArgs([CliParser.RenderNotation((count, faces))], true, false, false, []), s, draw)
      == Returned((LegacyTray.Tray(LegacyDice.NewDiceSet(s, count, faces, Draws(0, count, faces, draw))), false))
  {
    OneNotationDice(s, count, faces, draw);
    var dice := LegacyDice.NewDiceSet(s, count, faces, Draws(0, count, faces, draw));
    AddToEmpty(dice);
  }

  lemma AddToEmpty(dice: seq<LegacyDice.Die>)
    ensures LegacyTray.AddDice(LegacyTray.Clear(LegacyTray.New()), dice) == LegacyTray.Tray(dice)
  {
    var r := LegacyTray.AddDice(LegacyTray.Tray([]), dice);
    assert forall j :: 0 <= j < |dice| ==> r.dice[0 + j] == dice[j];
    assert r.dice == dice;
  }
}

=== FILE: legacy_parser.dfy ===
/**
 * The older crate's command-line parser: the split of an input line into flagged
 * commands, the `$name,...` identity flag, the `@i,j,...` index flag, and the add,
 * roll and drop commands built on them. The regex `\w` is read as ASCII letters,
 * digits and '_'.
 */
module LegacyParser {
  import opened Results
  import opened Text
  import opened Notation
  import opened Dice
  import LegacyDice
  import LegacySettings
  import CliParser

  datatype CommandType = Add | Roll | Drop | Mod | Help | Exit

  datatype ParsedCommand = ParsedCommand(commandType: CommandType, commandString: Option<string>)

  predicate IsFlag(w: string) {
    |w| > 0 && w[0] == '-'
  }

  /** The command a flag word selects; an unknown flag selects Roll. */
  function FlagType(w: string): CommandType {
    if w == "-a" || w == "-add" then Add
    else if w == "-r" || w == "-roll" then Roll
    else if w == "-d" || w == "-drop" then Drop
    else if w == "-m" || w == "-mod" then Mod
    else if w == "-h" || w == "-help" then Help
    else if w == "-e" || w == "-exit" then Exit
    else Roll
  }

  /** The flag words, in order. */
  function Flags(words: seq<string>): (fs: seq<string>)
    ensures |fs| <= |words|
  {
    if |words| == 0 then []
    else if IsFlag(words[0]) then [words[0]] + Flags(words[1..])
    else Flags(words[1..])
  }

  /** The other words, in order; with the flags they account for every word. */
  function NonFlags(words: seq<string>): (ws: seq<string>)
    ensures |ws| + |Flags(words)| == |words|
    ensures forall j :: 0 <= j < |ws| ==> !IsFlag(ws[j])
  {
    if |words| == 0 then []
    else if IsFlag(words[0]) then NonFlags(words[1..])
    else [words[0]] + NonFlags(words[1..])
  }

  /** The loop of `parse_dice_tray_commands` from some point on: `current` holds the
      words gathered since the last flag, `ty` the type that flag chose. A flag closes
      the current entry (None when no word was gathered) and opens one of its own
      type; the input's end closes the last entry, always with a string. */
  function Segments(words: seq<string>, current: seq<string>, ty: CommandType): (r: seq<ParsedCommand>)
    ensures |r| == |Flags(words)| + 1
    ensures r[0].commandType == ty
    ensures r[|r| - 1].commandString.Some?
    decreases |words|
  {
    if |words| == 0 then [ParsedCommand(ty, Some(Trim(Join(current, ' '))))]
    else if IsFlag(words[0]) then
      var entry := ParsedCommand(ty, if |current| == 0 then None else Some(Trim(Join(current, ' '))));
      [entry] + Segments(words[1..], [], FlagType(words[0]))
    else Segments(words[1..], current + [words[0]], ty)
  }

  /** Entry k+1 has the type flag k selects. */
  lemma {:induction false} SegmentTypes(words: seq<string>, current: seq<string>, ty: CommandType, k: nat)
    requires k < |Flags(words)|
    ensures Segments(words, current, ty)[k + 1].commandType == FlagType(Flags(words)[k])
    decreases |words|, 1
  {
    assert |words| > 0;
    if IsFlag(words[0]) {
      SegmentTypesAtFlag(words, current, ty, k);
    } else {
      SegmentTypesAtWord(words, current, ty, k);
    }
  }

  lemma {:induction false} SegmentTypesAtFlag(words: seq<string>, current: seq<string>, ty: CommandType, k: nat)
    requires |words| > 0 && IsFlag(words[0]) && k < |Flags(words)|
    ensures Segments(words, current, ty)[k + 1].commandType == FlagType(Flags(words)[k])
    decreases |words|, 0
  {
    if k > 0 {
      FlagsAtFlag(words);
      SegmentTypes(words[1..], [], FlagType(words[0]), k - 1);
      TypeAfterFlag(words, current, ty, k);
    } else {
      FirstTypeAtFlag(words, current, ty);
    }
  }

  lemma {:induction false} SegmentTypesAtWord(words: seq<string>, current: seq<string>, ty: CommandType, k: nat)
    requires |words| > 0 && !IsFlag(words[0]) && k < |Flags(words)|
    ensures Segments(words, current, ty)[k + 1].commandType == FlagType(Flags(words)[k])
    decreases |words|, 0
  {
    FlagsAtWord(words);
    SegmentTypes(words[1..], current + [words[0]], ty, k);
    TypeAfterWord(words, current, ty, k);
  }

  lemma FlagsAtWord(words: seq<string>)
    requires |words| > 0 && !IsFlag(words[0])
    ensures Flags(words) == Flags(words[1..])
  {
  }

  lemma FlagsAtFlag(words: seq<string>)
    requires |words| > 0 && IsFlag(words[0])
    ensures Flags(words) == [words[0]] + Flags(words[1..])
  {
  }

  lemma FirstTypeAtFlag(words: seq<string>, current: seq<string>, ty: CommandType)
    requires |words| > 0 && IsFlag(words[0])
    ensures Flags(words)[0] == words[0]
    ensures Segments(words, current, ty)[1].commandType == FlagType(words[0])
  {
    FlagsAtFlag(words);
    var e := ParsedCommand(ty, if |current| == 0 then None else Some(Trim(Join(current, ' '))));
    assert Segments(words, current, ty) == [e] + Segments(words[1..], [], FlagType(words[0]));
  }

  lemma TypeAfterFlag(words: seq<string>, current: seq<string>, ty: CommandType, k: nat)
    requires |words| > 0 && IsFlag(words[0]) && 0 < k < |Flags(words)|
    requires Flags(words) == [words[0]] + Flags(words[1..])
    requires Segments(words[1..], [], FlagType(words[0]))[k].commandType == FlagType(Flags(words[1..])[k - 1])
    ensures Segments(words, current, ty)[k + 1].commandType == FlagType(Flags(words)[k])
  {
    var e := ParsedCommand(ty, if |current| == 0 then None else Some(Trim(Join(current, ' '))));
    var rest := Segments(words[1..], [], FlagType(words[0]));
    assert Segments(words, current, ty) == [e] + rest;
    assert ([e] + rest)[k + 1] == rest[k];
  }

  lemma TypeAfterWord(words: seq<string>, current: seq<string>, ty: CommandType, k: nat)
    requires |words| > 0 && !IsFlag(words[0]) && k < |Flags(words)|
    requires k < |Flags(words[1..])|
    requires Segments(words[1..], current + [words[0]], ty)[k + 1].commandType == FlagType(Flags(words[1..])[k])
    ensures Segments(words, current, ty)[k + 1].commandType == FlagType(Flags(words)[k])
  {
    FlagsAtWord(words);
    assert Segments(words, current, ty) == Segments(words[1..], current + [words[0]], ty);
  }

  /** `parse_dice_tray_commands`: one entry per flag word plus a final one; the first
      entry is an Add, and the last always holds a string. */
  function ParseDiceTrayCommands(command: string): (r: seq<ParsedCommand>)
    ensures |r| == |Flags(SplitWhitespace(command))| + 1
    ensures r[0].commandType == Add
    ensures r[|r| - 1].commandString.Some?
  {
    Segments(SplitWhitespace(command), [], Add)
  }

  /** Entry k+1 of the parsed line has the type flag k selects. */
  lemma CommandTypesFollowFlags(command: string, k: nat)
    requires k < |Flags(SplitWhitespace(command))|
    ensures ParseDiceTrayCommands(command)[k + 1].commandType == FlagType(Flags(SplitWhitespace(command))[k])
  {
    SegmentTypes(SplitWhitespace(command), [], Add, k);
  }

  /** The words of an entry's string (none for a missing string). */
  function EntryWords(c: ParsedCommand): seq<string> {
    if c.commandString.Some? then SplitWhitespace(c.commandString.value) else []
  }

  /** The words of every entry in turn, for a given way of splitting a string. */
  function AllWords(cs: seq<ParsedCommand>, split: string -> seq<string>): seq<string> {
    if |cs| == 0 then []
    else (if cs[0].commandString.Some? then split(cs[0].commandString.value) else []) + AllWords(cs[1..], split)
  }

  function AllEntryWords(cs: seq<ParsedCommand>): seq<string> {
    AllWords(cs, SplitWhitespace)
  }

  lemma {:induction false} JoinEnds(ws: seq<string>, sep: char)
    requires |ws| > 0 && forall j :: 0 <= j < |ws| ==> |ws[j]| > 0
    ensures |Join(ws, sep)| > 0
    ensures Join(ws, sep)[0] == ws[0][0]
    ensures Join(ws, sep)[|Join(ws, sep)| - 1] == ws[|ws| - 1][|ws[|ws| - 1]| - 1]
    decreases |ws|
  {
    if |ws| > 1 {
      JoinEnds(ws[1..], sep);
      var tail := Join(ws[1..], sep);
      assert Join(ws, sep) == ws[0] + [sep] + tail;
    }
  }

  /** Words joined by single spaces need no trimming and split back into the words. */
  lemma TrimJoinedWords(ws: seq<string>)
    requires forall j :: 0 <= j < |ws| ==> IsWord(ws[j])
    ensures SplitWhitespace(Trim(Join(ws, ' '))) == ws
  {
    var s := Join(ws, ' ');
    if |ws| > 0 {
      JoinEnds(ws, ' ');
      assert !IsWhitespace(s[0]) by { assert s[0] == ws[0][0]; }
      assert !IsWhitespace(s[|s| - 1]) by { assert IsWord(ws[|ws| - 1]); }
      assert Trim(s) == s;
    } else {
      assert Trim(s) == s;
    }
    SplitJoinedWords(ws);
  }

  lemma AllEntryWordsCons(e: ParsedCommand, rest: seq<ParsedCommand>)
    ensures AllEntryWords([e] + rest) == EntryWords(e) + AllEntryWords(rest)
  {
    assert ([e] + rest)[1..] == rest;
  }

  lemma EntryOfWords(ty: CommandType, ws: seq<string>)
    requires forall j :: 0 <= j < |ws| ==> IsWord(ws[j])
    ensures EntryWords(ParsedCommand(ty, Some(Trim(Join(ws, ' '))))) == ws
  {
    TrimJoinedWords(ws);
  }

  lemma SegmentsAtEnd(current: seq<string>, ty: CommandType)
    requires forall j :: 0 <= j < |current| ==> IsWord(current[j])
    ensures AllEntryWords(Segments([], current, ty)) == current
  {
    var e := ParsedCommand(ty, Some(Trim(Join(current, ' '))));
    EntryOfWords(ty, current);
    AllEntryWordsCons(e, []);
    assert Segments([], current, ty) == [e] + [];
  }

  lemma SegmentsAtFlag(words: seq<string>, current: seq<string>, ty: CommandType)
    requires |words| > 0 && IsFlag(words[0])
    requires forall j :: 0 <= j < |current| ==> IsWord(current[j])
    ensures AllEntryWords(Segments(words, current, ty)) == current + AllEntryWords(Segments(words[1..], [], FlagType(words[0])))
  {
    var e := ParsedCommand(ty, if |current| == 0 then None else Some(Trim(Join(current, ' '))));
    var rest := Segments(words[1..], [], FlagType(words[0]));
    assert Segments(words, current, ty) == [e] + rest;
    AllEntryWordsCons(e, rest);
    if |current| > 0 {
      EntryOfWords(ty, current);
    }
  }

  /** The flag case of `SegmentsKeepWords`, given the words after the flag; it holds
      for any way of splitting an entry that keeps the flag's own entry intact. */
  lemma FlagStep(words: seq<string>, current: seq<string>, ty: CommandType, split: string -> seq<string>)
    requires |words| > 0 && IsFlag(words[0])
    requires AllWords(Segments(words, current, ty), split) == current + AllWords(Segments(words[1..], [], FlagType(words[0])), split)
    requires AllWords(Segments(words[1..], [], FlagType(words[0])), split) == [] + NonFlags(words[1..])
    ensures AllWords(Segments(words, current, ty), split) == current + NonFlags(words)
  {
    assert [] + NonFlags(words[1..]) == NonFlags(words[1..]);
  }

  /** The word case of `SegmentsKeepWords`, given the words after this one. */
  lemma WordStep(words: seq<string>, current: seq<string>, ty: CommandType, split: string -> seq<string>)
    requires |words| > 0 && !IsFlag(words[0])
    requires AllWords(Segments(words[1..], current + [words[0]], ty), split) == current + [words[0]] + NonFlags(words[1..])
    ensures AllWords(Segments(words, current, ty), split) == current + NonFlags(words)
  {
    var rest := NonFlags(words[1..]);
    assert Segments(words, current, ty) == Segments(words[1..], current + [words[0]], ty);
    assert NonFlags(words) == [words[0]] + rest;
    assert current + [words[0]] + rest == current + ([words[0]] + rest);
  }

  lemma {:induction false} SegmentsKeepWords(words: seq<string>, current: seq<string>, ty: CommandType)
    requires forall j :: 0 <= j < |words| ==> IsWord(words[j])
    requires forall j :: 0 <= j < |current| ==> IsWord(current[j])
    ensures AllEntryWords(Segments(words, current, ty)) == current + NonFlags(words)
    decreases |words|
  {
    if |words| == 0 {
      SegmentsAtEnd(current, ty);
    } else if IsFlag(words[0]) {
      SegmentsKeepWords(words[1..], [], FlagType(words[0]));
      SegmentsAtFlag(words, current, ty);
      FlagStep(words, current, ty, SplitWhitespace);
    } else {
      SegmentsKeepWords(words[1..], current + [words[0]], ty);
      WordStep(words, current, ty, SplitWhitespace);
    }
  }

  /** No word is lost or reordered: the entries' strings hold exactly the non-flag
      words, in input order, one space apart. */
  lemma CommandsKeepWords(command: string)
    ensures AllEntryWords(ParseDiceTrayCommands(command)) == NonFlags(SplitWhitespace(command))
  {
    SegmentsKeepWords(SplitWhitespace(command), [], Add);
  }

  /** `\w` on ASCII: a letter, a digit or '_'. */
  predicate IsWordChar(c: char) {
    ('a' <= c <= 'z') || ('A' <= c <= 'Z') || ('0' <= c <= '9') || c == '_'
  }

  predicate IsName(s: string) {
    |s| > 0 && forall i :: 0 <= i < |s| ==> IsWordChar(s[i])
  }

  /** Length of the longest `\w*` prefix. */
  function WordRun(s: string): (n: nat)
    ensures n <= |s|
    ensures forall i :: 0 <= i < n ==> IsWordChar(s[i])
    ensures n == |s| || !IsWordChar(s[n])
  {
    if |s| == 0 || !IsWordChar(s[0]) then 0 else 1 + WordRun(s[1..])
  }

  /** The names of the longest prefix matching `\w+(,\w+)*`, split at the commas;
      none when `s` does not start with a word character. */
  function IdNames(s: string): (names: seq<string>)
    ensures |names| == 0 <==> WordRun(s) == 0
    ensures forall j :: 0 <= j < |names| ==> IsName(names[j])
    decreases |s|
  {
    var n := WordRun(s);
    if n == 0 then []
    else if n + 1 < |s| && s[n] == ',' && WordRun(s[n + 1..]) > 0 then [s[..n]] + IdNames(s[n + 1..])
    else [s[..n]]
  }

  /** `parse_identity_flag` on a token that starts with '$': the names after it, or
      None for a bare "$" (which clears the identity). */
  function ParseIdentityFlag(tok: string): (r: Option<seq<string>>)
    requires |tok| > 0 && tok[0] == '$'
    ensures r.None? <==> |tok| == 1 || !IsWordChar(tok[1])
    ensures r.Some? ==> |r.value| > 0 && forall j :: 0 <= j < |r.value| ==> IsName(r.value[j])
  {
    var names := IdNames(tok[1..]);
    if |names| == 0 then None else Some(names)
  }

  lemma {:induction false} WordRunOfName(w: string, rest: string)
    requires IsName(w) || |w| == 0
    requires |rest| == 0 || !IsWordChar(rest[0])
    ensures WordRun(w + rest) == |w|
    decreases |w|
  {
    if |w| > 0 {
      assert (w + rest)[1..] == w[1..] + rest;
      WordRunOfName(w[1..], rest);
    } else {
      assert w + rest == rest;
    }
  }

  lemma {:induction false} IdNamesOfJoined(names: seq<string>)
    requires |names| > 0 && forall j :: 0 <= j < |names| ==> IsName(names[j])
    ensures IdNames(Join(names, ',')) == names
    decreases |names|
  {
    var w := names[0];
    if |names| == 1 {
      WordRunOfName(w, "");
      assert w + "" == w;
    } else {
      var tail := Join(names[1..], ',');
      var s := w + ([','] + tail);
      assert Join(names, ',') == s;
      WordRunOfName(w, [','] + tail);
      JoinEnds(names[1..], ',');
      assert s[|w| + 1..] == tail;
      assert s[..|w|] == w;
      IdNamesOfJoined(names[1..]);
      assert [w] + names[1..] == names;
    }
  }

  /** Writing names as a `$a,b,c` flag and parsing it gives the names back. */
  lemma IdentityFlagRoundTrip(names: seq<string>)
    requires |names| > 0 && forall j :: 0 <= j < |names| ==> IsName(names[j])
    ensures ParseIdentityFlag("$" + Join(names, ',')) == Some(names)
  {
    IdNamesOfJoined(names);
    assert ("$" + Join(names, ','))[1..] == Join(names, ',');
    JoinEnds(names, ',');
  }

  /** The whole token matches `@(\d+(,\d+)*)`: '@', then digit runs one comma apart. */
  predicate IsIndexFlag(tok: string) {
    |tok| > 1 && tok[0] == '@'
    && forall j :: 0 <= j < |SplitOn(tok[1..], ',')| ==>
         |SplitOn(tok[1..], ',')[j]| > 0 && AllDigits(SplitOn(tok[1..], ',')[j])
  }

  /** The pieces that parse as a `usize`, in order; the others are dropped. */
  function KeepParsed(pieces: seq<string>): (r: seq<nat>)
    ensures |r| <= |pieces|
    ensures forall j :: 0 <= j < |r| ==> r[j] <= USIZE_MAX
    ensures (forall j :: 0 <= j < |pieces| ==> ParseUnsigned(pieces[j], USIZE_MAX).None?) ==> r == []
  {
    if |pieces| == 0 then []
    else
      assert forall j :: 1 <= j < |pieces| ==> pieces[j] == pieces[1..][j - 1];
      match ParseUnsigned(pieces[0], USIZE_MAX)
      case Some(n) => [n] + KeepParsed(pieces[1..])
      case None => KeepParsed(pieces[1..])
  }

  /** When every piece parses, none is dropped and the values come in order. */
  lemma {:induction false} KeepParsedAll(pieces: seq<string>, ns: seq<nat>)
    requires |pieces| == |ns|
    requires forall j :: 0 <= j < |pieces| ==> ParseUnsigned(pieces[j], USIZE_MAX) == Some(ns[j])
    ensures KeepParsed(pieces) == ns
    decreases |pieces|
  {
    if |pieces| > 0 {
      KeepParsedAll(pieces[1..], ns[1..]);
      assert KeepParsed(pieces) == [ns[0]] + KeepParsed(pieces[1..]);
      assert [ns[0]] + ns[1..] == ns;
    }
  }

  /** Indices that fit a `usize` survive rendering and parsing, in order. */
  lemma KeepParsedRendered(ns: seq<nat>)
    requires forall j :: 0 <= j < |ns| ==> ns[j] <= USIZE_MAX
    ensures KeepParsed(CliParser.RenderIndices(ns)) == ns
  {
    var pieces := CliParser.RenderIndices(ns);
    forall j | 0 <= j < |pieces|
      ensures ParseUnsigned(pieces[j], USIZE_MAX) == Some(ns[j])
    {
      ParseRendered(ns[j], USIZE_MAX);
    }
    KeepParsedAll(pieces, ns);
  }

  /** An index past `usize` is dropped silently and the rest are kept. */
  lemma OverflowingIndexDropped(big: nat, n: nat)
    requires big > USIZE_MAX && n <= USIZE_MAX
    ensures KeepParsed([NatToString(big), NatToString(n)]) == [n]
  {
    ParseRendered(big, USIZE_MAX);
    ParseRendered(n, USIZE_MAX);
    assert [NatToString(big), NatToString(n)][1..] == [NatToString(n)];
  }

  /** `parse_index_flag` on a matching token. */
  function ParseIndexFlag(tok: string): seq<nat>
    requires IsIndexFlag(tok)
  {
    KeepParsed(SplitOn(tok[1..], ','))
  }

  predicate IsIdentityToken(tok: string) {
    |tok| > 0 && tok[0] == '$'
  }

  /** The loop of `parse_roll_command` (and of `parse_drop_command`, which is the same)
      over the tokens so far: each `$` token replaces the identities, each `@` token
      the indices; other tokens change nothing. */
  function ScanFlags(toks: seq<string>): (r: (Option<seq<string>>, Option<seq<nat>>))
    ensures (forall j :: 0 <= j < |toks| ==> !IsIdentityToken(toks[j])) ==> r.0.None?
    ensures (forall j :: 0 <= j < |toks| ==> !IsIndexFlag(toks[j])) ==> r.1.None?
    decreases |toks|
  {
    if |toks| == 0 then (None, None)
    else
      var (ids, idx) := ScanFlags(toks[..|toks| - 1]);
      var t := toks[|toks| - 1];
      if IsIdentityToken(t) then (ParseIdentityFlag(t), idx)
      else if IsIndexFlag(t) then (ids, Some(ParseIndexFlag(t)))
      else (ids, idx)
  }

  /** Tokens that are neither flag leave what earlier flags set. */
  lemma {:induction false} ScanIgnoresOthers(toks: seq<string>, others: seq<string>)
    requires forall j :: 0 <= j < |others| ==> !IsIdentityToken(others[j]) && !IsIndexFlag(others[j])
    ensures ScanFlags(toks + others) == ScanFlags(toks)
    decreases |others|
  {
    if |others| > 0 {
      var init := others[..|others| - 1];
      assert (toks + others)[..|toks + others| - 1] == toks + init;
      ScanIgnoresOthers(toks, init);
    } else {
      assert toks + others == toks;
    }
  }

  /** An `@` flag written from indices is an index flag whose pieces are the indices. */
  lemma IndexFlagOfRendered(ns: seq<nat>)
    requires |ns| > 0
    ensures IsIndexFlag("@" + Join(CliParser.RenderIndices(ns), ','))
    ensures SplitOn(("@" + Join(CliParser.RenderIndices(ns), ','))[1..], ',') == CliParser.RenderIndices(ns)
  {
    var pieces := CliParser.RenderIndices(ns);
    var body := Join(pieces, ',');
    CliParser.RenderedIndexToken(ns);
    assert ("@" + body)[1..] == body;
  }

  /** Writing indices as an `@i,j,k` flag and parsing it gives the indices back. */
  lemma IndexFlagRoundTrip(ns: seq<nat>)
    requires |ns| > 0 && forall j :: 0 <= j < |ns| ==> ns[j] <= USIZE_MAX
    ensures IsIndexFlag("@" + Join(CliParser.RenderIndices(ns), ','))
    ensures ParseIndexFlag("@" + Join(CliParser.RenderIndices(ns), ',')) == ns
  {
    IndexFlagOfRendered(ns);
    KeepParsedRendered(ns);
  }

  /** One more token: the step of the loop. */
  lemma ScanSnoc(toks: seq<string>, t: string)
    ensures ScanFlags(toks + [t]) ==
      var (ids, idx) := ScanFlags(toks);
      if IsIdentityToken(t) then (ParseIdentityFlag(t), idx)
      else if IsIndexFlag(t) then (ids, Some(ParseIndexFlag(t)))
      else (ids, idx)
  {
    assert (toks + [t])[..|toks|] == toks;
  }

  /** An identity flag, then an index flag, then plain tokens: each flag decides its
      own part of the result, whatever came before. */
  lemma ScanTwoFlags(toks: seq<string>, idTok: string, ixTok: string, others: seq<string>)
    requires IsIdentityToken(idTok) && IsIndexFlag(ixTok)
    requires forall j :: 0 <= j < |others| ==> !IsIdentityToken(others[j]) && !IsIndexFlag(others[j])
    ensures ScanFlags(toks + [idTok, ixTok] + others) == (ParseIdentityFlag(idTok), Some(ParseIndexFlag(ixTok)))
  {
    var front := toks + [idTok] + [ixTok];
    SnocPair(toks, idTok, ixTok, others);
    ScanAfterIdentity(toks, idTok);
    ScanAfterIndex(toks + [idTok], ixTok);
    ScanIgnoresOthers(front, others);
  }

  lemma SnocPair<T>(xs: seq<T>, a: T, b: T, ys: seq<T>)
    ensures xs + [a, b] + ys == (xs + [a] + [b]) + ys
  {
    assert [a, b] == [a] + [b];
  }

  lemma ScanAfterIdentity(toks: seq<string>, t: string)
    requires IsIdentityToken(t)
    ensures ScanFlags(toks + [t]).0 == ParseIdentityFlag(t)
  {
    assert (toks + [t])[..|toks|] == toks;
  }

  lemma ScanAfterIndex(toks: seq<string>, t: string)
    requires IsIndexFlag(t)
    ensures ScanFlags(toks + [t]) == (ScanFlags(toks).0, Some(ParseIndexFlag(t)))
  {
    assert !IsIdentityToken(t);
    assert (toks + [t])[..|toks|] == toks;
  }

  /** The last flag of each kind wins: after `$a,b` and `@i,j` only plain tokens. */
  lemma LastFlagsWin(toks: seq<string>, names: seq<string>, ns: seq<nat>, others: seq<string>)
    requires |names| > 0 && forall j :: 0 <= j < |names| ==> IsName(names[j])
    requires |ns| > 0 && forall j :: 0 <= j < |ns| ==> ns[j] <= USIZE_MAX
    requires forall j :: 0 <= j < |others| ==> !IsIdentityToken(others[j]) && !IsIndexFlag(others[j])
    ensures ScanFlags(toks + ["$" + Join(names, ','), "@" + Join(CliParser.RenderIndices(ns), ',')] + others)
      == (Some(names), Some(ns))
  {
    IdentityFlagRoundTrip(names);
    IndexFlagRoundTrip(ns);
    ScanTwoFlags(toks, "$" + Join(names, ','), "@" + Join(CliParser.RenderIndices(ns), ','), others);
  }

  /** `parse_roll_command` / `parse_drop_command`: (None, None) without a command. */
  function ParseTargetFlags(command: Option<string>): (r: (Option<seq<string>>, Option<seq<nat>>))
    ensures command.None? ==> r == (None, None)
    ensures command.Some? ==> r == ScanFlags(SplitWhitespace(command.value))
  {
    if command.None? then (None, None) else ScanFlags(SplitWhitespace(command.value))
  }

  /** The `(count, faces)` a token asks for: None for a `$` flag or a word that is not
      notation. */
  function TokenRequest(t: string): (r: Option<(nat, nat)>)
    ensures r.Some? <==> !IsIdentityToken(t) && MatchNotation(t).Some?
  {
    if !IsIdentityToken(t) && MatchNotation(t).Some? then Some(DecodeLenient(MatchNotation(t).value)) else None
  }

  /** The number of dice the notation tokens ask for. */
  function RequestedDice(toks: seq<string>): nat {
    if |toks| == 0 then 0
    else
      var n := if TokenRequest(toks[0]).Some? then TokenRequest(toks[0]).value.0 else 0;
      n + RequestedDice(toks[1..])
  }

  /** A notation token asking for dice with no faces. */
  predicate ZeroFacesToken(t: string) {
    TokenRequest(t).Some? && TokenRequest(t).value.0 > 0 && TokenRequest(t).value.1 == 0
  }

  /** Some notation token asks for dice with no faces. */
  predicate AsksZeroFaces(toks: seq<string>) {
    exists j :: 0 <= j < |toks| && ZeroFacesToken(toks[j])
  }

  lemma AsksZeroFacesCons(toks: seq<string>)
    requires |toks| > 0
    ensures AsksZeroFaces(toks) <==> ZeroFacesToken(toks[0]) || AsksZeroFaces(toks[1..])
  {
    var rest := toks[1..];
    if AsksZeroFaces(rest) {
      var k :| 0 <= k < |rest| && ZeroFacesToken(rest[k]);
      assert toks[k + 1] == rest[k];
    }
    if AsksZeroFaces(toks) && !ZeroFacesToken(toks[0]) {
      var k :| 0 <= k < |toks| && ZeroFacesToken(toks[k]);
      assert rest[k - 1] == toks[k];
    }
  }

  /** The name a `$` flag gives new dice: its first name. */
  function FirstName(ids: Option<seq<string>>): Option<string> {
    if ids.Some? && |ids.value| > 0 then Some(ids.value[0]) else None
  }

  /** The dice one notation token creates: `count` dice of `faces` faces, the `j`-th
      with creation roll `draw(made + j, faces)`. */
  function NewDice(s: LegacySettings.DiceTraySettings, name: Option<string>, count: nat, faces: nat,
                   draw: Draw, made: nat): (ds: seq<LegacyDice.Die>)
    requires ValidDraw(draw) && (count > 0 ==> faces >= 1)
    ensures |ds| == count
    ensures forall j :: 0 <= j < count ==> ds[j].faces == faces && 1 <= ds[j].currentFace <= faces
    ensures forall j :: 0 <= j < count ==> ds[j].identity == if name.Some? then name.value else DefaultLabel(faces)
    ensures forall j :: 0 <= j < count ==> ds[j].currentFace == draw(made + j, faces)
  {
    if count == 0 then []
    else
      var f := draw(made + count - 1, faces);
      NewDice(s, name, count - 1, faces, draw, made) + [LegacyDice.New(s, name, faces, f)]
  }

  /** The loop of `parse_add_command` from some token on: `ids` holds the last `$`
      flag seen, `made` the dice created so far. A notation token creates its dice
      with the first flagged name; zero faces with a positive count panics in the
      creation roll. */
  function AddTokens(s: LegacySettings.DiceTraySettings, toks: seq<string>, ids: Option<seq<string>>,
                     draw: Draw, made: nat): (r: Run<seq<LegacyDice.Die>>)
    requires ValidDraw(draw)
    ensures r.Panicked? <==> AsksZeroFaces(toks)
    ensures r.Returned? ==> |r.value| == RequestedDice(toks)
    decreases |toks|
  {
    if |toks| == 0 then Returned([])
    else
      var t := toks[0];
      AsksZeroFacesCons(toks);
      if IsIdentityToken(t) then AddTokens(s, toks[1..], ParseIdentityFlag(t), draw, made)
      else match TokenRequest(t)
        case None => AddTokens(s, toks[1..], ids, draw, made)
        case Some((count, faces)) =>
          if count > 0 && faces == 0 then Panicked
          else
            var dice := NewDice(s, FirstName(ids), count, faces, draw, made);
            match AddTokens(s, toks[1..], ids, draw, made + count)
            case Panicked => Panicked
            case Returned(rest) => Returned(dice + rest)
  }

  /** `parse_add_command`: None without a command; otherwise the dice its tokens ask
      for, in order. */
  function ParseAddCommand(s: LegacySettings.DiceTraySettings, command: Option<string>, draw: Draw): (r: Run<Option<seq<LegacyDice.Die>>>)
    requires ValidDraw(draw)
    ensures command.None? ==> r == Returned(None)
    ensures command.Some? ==> (r.Panicked? <==> AsksZeroFaces(SplitWhitespace(command.value)))
    ensures command.Some? && r.Returned? ==> r.value.Some? && |r.value.value| == RequestedDice(SplitWhitespace(command.value))
  {
    match command
    case None => Returned(None)
    case Some(text) =>
      match AddTokens(s, SplitWhitespace(text), None, draw, 0)
      case Panicked => Panicked
      case Returned(dice) => Returned(Some(dice))
  }

  /** One notation token, alone, creates exactly the dice it asks for. */
  lemma OneNotationToken(s: LegacySettings.DiceTraySettings, t: string, ids: Option<seq<string>>, draw: Draw, made: nat)
    requires ValidDraw(draw) && !IsIdentityToken(t) && MatchNotation(t).Some?
    requires DecodeLenient(MatchNotation(t).value).1 >= 1
    ensures var (count, faces) := DecodeLenient(MatchNotation(t).value);
      AddTokens(s, [t], ids, draw, made) == Returned(NewDice(s, FirstName(ids), count, faces, draw, made))
  {
    var (count, faces) := DecodeLenient(MatchNotation(t).value);
    var toks: seq<string> := [t];
    assert toks[1..] == [];
    var dice := NewDice(s, FirstName(ids), count, faces, draw, made);
    assert AddTokens(s, [], ids, draw, made + count) == Returned([]);
    assert dice + [] == dice;
  }

  /** A lone notation token creates its dice, with the flagged name if any. */
  lemma NotationTokenDice(s: LegacySettings.DiceTraySettings, ids: Option<seq<string>>, count: nat, faces: nat,
                          draw: Draw, made: nat)
    requires ValidDraw(draw)
    requires 1 <= count <= U32_MAX && 1 <= faces <= U32_MAX
    ensures AddTokens(s, [CliParser.RenderNotation((count, faces))], ids, draw, made)
      == Returned(NewDice(s, FirstName(ids), count, faces, draw, made))
  {
    var note := CliParser.RenderNotation((count, faces));
    CliParser.RenderedNotationMatches((count, faces));
    assert note[0] != '$';
    OneNotationToken(s, note, ids, draw, made);
  }

  /** A `$` flag names the dice of the notation tokens after it: "$name NdM" makes N
      dice called `name`. */
  lemma FlagNamesLaterDice(s: LegacySettings.DiceTraySettings, name: string, count: nat, faces: nat, draw: Draw)
    requires ValidDraw(draw) && IsName(name)
    requires 1 <= count <= U32_MAX && 1 <= faces <= U32_MAX
    ensures var r := AddTokens(s, ["$" + name, CliParser.RenderNotation((count, faces))], None, draw, 0);
      r.Returned? && |r.value| == count && forall j :: 0 <= j < count ==> r.value[j].identity == name
  {
    var note := CliParser.RenderNotation((count, faces));
    IdentityFlagRoundTrip([name]);
    assert Join([name], ',') == name;
    assert ["$" + name, note][1..] == [note];
    assert AddTokens(s, ["$" + name, note], None, draw, 0) == AddTokens(s, [note], Some([name]), draw, 0);
    NotationTokenDice(s, Some([name]), count, faces, draw, 0);
  }

  /** ... and not the dice before it: "NdM $name" makes N dice with the default name. */
  lemma FlagSkipsEarlierDice(s: LegacySettings.DiceTraySettings, name: string, count: nat, faces: nat, draw: Draw)
    requires ValidDraw(draw) && IsName(name)
    requires 1 <= count <= U32_MAX && 1 <= faces <= U32_MAX
    ensures var r := AddTokens(s, [CliParser.RenderNotation((count, faces)), "$" + name], None, draw, 0);
      r.Returned? && |r.value| == count && forall j :: 0 <= j < count ==> r.value[j].identity == DefaultLabel(faces)
  {
    var note := CliParser.RenderNotation((count, faces));
    CliParser.RenderedNotationMatches((count, faces));
    assert note[0] != '$';
    assert [note, "$" + name][1..] == ["$" + name];
    var flag: seq<string> := ["$" + name];
    assert flag[1..] == [];
    assert AddTokens(s, flag, None, draw, count).Returned?;
    NotationTokenDice(s, None, count, faces, draw, 0);
  }
}

=== FILE: legacy_settings.dfy ===
/**
 * The older crate's settings (`DiceTraySettings`): result tables by name. The source
 * keeps one process-wide instance; here it is an explicit value.
 */
module LegacySettings {
  import opened Results
  import LegacyTables

  datatype DiceTraySettings = DiceTraySettings(resultTables: map<string, map<nat, string>>)

  datatype LookupError = NoTable(tableName: string) | NoEntry(diceResult: nat, tableName: string)

  /** `new`: no tables. */
  function New(): (s: DiceTraySettings)
    ensures forall name :: !HasTable(s, name)
  {
    DiceTraySettings(map[])
  }

  predicate HasTable(s: DiceTraySettings, name: string) {
    name in s.resultTables
  }

  /** `add_result_table`: the table is stored under `name`, replacing any earlier one;
      every other name keeps its table. */
  function AddResultTable(s: DiceTraySettings, name: string, table: map<nat, string>): (r: DiceTraySettings)
    ensures HasTable(r, name) && r.resultTables[name] == table
    ensures forall other :: other != name ==> (HasTable(r, other) <==> HasTable(s, other))
    ensures forall other :: other != name && other in s.resultTables ==> other in r.resultTables && r.resultTables[other] == s.resultTables[other]
  {
    DiceTraySettings(s.resultTables[name := table])
  }

  /** `dice_table_lookup`: Err for an unknown table, Err for a result the table has no
      entry for, otherwise that entry. */
  function DiceTableLookup(s: DiceTraySettings, name: string, result: nat): (r: Result<string, LookupError>)
    ensures !HasTable(s, name) ==> r == Err(NoTable(name))
    ensures HasTable(s, name) && result !in s.resultTables[name] ==> r == Err(NoEntry(result, name))
    ensures r.Ok? <==> HasTable(s, name) && result in s.resultTables[name]
    ensures r.Ok? ==> r.value == s.resultTables[name][result]
  {
    if name !in s.resultTables then Err(NoTable(name))
    else if result !in s.resultTables[name] then Err(NoEntry(result, name))
    else Ok(s.resultTables[name][result])
  }

  /** After adding a table, lookups under its name read that table and no other. */
  lemma AddThenLookup(s: DiceTraySettings, name: string, table: map<nat, string>, result: nat)
    ensures DiceTableLookup(AddResultTable(s, name, table), name, result)
      == if result in table then Ok(table[result]) else Err(NoEntry(result, name))
  {
  }

  /** The process-wide settings: a fresh instance holding the "test" table. */
  function Default(): (s: DiceTraySettings)
    ensures HasTable(s, "test")
    ensures forall name :: HasTable(s, name) ==> name == "test"
  {
    AddResultTable(New(), "test", LegacyTables.TestTable().table)
  }

  /** The default settings answer results 1..6 from the "test" table and nothing else. */
  lemma DefaultLookup(result: nat)
    ensures 1 <= result <= 6 ==> DiceTableLookup(Default(), "test", result) == Ok(LegacyTables.TEST_ENTRIES[result - 1])
    ensures result == 0 || result > 6 ==> DiceTableLookup(Default(), "test", result) == Err(NoEntry(result, "test"))
  {
    AddThenLookup(New(), "test", LegacyTables.TestTable().table, result);
  }
}

=== FILE: legacy_tables.dfy ===
/**
 * The older crate's result tables (`DiceResultTable`): the entries of a list keyed
 * 1..n, and a lookup that folds a face just past the end back into range once.
 */
module LegacyTables {
  import opened Results
  import opened Text

  datatype DiceResultTable = DiceResultTable(name: string, table: map<nat, string>)

  datatype TableError = TooLarge | NoResultAt(face: nat, tableName: string)

  /** Entry k of the list (counting from 1) under key k, as the source's counting
      `map` builds it; n entries give n keys. */
  function Keyed(entries: seq<string>): (m: map<nat, string>)
    ensures forall k: nat :: k in m <==> 1 <= k <= |entries|
    ensures forall k: nat :: 1 <= k <= |entries| ==> m[k] == entries[k - 1]
    ensures |m| == |entries|
    decreases |entries|
  {
    if |entries| == 0 then map[]
    else Keyed(entries[..|entries| - 1])[|entries| := entries[|entries| - 1]]
  }

  /** `DiceResultTable::new`; `get_name` gives back `name`. */
  function New(name: string, entries: seq<string>): (r: DiceResultTable)
    ensures r.name == name
    ensures forall k: nat :: k in r.table <==> 1 <= k <= |entries|
    ensures forall k: nat :: 1 <= k <= |entries| ==> r.table[k] == entries[k - 1]
  {
    DiceResultTable(name, Keyed(entries))
  }

  /** `lookup`: Err when the table has more entries than a `u32` counts; a face past
      the end is brought back by one subtraction of the length (not a modulo); then
      the entry under that key, or Err when there is none. */
  function Lookup(t: DiceResultTable, face: nat): (r: Result<string, TableError>)
    ensures r == Err(TooLarge) <==> |t.table| > U32_MAX
    ensures r.Ok? ==> r.value in t.table.Values
    ensures r.Ok? && face <= |t.table| ==> face in t.table && r.value == t.table[face]
  {
    var len := |t.table|;
    if len > U32_MAX then Err(TooLarge)
    else
      var key := if face > len then face - len else face;
      if key in t.table then Ok(t.table[key]) else Err(NoResultAt(key, t.name))
  }

  /** On a table built from n entries: faces 1..n give their entry, faces n+1..2n
      wrap once onto entries 1..n, and 0 or anything past 2n is an error. */
  lemma LookupNew(name: string, entries: seq<string>, face: nat)
    requires |entries| <= U32_MAX
    ensures 1 <= face <= |entries| ==> Lookup(New(name, entries), face) == Ok(entries[face - 1])
    ensures |entries| < face <= 2 * |entries| ==> Lookup(New(name, entries), face) == Ok(entries[face - |entries| - 1])
    ensures face == 0 || face > 2 * |entries| ==> Lookup(New(name, entries), face).Err?
  {
  }

  /** The outcomes of the built-in "test" table. */
  const TEST_ENTRIES: seq<string> :=
    ["Critical Fail", "Fail", "Neutral", "Success", "Critical Success", "Unexpected Result"]

  /** `implement_test_table`: the "test" table, keyed 1..6. */
  function TestTable(): (t: DiceResultTable)
    ensures t.name == "test"
    ensures forall k: nat :: k in t.table <==> 1 <= k <= |TEST_ENTRIES|
    ensures forall k: nat :: 1 <= k <= |TEST_ENTRIES| ==> t.table[k] == TEST_ENTRIES[k - 1]
  {
    DiceResultTable("test", map[
      1 := "Critical Fail", 2 := "Fail", 3 := "Neutral",
      4 := "Success", 5 := "Critical Success", 6 := "Unexpected Result"])
  }

  /** The built-in table is exactly the one `new` builds from its six outcomes. */
  lemma TestTableIsNew()
    ensures TestTable() == New("test", TEST_ENTRIES)
  {
    var a := TestTable().table;
    var b := New("test", TEST_ENTRIES).table;
    assert a.Keys == b.Keys;
    assert forall k :: k in a ==> a[k] == b[k];
  }
}

=== FILE: legacy_tray.dfy ===
/**
 * The older crate's tray: an ordered list of dice with positional removal and rolls.
 * Its rolls call the die's roll without a result type; they are modelled as rolls
 * asking for the die's own type, which leave the type and its accumulated value
 * rules untouched.
 */
module LegacyTray {
  import opened Results
  import opened LegacyDice

  datatype Tray = Tray(dice: seq<Die>)

  /** `Tray::new`: no dice. */
  function New(): (t: Tray)
    ensures |t.dice| == 0
  {
    Tray([])
  }

  /** `add_die`: at the end; the dice already there are untouched. */
  function AddDie(t: Tray, d: Die): (r: Tray)
    ensures |r.dice| == |t.dice| + 1 && r.dice[..|t.dice|] == t.dice && r.dice[|t.dice|] == d
  {
    Tray(t.dice + [d])
  }

  /** `add_dice`: each die appended in turn, so in argument order after the old ones. */
  function AddDice(t: Tray, ds: seq<Die>): (r: Tray)
    ensures |r.dice| == |t.dice| + |ds|
    ensures r.dice[..|t.dice|] == t.dice
    ensures forall j :: 0 <= j < |ds| ==> r.dice[|t.dice| + j] == ds[j]
    decreases |ds|
  {
    if |ds| == 0 then t else AddDice(AddDie(t, ds[0]), ds[1..])
  }

  /** `remove_at`: in range, the die at `i` is returned and the rest close up in order;
      out of range, None and the tray as it was. */
  function RemoveAt(t: Tray, i: nat): (r: (Tray, Option<Die>))
    ensures i < |t.dice| <==> r.1.Some?
    ensures r.1.None? ==> r.0 == t
    ensures r.1.Some? ==> r.1.value == t.dice[i] && |r.0.dice| == |t.dice| - 1
    ensures r.1.Some? ==> forall j :: 0 <= j < |r.0.dice| ==> r.0.dice[j] == t.dice[if j < i then j else j + 1]
  {
    if i < |t.dice| then (Tray(t.dice[..i] + t.dice[i + 1..]), Some(t.dice[i])) else (t, None)
  }

  /** Putting a removed die back where it was restores the tray. */
  lemma RemoveAtReinsert(t: Tray, i: nat)
    requires i < |t.dice|
    ensures var (r, d) := RemoveAt(t, i); r.dice[..i] + [d.value] + r.dice[i..] == t.dice
  {
    var (r, d) := RemoveAt(t, i);
    assert r.dice[..i] + [d.value] + r.dice[i..] == t.dice;
  }

  predicate ValidDraws(t: Tray, fs: seq<nat>) {
    |fs| == |t.dice| && forall j :: 0 <= j < |fs| ==> 1 <= fs[j] <= t.dice[j].faces
  }

  /** `roll_all`: every die rolled once, drawing `fs[j]` for die `j`; the order, the
      identities and the face counts stay. */
  function RollAll(t: Tray, fs: seq<nat>): (r: Tray)
    requires ValidDraws(t, fs)
    ensures |r.dice| == |t.dice|
    ensures forall j :: 0 <= j < |t.dice| ==>
      r.dice[j].currentFace == fs[j] && r.dice[j].identity == t.dice[j].identity && r.dice[j].faces == t.dice[j].faces
      && r.dice[j].resultType == t.dice[j].resultType
      && r.dice[j] == LegacyDice.Roll(t.dice[j], t.dice[j].resultType, fs[j])
  {
    Tray(seq(|t.dice|, j requires 0 <= j < |t.dice| => Roll(t.dice[j], t.dice[j].resultType, fs[j])))
  }

  /** `roll_at`: in range, die `i` is rolled and its new face returned; otherwise None
      and nothing is rolled. */
  function RollAt(t: Tray, i: nat, f: nat): (r: (Tray, Option<nat>))
    requires i < |t.dice| ==> 1 <= f <= t.dice[i].faces
    ensures r.1.Some? <==> i < |t.dice|
    ensures r.1.None? ==> r.0 == t
    ensures |r.0.dice| == |t.dice|
    ensures r.1.Some? ==> r.1.value == f && r.0.dice[i].currentFace == f
    ensures r.1.Some? ==> r.0.dice[i] == LegacyDice.Roll(t.dice[i], t.dice[i].resultType, f)
    ensures forall j :: 0 <= j < |t.dice| && j != i ==> r.0.dice[j] == t.dice[j]
  {
    if i < |t.dice| then (Tray(t.dice[i := Roll(t.dice[i], t.dice[i].resultType, f)]), Some(f)) else (t, None)
  }

  /** `clear`: no dice left. */
  function Clear(t: Tray): (r: Tray)
    ensures |r.dice| == 0
  {
    Tray([])
  }

  /** Rolling a Table die through the tray keeps it a Table die. */
  lemma RollAllKeepsTables(t: Tray, fs: seq<nat>, j: nat)
    requires ValidDraws(t, fs) && j < |t.dice| && t.dice[j].resultType == Table
    ensures RollAll(t, fs).dice[j].resultType == Table && RollAll(t, fs).dice[j].resultValue.None?
  {
  }
}

=== FILE: notation.dfy ===
/**
 * The dice-notation regex `(?i)^(\d*)?[d](\d+)$` shared by both command parsers,
 * written as a hand recogniser, and the lenient decoding of its two capture groups.
 */
module Notation {
  import opened Results
  import opened Text

  /** Length of the longest all-digit prefix of `s`. */
  function DigitRunLength(s: string): (n: nat)
    ensures n <= |s|
    ensures forall i :: 0 <= i < n ==> IsDigit(s[i])
    ensures n == |s| || !IsDigit(s[n])
  {
    if |s| == 0 || !IsDigit(s[0]) then 0 else 1 + DigitRunLength(s[1..])
  }

  /** Capture group 1 (the count, possibly empty) and group 2 (the face count). */
  datatype Captures = Captures(count: string, faces: string)

  predicate IsDieLetter(c: char) {
    c == 'd' || c == 'D'
  }

  /** Whole-token match of `(?i)^(\d*)?[d](\d+)$`; on a match the token is the count
      digits, one `d` or `D`, then at least one face digit. */
  function MatchNotation(token: string): (m: Option<Captures>)
    ensures m.Some? ==>
      var c := m.value;
      && AllDigits(c.count) && AllDigits(c.faces) && |c.faces| > 0
      && |c.count| < |token| && IsDieLetter(token[|c.count|])
      && token == c.count + [token[|c.count|]] + c.faces
  {
    var n := DigitRunLength(token);
    if n + 1 < |token| && IsDieLetter(token[n]) && AllDigits(token[n + 1..]) then
      assert token == token[..n] + [token[n]] + token[n + 1..];
      Some(Captures(token[..n], token[n + 1..]))
    else
      None
  }

  lemma {:induction false} DigitRunOfNotation(count: string, rest: string)
    requires AllDigits(count)
    requires |rest| > 0 && !IsDigit(rest[0])
    ensures DigitRunLength(count + rest) == |count|
    decreases |count|
  {
    if |count| > 0 {
      assert (count + rest)[1..] == count[1..] + rest;
      DigitRunOfNotation(count[1..], rest);
    } else {
      assert count + rest == rest;
    }
  }

  /** Every count-letter-faces token is recognised, with exactly those captures. */
  lemma MatchNotationComplete(count: string, letter: char, faces: string)
    requires AllDigits(count) && AllDigits(faces) && |faces| > 0 && IsDieLetter(letter)
    ensures MatchNotation(count + [letter] + faces) == Some(Captures(count, faces))
  {
    var token := count + [letter] + faces;
    DigitRunOfNotation(count, [letter] + faces);
    assert token == count + ([letter] + faces);
    assert token[..|count|] == count;
    assert token[|count| + 1..] == faces;
  }

  /** Capture decoding used by both command parsers: an empty or overflowing count
      becomes 1, an overflowing face count becomes 6 (`unwrap_or`). */
  function DecodeLenient(c: Captures): (r: (nat, nat))
    ensures r.0 <= U32_MAX && r.1 <= U32_MAX
    ensures |c.count| == 0 ==> r.0 == 1
    ensures AllDigits(c.faces) && |c.faces| > 0 && DigitsValue(c.faces) > U32_MAX ==> r.1 == 6
  {
    var count :=
      if |c.count| == 0 then 1
      else match ParseUnsigned(c.count, U32_MAX)
        case Some(n) => n
        case None => 1;
    var faces :=
      match ParseUnsigned(c.faces, U32_MAX)
      case Some(n) => n
      case None => 6;
    (count, faces)
  }

  /** Rendered numbers that fit a `u32` decode to themselves. */
  lemma DecodeRendered(count: nat, faces: nat)
    requires count <= U32_MAX && faces <= U32_MAX
    ensures DecodeLenient(Captures(NatToString(count), NatToString(faces))) == (count, faces)
  {
    ParseRendered(count, U32_MAX);
    ParseRendered(faces, U32_MAX);
  }
}

=== FILE: order.dfy ===
/**
 * The ordering both die generations use: lexicographic on
 * (current face, face count, label), as Rust's derived tuple `Ord` compares.
 */
module Order {

  datatype Cmp = Less | Equal | Greater

  function Flip(c: Cmp): Cmp {
    match c
    case Less => Greater
    case Equal => Equal
    case Greater => Less
  }

  function CompareNat(a: nat, b: nat): (c: Cmp)
    ensures c == Less <==> a < b
    ensures c == Equal <==> a == b
    ensures c == Greater <==> a > b
  {
    if a < b then Less else if a == b then Equal else Greater
  }

  /** Rust's `Ord` on `String`: lexicographic on UTF-8 bytes, which is the same as
      lexicographic on code points; a proper prefix is smaller. */
  function CompareString(a: string, b: string): (c: Cmp)
    ensures c == Equal <==> a == b
  {
    if |a| == 0 && |b| == 0 then Equal
    else if |a| == 0 then Less
    else if |b| == 0 then Greater
    else if a[0] < b[0] then Less
    else if a[0] > b[0] then Greater
    else
      var c := CompareString(a[1..], b[1..]);
      assert a == [a[0]] + a[1..] && b == [b[0]] + b[1..];
      c
  }

  lemma {:induction false} CompareStringFlip(a: string, b: string)
    ensures CompareString(b, a) == Flip(CompareString(a, b))
    decreases |a|
  {
    if |a| > 0 && |b| > 0 && a[0] == b[0] {
      CompareStringFlip(a[1..], b[1..]);
    }
  }

  lemma {:induction false} CompareStringTransitive(a: string, b: string, c: string)
    requires CompareString(a, b) == Less && CompareString(b, c) == Less
    ensures CompareString(a, c) == Less
    decreases |a|
  {
    if |a| > 0 && |b| > 0 && |c| > 0 && a[0] == b[0] && b[0] == c[0] {
      CompareStringTransitive(a[1..], b[1..], c[1..]);
    }
  }

  /** The visible state two dice are compared on. */
  datatype DieKey = DieKey(face: nat, faces: nat, name: string)

  /** Rust's derived `Ord` on the tuple `(current_face, faces, label)`. */
  function CompareKey(x: DieKey, y: DieKey): Cmp {
    var byFace := CompareNat(x.face, y.face);
    if byFace != Equal then byFace
    else
      var byFaces := CompareNat(x.faces, y.faces);
      if byFaces != Equal then byFaces else CompareString(x.name, y.name)
  }

  /** Keys compare equal exactly when all three components agree. */
  lemma CompareKeyEqual(x: DieKey, y: DieKey)
    ensures CompareKey(x, y) == Equal <==> x == y
  {
  }

  /** Swapping the operands flips the verdict (antisymmetry). */
  lemma CompareKeyFlip(x: DieKey, y: DieKey)
    ensures CompareKey(y, x) == Flip(CompareKey(x, y))
  {
    CompareStringFlip(x.name, y.name);
  }

  lemma CompareKeyTransitive(x: DieKey, y: DieKey, z: DieKey)
    requires CompareKey(x, y) == Less && CompareKey(y, z) == Less
    ensures CompareKey(x, z) == Less
  {
    if x.face == y.face && y.face == z.face && x.faces == y.faces && y.faces == z.faces {
      CompareStringTransitive(x.name, y.name, z.name);
    }
  }
}

=== FILE: results.dfy ===
/** Failure-carrying values shared by every module: Rust's `Option` and `Result`. */
module Results {

  /** Rust's `Option<T>`. */
  datatype Option<+T> = None | Some(value: T)

  /** Rust's `Result<T, E>`. */
  datatype Result<+T, +E> = Ok(value: T) | Err(error: E)

  /** Whether a call returns or panics (an out-of-bounds index, an integer underflow). */
  datatype Run<+T> = Returned(value: T) | Panicked
}

=== FILE: text.dfy ===
/**
 * The string handling both command parsers rely on: Rust's `split_whitespace`,
 * `split(',')`, decimal rendering (`to_string` on an unsigned integer) and
 * `parse::<u32>()` / `parse::<usize>()`.
 */
module Text {
  import opened Results

  /** Largest value of Rust's `u32`. */
  const U32_MAX: nat := 0xFFFF_FFFF
  /** Largest value of Rust's `usize` on a 64-bit target. */
  const USIZE_MAX: nat := 0xFFFF_FFFF_FFFF_FFFF
  /** Bounds of Rust's `i32`. */
  const I32_MIN: int := -0x8000_0000
  const I32_MAX: int := 0x7FFF_FFFF

  /** Rust's `char::is_whitespace`: the Unicode White_Space property. */
  predicate IsWhitespace(c: char) {
    if c <= ' ' then c == ' ' || '\t' <= c <= '\r'
    else if c < '\U{85}' then false
    else
      || c == '\U{85}'
      || c == '\U{A0}'
      || c == '\U{1680}'
      || ('\U{2000}' <= c <= '\U{200A}')
      || c == '\U{2028}'
      || c == '\U{2029}'
      || c == '\U{202F}'
      || c == '\U{205F}'
      || c == '\U{3000}'
  }

  predicate HasNoWhitespace(s: string) {
    forall i :: 0 <= i < |s| ==> !IsWhitespace(s[i])
  }

  /** A token `split_whitespace` can produce: non-empty, no whitespace inside. */
  predicate IsWord(w: string) {
    |w| > 0 && HasNoWhitespace(w)
  }

  predicate IsDigit(c: char) {
    '0' <= c <= '9'
  }

  predicate AllDigits(s: string) {
    forall i :: 0 <= i < |s| ==> IsDigit(s[i])
  }

  /** Length of the longest whitespace-free prefix of `s`. */
  function TokenLength(s: string): (n: nat)
    ensures n <= |s|
    ensures forall i :: 0 <= i < n ==> !IsWhitespace(s[i])
    ensures n == |s| || IsWhitespace(s[n])
  {
    if |s| == 0 || IsWhitespace(s[0]) then 0 else 1 + TokenLength(s[1..])
  }

  /** Rust's `str::split_whitespace`: the maximal whitespace-free runs, in order. */
  function SplitWhitespace(s: string): (words: seq<string>)
    ensures forall i :: 0 <= i < |words| ==> IsWord(words[i])
    decreases |s|
  {
    if |s| == 0 then []
    else if IsWhitespace(s[0]) then SplitWhitespace(s[1..])
    else
      var n := TokenLength(s);
      [s[..n]] + SplitWhitespace(s[n..])
  }

  /** The pieces glued together with `sep` between neighbours (Rust's `join`). */
  function Join(pieces: seq<string>, sep: char): string {
    if |pieces| == 0 then ""
    else if |pieces| == 1 then pieces[0]
    else pieces[0] + [sep] + Join(pieces[1..], sep)
  }

  lemma {:induction false} TokenLengthOfWord(w: string, rest: string)
    requires HasNoWhitespace(w)
    requires |rest| == 0 || IsWhitespace(rest[0])
    ensures TokenLength(w + rest) == |w|
    decreases |w|
  {
    if |w| > 0 {
      assert (w + rest)[1..] == w[1..] + rest;
      TokenLengthOfWord(w[1..], rest);
    } else {
      assert w + rest == rest;
    }
  }

  /** Splitting words joined by single spaces gives the words back. */
  lemma {:induction false} SplitJoinedWords(words: seq<string>)
    requires forall i :: 0 <= i < |words| ==> IsWord(words[i])
    ensures SplitWhitespace(Join(words, ' ')) == words
    decreases |words|
  {
    if |words| == 1 {
      var w := words[0];
      TokenLengthOfWord(w, "");
      assert w + "" == w;
      assert w[|w|..] == "";
    } else if |words| > 1 {
      var w := words[0];
      var rest := Join(words[1..], ' ');
      var s := w + ([' '] + rest);
      assert Join(words, ' ') == s;
      TokenLengthOfWord(w, [' '] + rest);
      assert s[..|w|] == w;
      assert s[|w|..] == [' '] + rest;
      assert ([' '] + rest)[1..] == rest;
      SplitJoinedWords(words[1..]);
      assert [w] + words[1..] == words;
    }
  }

  /** Joining whitespace-free pieces with a non-whitespace separator gives a
      whitespace-free string at least as long as the first piece. */
  lemma {:induction false} JoinNoWhitespace(pieces: seq<string>, sep: char)
    requires !IsWhitespace(sep)
    requires forall i :: 0 <= i < |pieces| ==> HasNoWhitespace(pieces[i])
    ensures HasNoWhitespace(Join(pieces, sep))
    ensures |pieces| >= 1 ==> |Join(pieces, sep)| >= |pieces[0]|
    ensures |pieces| >= 2 ==> sep in Join(pieces, sep)
    decreases |pieces|
  {
    if |pieces| >= 2 {
      JoinNoWhitespace(pieces[1..], sep);
      var s := pieces[0] + [sep] + Join(pieces[1..], sep);
      assert s[|pieces[0]|] == sep;
      forall i | 0 <= i < |s|
        ensures !IsWhitespace(s[i])
      {
        if i < |pieces[0]| {
          assert s[i] == pieces[0][i];
        } else if i > |pieces[0]| {
          assert s[i] == Join(pieces[1..], sep)[i - |pieces[0]| - 1];
        }
      }
    }
  }

  /** `str::trim_start`: drops leading whitespace. */
  function TrimStart(s: string): (r: string)
    ensures |r| <= |s| && r == s[|s| - |r|..]
    ensures |r| == 0 || !IsWhitespace(r[0])
    ensures forall i :: 0 <= i < |s| - |r| ==> IsWhitespace(s[i])
    ensures |s| == 0 || !IsWhitespace(s[0]) ==> r == s
  {
    if |s| > 0 && IsWhitespace(s[0]) then
      var r := TrimStart(s[1..]);
      assert forall i :: 1 <= i < |s| ==> s[i] == s[1..][i - 1];
      r
    else s
  }

  /** `str::trim_end`: drops trailing whitespace. */
  function TrimEnd(s: string): (r: string)
    ensures |r| <= |s| && r == s[..|r|]
    ensures |r| == 0 || !IsWhitespace(r[|r| - 1])
    ensures forall i :: |r| <= i < |s| ==> IsWhitespace(s[i])
    ensures |s| == 0 || !IsWhitespace(s[|s| - 1]) ==> r == s
  {
    if |s| > 0 && IsWhitespace(s[|s| - 1]) then
      var r := TrimEnd(s[..|s| - 1]);
      assert forall i :: 0 <= i < |s| - 1 ==> s[i] == s[..|s| - 1][i];
      r
    else s
  }

  /** `str::trim`: whitespace is removed from both ends and nowhere else. */
  function Trim(s: string): (r: string)
    ensures |r| == 0 || (!IsWhitespace(r[0]) && !IsWhitespace(r[|r| - 1]))
    ensures HasNoWhitespace(s) ==> r == s
    ensures |s| > 0 && !IsWhitespace(s[0]) && !IsWhitespace(s[|s| - 1]) ==> r == s
  {
    TrimEnd(TrimStart(s))
  }

  /** Position of the first `c` in `s`, or `|s|` when there is none. */
  function IndexOf(s: string, c: char): (i: nat)
    ensures i <= |s|
    ensures i < |s| ==> s[i] == c
    ensures forall j :: 0 <= j < i ==> s[j] != c
  {
    if |s| == 0 || s[0] == c then 0 else 1 + IndexOf(s[1..], c)
  }

  /** Rust's `str::split(c)`: always at least one piece; joining them with `c` restores `s`. */
  function SplitOn(s: string, c: char): (pieces: seq<string>)
    ensures |pieces| >= 1
    ensures forall i :: 0 <= i < |pieces| ==> c !in pieces[i]
    ensures Join(pieces, c) == s
    decreases |s|
  {
    var i := IndexOf(s, c);
    if i == |s| then
      assert c !in s;
      [s]
    else
      var rest := SplitOn(s[i + 1..], c);
      var pieces := [s[..i]] + rest;
      assert c !in s[..i];
      assert pieces[1..] == rest;
      assert s == s[..i] + [c] + s[i + 1..];
      pieces
  }

  lemma {:induction false} IndexOfAfterPiece(p: string, c: char, rest: string)
    requires c !in p
    ensures IndexOf(p + [c] + rest, c) == |p|
    decreases |p|
  {
    if |p| > 0 {
      assert (p + [c] + rest)[1..] == p[1..] + [c] + rest;
      IndexOfAfterPiece(p[1..], c, rest);
    }
  }

  /** Splitting on `c` inverts joining with `c` when no piece contains `c`. */
  lemma {:induction false} SplitJoined(pieces: seq<string>, c: char)
    requires |pieces| >= 1
    requires forall i :: 0 <= i < |pieces| ==> c !in pieces[i]
    ensures SplitOn(Join(pieces, c), c) == pieces
    decreases |pieces|
  {
    var p := pieces[0];
    if |pieces| == 1 {
      assert IndexOf(p, c) == |p|;
    } else {
      var rest := Join(pieces[1..], c);
      var s := p + [c] + rest;
      assert Join(pieces, c) == s;
      IndexOfAfterPiece(p, c, rest);
      assert s[..|p|] == p;
      assert s[|p| + 1..] == rest;
      SplitJoined(pieces[1..], c);
      assert [p] + pieces[1..] == pieces;
    }
  }

  function DigitValue(c: char): nat
    requires IsDigit(c)
  {
    (c as int) - ('0' as int)
  }

  function DigitChar(d: nat): (c: char)
    requires d < 10
    ensures IsDigit(c) && DigitValue(c) == d
  {
    (('0' as int) + d) as char
  }

  /** The value of a string of decimal digits, leading zeros allowed. */
  function DigitsValue(s: string): nat
    requires AllDigits(s)
  {
    if |s| == 0 then 0 else 10 * DigitsValue(s[..|s| - 1]) + DigitValue(s[|s| - 1])
  }

  /** Decimal rendering of `n` (Rust's `to_string` on an unsigned integer):
      digits only, and a leading '0' exactly when `n` is zero. */
  function NatToString(n: nat): (s: string)
    ensures |s| >= 1 && AllDigits(s)
    ensures s[0] == '0' <==> n == 0
    ensures n == 0 ==> |s| == 1
  {
    if n < 10 then [DigitChar(n)] else NatToString(n / 10) + [DigitChar(n % 10)]
  }

  /** Reading back a rendered number gives the number. */
  lemma {:induction false} DigitsOfNatToString(n: nat)
    ensures DigitsValue(NatToString(n)) == n
    decreases n
  {
    var s := NatToString(n);
    if n >= 10 {
      assert s[..|s| - 1] == NatToString(n / 10);
      DigitsOfNatToString(n / 10);
    } else {
      assert s[..0] == "";
    }
  }

  lemma {:induction false} DigitsValueOfNonZeroLead(s: string)
    requires AllDigits(s) && |s| >= 1 && s[0] != '0'
    ensures DigitsValue(s) >= 1
    decreases |s|
  {
    if |s| > 1 {
      DigitsValueOfNonZeroLead(s[..|s| - 1]);
    }
  }

  /** Rendering the value of a canonical digit string (no superfluous leading zero) gives it back. */
  lemma {:induction false} NatToStringOfDigits(s: string)
    requires AllDigits(s) && |s| >= 1
    requires s[0] == '0' ==> |s| == 1
    ensures NatToString(DigitsValue(s)) == s
    decreases |s|
  {
    var p := s[..|s| - 1];
    if |p| == 0 {
      assert DigitsValue(s) == DigitValue(s[0]);
      assert DigitChar(DigitValue(s[0])) == s[0];
    } else {
      var n := DigitsValue(s);
      DigitsValueOfNonZeroLead(p);
      assert n / 10 == DigitsValue(p) && n % 10 == DigitValue(s[|s| - 1]);
      NatToStringOfDigits(p);
      assert DigitChar(DigitValue(s[|s| - 1])) == s[|s| - 1];
      assert s == p + [s[|s| - 1]];
    }
  }

  /** Rust's `str::parse` for an unsigned integer type whose largest value is `max`:
      an optional single leading '+', then one or more ASCII digits, and no overflow. */
  function ParseUnsigned(s: string, max: nat): (r: Option<nat>)
    ensures r.Some? ==> r.value <= max
    ensures r.Some? ==> |s| > 0 && (AllDigits(s) || (s[0] == '+' && AllDigits(s[1..])))
    ensures |s| > 0 && AllDigits(s) ==> (r.Some? <==> DigitsValue(s) <= max)
    ensures |s| == 0 ==> r.None?
  {
    var body := if |s| > 0 && s[0] == '+' then s[1..] else s;
    if |body| > 0 && AllDigits(body) && DigitsValue(body) <= max then Some(DigitsValue(body)) else None
  }

  /** A rendered number parses back exactly when it fits the target type. */
  lemma ParseRendered(n: nat, max: nat)
    ensures ParseUnsigned(NatToString(n), max) == if n <= max then Some(n) else None
  {
    DigitsOfNatToString(n);
  }
}

=== FILE: tray_api.dfy ===
/** The tray-level result vocabulary of the current generation and its rendering. */
module TrayApi {
  import opened Text

  /** How a tray aggregates its dice's results. */
  datatype TrayResultType = TraySum | TrayBest | TrayWorst

  /** A tray's aggregate result. */
  datatype TrayResult = TrayNumber(n: nat) | TrayText(s: string) | TrayNone

  /** `TrayResultType::to_string`. */
  function TypeToString(t: TrayResultType): string {
    match t
    case TraySum => "Tray sum"
    case TrayBest => "High roll in tray"
    case TrayWorst => "Worst roll in tray"
  }

  /** The three captions are distinct, so the caption names the aggregate type. */
  lemma TypeToStringInjective(a: TrayResultType, b: TrayResultType)
    ensures TypeToString(a) == TypeToString(b) <==> a == b
  {
  }

  /** `TrayResult::to_string`: a number renders as decimal digits that read back as the
      number, a text as itself, and no result as "None". */
  function ResultToString(r: TrayResult): (s: string)
    ensures r.TrayNumber? ==> |s| > 0 && AllDigits(s) && DigitsValue(s) == r.n
    ensures r.TrayText? ==> s == r.s
    ensures r.TrayNone? ==> s == "None"
  {
    match r
    case TrayNumber(k) => DigitsOfNatToString(k); NatToString(k)
    case TrayText(t) => t
    case TrayNone => "None"
  }
}
